=== FILE: README.md ===
# Design portfolio tooling — a Dafny model of its pure core

The repository is a design portfolio site. Most of it is browser UI, with a few
maintenance scripts beside it. This project models the parts that are plain
string and tree logic, and proves properties of them:

- **The code generator** (`js/code-generator.js`). It turns a design (a forest
  of named components with optional content and styles, plus a map of design
  variables) into HTML, React, Vue or Angular source. The model covers
  `generateCode`'s dispatch over the four framework keys, the four recursive
  child walkers, `sanitizeClassName`, the CSS variable and component style
  emitters, the fixed base styles and page templates, `minifyCode`,
  `formatCode` and `validateCode` with its HTML and CSS checks.
- **The Figma integration helpers** (`js/figma-integration.js`). The model
  covers `parseFigmaUrl`, `validateNodeId`, `extractComponentsFromMetadata`, the
  integration's own `generateCSSVariables`, the "initialised" flag that gates
  the five data accessors, and the `getMockCode` fallback.
- **The project page updater** (`design_quick_look/update_projects.py`). The
  model covers the image filter, the manifest, the folder-to-display-name
  conversion, grid item numbering, the nested `<div>` depth scan that finds the
  end of the grid, the `projectNames` block and its replacement in the page.
- **The asset organiser** (`design_quick_look/organize_assets.py`). The model
  covers which files are renamed, their order and their `asset_NNN.ext` names,
  and the manifest entries written for a discipline after the move.

Files, one module each:

- `wrappers.dfy`: `Option` and `Result`.
- `text.dfy`: ASCII character classes and case mapping, substring search
  (Python's `find`), line splitting, stripping and decimal numerals.
- `collections.dfy`: filtering, Python's string order and a stable sort by key.
- `class_name.dfy`: `sanitizeClassName`.
- `markup.dfy`: the component tree, the four walkers and the root loop. The
  walkers are proved equal to one generic walk, which is then described as a
  stream of open/text/close events.
- `styles.dfy`: CSS variables, base styles and component styles.
- `code_generator.dfy`: the framework table, the templates, dispatch, minify,
  format and validate.
- `figma.dfy`: the Figma integration helpers.
- `paths.dfy`: directory entries, `pathlib`'s suffix rule and the image test
  both scripts share.
- `update_projects.dfy` and `organize_assets.dfy`: the planning steps of the
  two scripts.

Conventions used throughout:

- JavaScript objects and Python dicts become sequences of key/value pairs in
  iteration order.
- Directory listings, the thumbnail lookup, previously kept span classes and
  the JavaScript parser are parameters.
- Strings are ASCII as far as case mapping and digit tests go.
- Each generator's top-level loop over the roots is its own loop in the
  source. The model writes all four as one root loop, `Markup.RootLoop`, given
  the framework's attribute name, root indentation and inner indentation.
  Roots open and close at two spaces for HTML, twelve for React and Angular,
  and eight for Vue. A root's children and content start two spaces deeper
  for HTML, the same step the child walkers take, and four spaces deeper for
  the other three. The loop calls the shared walk, which each framework's
  child walker is proved equal to.

## Model

| member | source | states |
|---|---|---|
| ClassName.Mask | js/code-generator.js:359-361 | position by position, a character whose lower-case form is in `[a-z0-9]` becomes that form and every other character becomes `-`; the length is kept and only `[a-z0-9-]` is left |
| ClassName.CollapseDashes | js/code-generator.js:362 | after collapsing runs of dashes there is no `--`; the result is no longer than the input, keeps its first and last character and keeps every letter and digit in order |
| ClassName.TrimDashFacts | js/code-generator.js:363 | removing one dash at each end of a string without `--` leaves no dash at either end, still no `--`, and the same letters and digits |
| ClassName.SanitizeProperties | js/code-generator.js:358-364 | a sanitised name uses only `[a-z0-9-]`, has no `--` and no dash at either end, keeps every ASCII letter (lower-cased) and digit of the name in order, and is empty exactly when the name has none; it is the maximal `[a-z0-9]` runs of the lower-cased name joined by single dashes, so every separator between two runs becomes exactly one `-` |
| ClassName.SanitizeKeepsRuns | js/code-generator.js:358-364 | masking, collapsing dashes and trimming end dashes keep the maximal `[a-z0-9]` runs of the lower-cased name |
| ClassName.CanonicalIsJoinedRuns | js/code-generator.js:362-363 | a canonical token is its `[a-z0-9]` runs joined by single dashes |
| ClassName.CanonicalUnchanged | js/code-generator.js:358-364 | a string that is already a canonical token passes through unchanged |
| ClassName.SanitizeFixedPoints | js/code-generator.js:358-364 | a string is left unchanged if and only if it is a canonical token |
| ClassName.SanitizeIdempotent | js/code-generator.js:358-364 | sanitising twice gives the same as sanitising once |
| CodeGenerator.HeroBannerSanitized | js/code-generator.js:358-364 | the display name "Hero Banner" becomes the class `hero-banner` |
| Markup.HtmlChildrenIsWalk | js/code-generator.js:160-177 | the HTML walker is the generic walk with attribute `class` |
| Markup.ReactChildrenIsWalk | js/code-generator.js:210-227 | the React walker is the generic walk with attribute `className` |
| Markup.VueChildrenIsWalk | js/code-generator.js:287-304 | the Vue walker is the generic walk with attribute `class` |
| Markup.AngularChildrenIsWalk | js/code-generator.js:339-356 | the Angular walker is the generic walk with attribute `class` |
| Markup.WalkersAgree | js/code-generator.js:160-356 | the HTML, Vue and Angular walkers give identical text for every forest and indent; React gives the same walk with `className` |
| Markup.WalkRendersEvents | js/code-generator.js:160-177 | the walk's text is, line by line, the rendering of its event stream; an event at depth d is indented by the base indent plus 2·d spaces |
| Markup.WalkLines | js/code-generator.js:160-177 | when content and indent hold no newline, splitting the output into lines gives exactly one line per event |
| Markup.EventsWellNested | js/code-generator.js:160-177 | every opening `<div>` line is matched by a closing line at the same depth, properly nested, and content lines sit one level inside their node |
| Markup.EventCounts | js/code-generator.js:160-177 | the walk emits exactly one opening and one closing line per node of the forest, and one content line per node whose content is shown |
| Markup.EmptyChildrenSuppressContent | js/code-generator.js:147-171 | a node with an empty (but present) children list renders as its opening and closing lines only, whatever its content |
| Styles.CssVarName | js/code-generator.js:92 | a variable name is the key with each `/` turned into `-` and every other character lower-cased, position by position, so it holds no `/` and no upper-case letter |
| Styles.CssVariables | js/code-generator.js:85-97 | the variable block is empty exactly when there are no variables |
| Styles.CssVariablesLines | js/code-generator.js:85-97 | a non-empty variable map gives the lines `:root {`, one `  --name: value;` per entry in order, `}` and an empty line |
| Styles.ComponentStylesAreBlocks | js/code-generator.js:121-138 | the component stylesheet is one rule block per top-level component, in order, even when it has no styles |
| Styles.ComponentStylesLines | js/code-generator.js:121-138 | split into lines, the stylesheet is exactly the concatenated blocks: selector, one line per declaration, `}` and an empty line |
| Styles.ComponentStylesTopLevelOnly | js/code-generator.js:121-138 | two forests whose roots agree in name and styles give the same stylesheet; children and content play no part |
| CodeGenerator.FrameworkOf | js/code-generator.js:4-25 | exactly the keys html, react, vue and angular are registered |
| CodeGenerator.GenerateCode | js/code-generator.js:28-35 | any other key fails with an error naming that key; a known key succeeds, and returns the component/stylesheet/manifest triple exactly for react |
| Markup.RootLoopIsWalk | js/code-generator.js:140-177 | a root loop whose inner indentation is two spaces deeper than its roots prints exactly the child walk at the root indentation |
| Markup.RootLoopHasBlocks | js/code-generator.js:143-154 | each root appears as its opening line at the root indentation, then the walk of its children from the inner indentation when it has a children array, else its content line at the inner indentation when the content is shown, else nothing, then its closing line at the root indentation |
| CodeGenerator.HtmlLoopIsWalk | js/code-generator.js:140-177 | the HTML structure's root loop (roots at two spaces, children and content at four) prints exactly what `generateHTMLChildren` prints for the same components at two spaces |
| CodeGenerator.HtmlEmbedsTree | js/code-generator.js:37-58 | the HTML document contains the root loop, and so the class walk of the whole forest at two spaces |
| CodeGenerator.ReactEmbedsTree | js/code-generator.js:179-208 | the React component contains the `className` root loop with roots at twelve spaces and their children and content at sixteen |
| CodeGenerator.VueEmbedsTree | js/code-generator.js:251-285 | the Vue component contains the class root loop with roots at eight spaces and their children and content at twelve |
| CodeGenerator.AngularEmbedsTree | js/code-generator.js:306-337 | the Angular component contains the class root loop with roots at twelve spaces and their children and content at sixteen |
| CodeGenerator.GeneratedEmbedsTree | js/code-generator.js:28-337 | whatever framework is chosen, its markup holds, for each root with a children array, the root's opening line at the framework's root indentation, the walk of its children from two spaces deeper (HTML) or four (React, Vue, Angular), and its closing line; a root with shown content holds that content at the same inner indentation |
| CodeGenerator.FormatCode | js/code-generator.js:367-370 | formatting returns the code unchanged |
| CodeGenerator.CollapseSpaces | js/code-generator.js:374 | after collapsing, no two whitespace characters are adjacent, every whitespace is a plain space, and the non-whitespace characters are unchanged and in order |
| CodeGenerator.MinifyCode | js/code-generator.js:372-375 | minified code starts and ends with non-whitespace, never has two whitespace characters in a row, uses only plain spaces, and keeps every non-whitespace character in order |
| CodeGenerator.CollapseKeepsWords | js/code-generator.js:374 | collapsing whitespace runs leaves the words (the maximal runs of non-whitespace characters) unchanged |
| CodeGenerator.CanonicalIsJoin | js/code-generator.js:372-375 | text with no whitespace at its ends, none doubled and only plain spaces is its own words joined by single spaces |
| CodeGenerator.MinifyIsJoinedWords | js/code-generator.js:372-375 | minified code is exactly the words of the input joined by single spaces |
| CodeGenerator.CollapseFixes | js/code-generator.js:374 | text that already has single plain spaces is left unchanged by collapsing |
| CodeGenerator.MinifyIdempotent | js/code-generator.js:372-375 | minifying twice gives the same as minifying once |
| CodeGenerator.ValidateCssIff | js/code-generator.js:397-401 | the `{[^}]*}` test succeeds exactly when some `{` comes before some `}` |
| CodeGenerator.ValidateCode | js/code-generator.js:377-401 | an unknown language is valid; html needs `<!DOCTYPE`, `<html` and `<body`; css needs a `{` before a `}`; javascript is what the parser says |
| CodeGenerator.BaseStylesValid | js/code-generator.js:99-119 | the base stylesheet passes the CSS check |
| CodeGenerator.HtmlHasMarkers | js/code-generator.js:37-58 | every generated HTML document passes the HTML check |
| CodeGenerator.HtmlStylesValid | js/code-generator.js:37-58 | every generated HTML document passes the CSS check |
| CodeGenerator.GeneratedPassesValidators | js/code-generator.js:377-401 | the validators accept the generated HTML as html and as css, and the React stylesheet as css |
| FigmaIntegration.FindMatch | js/figma-integration.js:160 | finds the first position where `node-id=` is followed by a non-`&` character, or reports that there is none |
| FigmaIntegration.ParseFigmaUrl | js/figma-integration.js:158-165 | the result is null exactly when no `node-id=` is followed by a non-`&` character; a found id is non-empty and holds neither `-` nor `&` |
| FigmaIntegration.ParseSegment | js/figma-integration.js:158-165 | after any text holding no earlier `node-id=` (other query parameters such as `?type=design&` included), a non-empty value without `&`, ended by `&` or the end, is parsed as that value with every `-` turned into `:`; a `:` already in the value is kept |
| FigmaIntegration.ParseRoundTrip | js/figma-integration.js:158-165 | an id without `-` or `&`, written into a URL with its colons as dashes after any text holding no earlier `node-id=`, and ended by `&` or the end, is parsed back exactly |
| FigmaIntegration.ParseAfterEarlierParameter | js/figma-integration.js:158-165 | a link of the form `…?type=design&node-id=1-2`, with no `=` before the `?`, parses to `1:2` |
| FigmaIntegration.ValidateNodeId | js/figma-integration.js:167-171 | true exactly for one or more ASCII digits, `:`, one or more ASCII digits |
| FigmaIntegration.ValidIdRoundTrip | js/figma-integration.js:158-171 | every valid node id survives the trip through a URL and back, whatever parameters other than `node-id=` precede it |
| FigmaIntegration.TraverseIsFilter | js/figma-integration.js:390-402 | the recursive visit appends, to what was collected before, the components of the subtree in pre-order |
| FigmaIntegration.ExtractIsPreorderFilter | js/figma-integration.js:387-406 | the extraction is exactly the COMPONENT and INSTANCE nodes in pre-order with id, name and type; it is never longer than the tree, and every such node, also under a non-matching parent, appears |
| FigmaIntegration.IntegrationCssVariables | js/figma-integration.js:408-416 | the block always opens with `:root {` and ends with `}` and one newline, also for no variables |
| FigmaIntegration.IntegrationCssVariablesLines | js/figma-integration.js:408-416 | for single-line keys and values the block's lines are `:root {`, one `  --name: value;` per entry in order with each `/` of the key turned into `-` and its case kept, and `}` |
| FigmaIntegration.CssVariablesAgree | js/figma-integration.js:408-416 | for keys without upper-case letters the integration's block is the generator's block minus its final empty line; for no variables the generator gives nothing and the integration an empty `:root` block |
| FigmaIntegration.Initialize | js/figma-integration.js:14-40 | initialising sets the flag, reports success and records every tool the host offers |
| FigmaIntegration.GetMockCode | js/figma-integration.js:339 | an unknown framework key gets the HTML template; each of react, vue and angular gets its own |
| FigmaIntegration.AccessorGate | js/figma-integration.js:42-156 | every accessor fails with "not initialized" exactly when the flag is unset; once set, an available tool is called with the requested node id, and otherwise the mock answers, for code the mock of the requested framework |
| FigmaIntegration.InitializeOpensGate | js/figma-integration.js:14-156 | before initialisation every accessor fails; after it every accessor succeeds, remotely exactly for the tools present |
| Text.FindFrom | design_quick_look/update_projects.py:154 | Python's `find` from a start: -1 exactly when there is no occurrence at or after it, else the first one |
| Text.Strip | design_quick_look/update_projects.py:90 | the stripped string occurs in the input with only whitespace before and after it, and is empty or starts and ends with a non-space |
| Text.ZeroPad | design_quick_look/organize_assets.py:57 | the padded numeral denotes the number and is its decimal numeral preceded by zeros only; it is exactly the width long unless the numeral alone is longer, and then it is the numeral |
| Text.DecimalLength | design_quick_look/organize_assets.py:57 | a number's decimal numeral has at most k digits exactly when the number is below 10^k |
| Collections.SortBy | design_quick_look/organize_assets.py:46 | the result is ordered by the key and is a permutation of the input |
| Collections.Sorted | design_quick_look/update_projects.py:103 | the ids come out in ascending order and are a permutation of the input |
| Paths.Suffix | design_quick_look/update_projects.py:23 | a suffix is empty or a dotted tail of the name of at least two characters with no further dot, shorter than the name |
| UpdateProjects.ProjectImagesSorted | design_quick_look/update_projects.py:19-26 | the image list is ascending and has one name per project image of the listing |
| UpdateProjects.ProjectImagesComplete | design_quick_look/update_projects.py:19-26 | every file with an image suffix and no "thumbnail" in its lower-cased name is listed |
| UpdateProjects.ProjectImagesSound | design_quick_look/update_projects.py:19-26 | every listed name is such a file of the listing |
| UpdateProjects.ProjectImagesSpec | design_quick_look/update_projects.py:19-26 | the images are, in ascending order, exactly the names of the regular files with an image suffix (any case) and no "thumbnail" in the lower-cased name |
| UpdateProjects.UpdateManifestSpec | design_quick_look/update_projects.py:28-42 | the manifest is keyed in ascending order by directory name, each directory with its image list, and every directory of the folder is present |
| UpdateProjects.StripNumberPrefix | design_quick_look/update_projects.py:47 | the result is a suffix of the name, and equals the name exactly when it does not start with digits and `_` |
| UpdateProjects.StripsOnePrefix | design_quick_look/update_projects.py:47 | only one digits-and-underscore prefix is removed, however many follow |
| UpdateProjects.TitleSpec | design_quick_look/update_projects.py:49 | title-casing capitalises each word and lower-cases the rest, changes no character other than in case, and is idempotent |
| UpdateProjects.ProjectNameSpec | design_quick_look/update_projects.py:44-50 | a display name holds no `_`, is title-cased, and is the folder name without its number prefix up to case and with underscores as spaces |
| UpdateProjects.SpanClass | design_quick_look/update_projects.py:109-111 | a kept span class is emitted as nothing when missing or blank, else as exactly one space followed by the stripped class |
| UpdateProjects.GridItemsNumbering | design_quick_look/update_projects.py:100-118 | there is one item per project with a thumbnail, in order, numbered consecutively from 1; projects without one are skipped and take no number |
| UpdateProjects.GridItemsFields | design_quick_look/update_projects.py:100-118 | every item carries its project's thumbnail, its kept span class and its display name |
| UpdateProjects.ScanFrom | design_quick_look/update_projects.py:130-138 | the loop ends just past the first closing tag that brings the depth back to zero, or gives -1 when there is none |
| UpdateProjects.GridEnd | design_quick_look/update_projects.py:127-138 | the grid end is -1 exactly when no closing tag brings the depth back to zero; otherwise it lies just past the first such tag |
| UpdateProjects.RStripChars | design_quick_look/update_projects.py:149 | the result is the longest prefix of the text that does not end in a stripped character: it is a prefix, everything cut off is a stripped character, and its own last character is not |
| UpdateProjects.NamesBlockShape | design_quick_look/update_projects.py:145-149 | the `projectNames` object lists the ids one per line, separated by commas with none after the last; with no ids it is empty |
| UpdateProjects.ReplaceNamesAsWrittenDuplicates | design_quick_look/update_projects.py:152-155 | on any text holding the key with no `};` after it, the replacement as written gives the text before the key, the new block, then the whole text again from its second character |
| UpdateProjects.ReplaceNamesCounterexample | design_quick_look/update_projects.py:152-155 | on a page holding the key but no `};`, the replacement as written keeps the key's text after the new block; the corrected one leaves the page alone |
| UpdateProjects.ReplaceNames | design_quick_look/update_projects.py:152-155 | the page is left unchanged when it has no `projectNames` key or no `};` after it |
| UpdateProjects.ReplaceNamesSpec | design_quick_look/update_projects.py:152-155 | otherwise the text before the first key and after the next `};` is kept and the new block stands between |
| UpdateProjects.UpdateHtml | design_quick_look/update_projects.py:121-155 | the update stops exactly when the page has no grid; when the grid's end is not found the grid is left unchanged and only the names object is replaced |
| OrganizeAssets.LowerSuffix | design_quick_look/organize_assets.py:54 | the extension used is the file's suffix lower-cased character by character: as long as the suffix, no upper-case letter, and starting with a dot when there is a suffix |
| OrganizeAssets.AssetNameShape | design_quick_look/organize_assets.py:57 | an asset name is `asset_`, then digits that denote the counter, then the extension; the digits are exactly three for a counter below 1000 and the unpadded numeral from 1000 on |
| OrganizeAssets.AssetNamesDiffer | design_quick_look/organize_assets.py:57 | different counters give different names, whatever the two extensions |
| OrganizeAssets.SelectionSpec | design_quick_look/organize_assets.py:36-46 | the selected files are the listing's project images, one each, ordered by lower-cased name |
| OrganizeAssets.OrganizePlanSpec | design_quick_look/organize_assets.py:25-70 | a missing folder gives no moves; otherwise one move per selected file, sources ordered by lower-cased name, and the k-th move numbered k with the file's lower-cased suffix |
| OrganizeAssets.OrganizeTargetsDistinct | design_quick_look/organize_assets.py:49-70 | no two moves share a target name |
| OrganizeAssets.EverySelectedRenamed | design_quick_look/organize_assets.py:38-70 | every project image of the folder is moved |
| OrganizeAssets.AssetImagesSpec | design_quick_look/organize_assets.py:86-92 | a project's image list is ascending and has one entry per image file of its `assets` folder; every entry is `assets/` followed by the name of an image file of that folder, and every such file is listed |
| OrganizeAssets.DisciplineManifestSpec | design_quick_look/organize_assets.py:72-98 | a missing discipline gives no entries; otherwise the keys are ascending, each key is a visible project directory with an `assets` folder paired with that folder's images, and every such directory is present |

## Left out

- File and network I/O: reading and writing `index.html` and `manifest.json`, `iterdir`, `mkdir`, `shutil.move`, the JSON formatting, console output and the scripts' `main` loops. Listings come in as values and results go out as values.
- `find_thumbnail_for_project` globs the thumbnail folder. It is a parameter `thumb`.
- The regular-expression scan in `update_html` that collects the existing span classes is a parameter `spans`. Only the stripping and the leading-space rule applied to its results are modelled.
- `validateJavaScript` relies on the JavaScript engine's parser. It is a parameter `parses`.
- The MCP tool calls are asynchronous foreign functions. A call is modelled as the request it would make, so its reply and its errors are not modelled.
- The mock payloads (metadata, code templates, screenshot, variables, code-connect map) are static data. They are opaque tags.
- `exportCode` and `copyToClipboard` touch the browser, and `formatCodeForDisplay` in the integration is the identity. None of them is modelled.
- Plain-object lookups in JavaScript also find inherited keys such as `toString`: `generateCode` then calls a non-template and `getMockCode` returns a function. The model treats such keys as unknown.
- CodeGenerator.ValidateCode: for an inherited key such as `toString` or `hasOwnProperty`, `validateCode` calls that inherited function on the code, which returns a string or throws. The model returns true for these keys, as for any other unknown language.
- Default arguments are passed explicitly: `generateCode` and `validateCode` default to `'html'`, and the integration's accessors default `nodeId` to `null` and `framework` to `'html'`. Callers give `"html"` or `None`.
- `Object.entries` lists integer-like keys first. Maps are kept in insertion order.
- Case mapping, Python's whitespace for `str.strip`, and `\d` are ASCII only. JavaScript's `\s` and `trim` are modelled with their full whitespace set.
- Paths are compared by their final name only. Python sorts `Path` objects by all their parts, which agrees for entries of one directory.
- An `assets` entry that exists but is a file makes `iterdir` raise. The model only distinguishes an `assets` directory from none.
- UpdateProjects.UpdateHtml: the names object is replaced with the corrected `ReplaceNames`, not the code as written (see Findings). On a page with the key but no `};` after it, the model leaves the names alone, while the script writes the new block and then the page again from its second character. The contract states the no-grid and no-grid-end cases. When the end is found, the grid text follows from `GridEnd`, `GridContent`, `GridItemsNumbering` and `GridItemsFields`, and is not repeated in one `ensures`.

## Findings

| source | as written | input that shows it | evidently intended | confidence | as-written member | corrected member |
|---|---|---|---|---|---|---|
| design_quick_look/update_projects.py:154 | the end of the `projectNames` object is `find('};', names_start) + 2`, which is 1 when no `};` follows the key | a page with a grid and, after it, the key with no `};` following, such as `<div class="grid"></div>const projectNames = {`: the grid is rewritten, then line 154 finds no `};`, so the new block is written and then the rewritten page again from its second character, and the old key survives after it | leave the page unchanged when the object has no `};` | not executed | UpdateProjects.ReplaceNamesCounterexample | UpdateProjects.ReplaceNames |

=== FILE: class_name.dfy ===
/**
  Derivation of a CSS class token from a component's display name
  (`sanitizeClassName`): lower-case, turn every character outside `[a-z0-9]`
  into `-`, collapse runs of `-`, then drop one leading and one trailing `-`.
 */
module ClassName {
  import opened Text

  /** Characters that survive sanitising unchanged. */
  predicate IsSlugChar(c: char) { IsLower(c) || IsDigit(c) }

  /** Characters a class token may contain. */
  predicate IsClassChar(c: char) { IsSlugChar(c) || c == '-' }

  predicate NoDoubleDash(s: string) {
    forall i :: 0 <= i < |s| - 1 ==> !(s[i] == '-' && s[i + 1] == '-')
  }

  /** The shape every sanitised name has. */
  predicate IsCanonical(s: string) {
    && (forall i :: 0 <= i < |s| ==> IsClassChar(s[i]))
    && NoDoubleDash(s)
    && (|s| > 0 ==> s[0] != '-' && s[|s| - 1] != '-')
  }

  /** The `[a-z0-9]` characters of `s`, in order. */
  function SlugChars(s: string): string {
    if s == [] then []
    else if IsSlugChar(s[0]) then [s[0]] + SlugChars(s[1..])
    else SlugChars(s[1..])
  }

  lemma {:induction false} SlugCharsAppend(a: string, b: string)
    ensures SlugChars(a + b) == SlugChars(a) + SlugChars(b)
  {
    if a == [] {
      assert a + b == b;
    } else {
      assert (a + b)[1..] == a[1..] + b;
      SlugCharsAppend(a[1..], b);
    }
  }

  // -------------------------------------------------------------- slug runs

  /** The leading run of `[a-z0-9]` characters of `s`. */
  function Run(s: string): (r: string)
    ensures |r| <= |s| && r == s[..|r|]
    ensures forall i :: 0 <= i < |r| ==> IsSlugChar(r[i])
    ensures |r| < |s| ==> !IsSlugChar(s[|r|])
  {
    if s == [] || !IsSlugChar(s[0]) then [] else [s[0]] + Run(s[1..])
  }

  /** The maximal runs of `[a-z0-9]` characters of `s`, in order. */
  function SlugRuns(s: string): seq<string>
    decreases |s|
  {
    if s == [] then []
    else if !IsSlugChar(s[0]) then SlugRuns(s[1..])
    else [Run(s)] + SlugRuns(s[|Run(s)|..])
  }

  /** A slug character in front either starts a new run or joins the first one. */
  lemma RunsCons(c: char, x: string)
    requires IsSlugChar(c)
    ensures x == [] || !IsSlugChar(x[0]) ==> SlugRuns([c] + x) == [[c]] + SlugRuns(x)
    ensures x != [] && IsSlugChar(x[0]) ==>
      SlugRuns(x) != [] && SlugRuns([c] + x) == [[c] + SlugRuns(x)[0]] + SlugRuns(x)[1..]
  {
    var s := [c] + x;
    assert s[1..] == x;
    assert Run(s) == [c] + Run(x);
    assert s[|Run(s)|..] == x[|Run(x)|..];
  }

  /** Texts that agree on where the slug characters are, and on what they are, have the same runs. */
  lemma {:induction false} SameSlugsSameRuns(a: string, b: string)
    requires |a| == |b|
    requires forall i :: 0 <= i < |a| ==> (IsSlugChar(a[i]) <==> IsSlugChar(b[i]))
    requires forall i :: 0 <= i < |a| && IsSlugChar(a[i]) ==> a[i] == b[i]
    ensures SlugRuns(a) == SlugRuns(b)
    decreases |a|
  {
    if a != [] {
      var x, y := a[1..], b[1..];
      assert forall i :: 0 <= i < |x| ==> x[i] == a[i + 1] && y[i] == b[i + 1];
      SameSlugsSameRuns(x, y);
      if IsSlugChar(a[0]) {
        assert a == [a[0]] + x && b == [a[0]] + y;
        RunsCons(a[0], x);
        RunsCons(a[0], y);
      }
    }
  }

  /** A separator at the end adds no run. */
  lemma {:induction false} RunsSnocSeparator(x: string, c: char)
    requires !IsSlugChar(c)
    ensures SlugRuns(x + [c]) == SlugRuns(x)
    decreases |x|
  {
    var s := x + [c];
    if x != [] {
      assert s[1..] == x[1..] + [c];
      RunsSnocSeparator(x[1..], c);
      if IsSlugChar(x[0]) {
        var t := x[1..];
        assert s == [x[0]] + (t + [c]);
        assert x == [x[0]] + t;
        RunsCons(x[0], t + [c]);
        RunsCons(x[0], t);
        if t == [] {
          assert SlugRuns(t + [c]) == [] by {
            assert t + [c] == [c];
          }
        } else {
          assert (t + [c])[0] == t[0];
        }
      }
    } else {
      assert s == [c];
      assert s[1..] == [];
    }
  }

  /** `.toLowerCase().replace(/[^a-z0-9]/g, '-')`. */
  function Mask(s: string): (r: string)
    ensures |r| == |s|
    ensures forall i :: 0 <= i < |r| ==> IsClassChar(r[i])
    ensures forall i :: 0 <= i < |s| ==> (r[i] == '-' <==> !IsSlugChar(ToLower(s[i])))
    ensures forall i :: 0 <= i < |s| && IsSlugChar(ToLower(s[i])) ==> r[i] == ToLower(s[i])
  {
    seq(|s|, i requires 0 <= i < |s| => if IsSlugChar(ToLower(s[i])) then ToLower(s[i]) else '-')
  }

  lemma {:induction false} SlugCharsOfMask(s: string)
    ensures SlugChars(Mask(s)) == SlugChars(Lower(s))
  {
    if s != [] {
      assert Mask(s) == Mask([s[0]]) + Mask(s[1..]);
      assert Lower(s) == Lower([s[0]]) + Lower(s[1..]);
      SlugCharsAppend(Mask([s[0]]), Mask(s[1..]));
      SlugCharsAppend(Lower([s[0]]), Lower(s[1..]));
      SlugCharsOfMask(s[1..]);
    }
  }

  /** `.replace(/-+/g, '-')`: every run of dashes becomes a single dash. */
  function CollapseDashes(s: string): (r: string)
    ensures NoDoubleDash(r)
    ensures |r| <= |s|
    ensures |s| > 0 ==> |r| > 0 && r[0] == s[0] && r[|r| - 1] == s[|s| - 1]
    ensures forall i :: 0 <= i < |r| ==> r[i] in s
    ensures SlugChars(r) == SlugChars(s)
  {
    if |s| <= 1 then s
    else if s[0] == '-' && s[1] == '-' then CollapseDashes(s[1..])
    else
      var rest := CollapseDashes(s[1..]);
      assert forall i :: 0 <= i < |rest| ==> rest[i] in s[1..];
      [s[0]] + rest
  }

  /** Masking turns separators into dashes, so the runs of the lower-cased text stay. */
  lemma MaskKeepsRuns(s: string)
    ensures SlugRuns(Mask(s)) == SlugRuns(Lower(s))
  {
    SameSlugsSameRuns(Mask(s), Lower(s));
  }

  /** Collapsing dash runs keeps the slug runs. */
  lemma {:induction false} CollapseKeepsRuns(s: string)
    ensures SlugRuns(CollapseDashes(s)) == SlugRuns(s)
    decreases |s|
  {
    if |s| > 1 {
      var t := s[1..];
      CollapseKeepsRuns(t);
      var c := CollapseDashes(t);
      if !(s[0] == '-' && s[1] == '-') {
        assert CollapseDashes(s) == [s[0]] + c;
        if IsSlugChar(s[0]) {
          assert s == [s[0]] + t;
          RunsCons(s[0], c);
          RunsCons(s[0], t);
        } else {
          assert ([s[0]] + c)[1..] == c;
        }
      }
    }
  }

  /** Dropping an end dash keeps the slug runs. */
  lemma TrimDashKeepsRuns(s: string)
    ensures SlugRuns(TrimDash(s)) == SlugRuns(s)
  {
    var t := if |s| > 0 && s[0] == '-' then s[1..] else s;
    if |t| > 0 && t[|t| - 1] == '-' {
      assert t == t[..|t| - 1] + ['-'];
      RunsSnocSeparator(t[..|t| - 1], '-');
    }
  }

  /** A canonical token is one run, or a run, one dash and a canonical rest. */
  lemma CanonicalSplit(r: string)
    requires IsCanonical(r) && r != []
    ensures var w := Run(r);
      w != [] && (|w| == |r| || (|w| + 1 < |r| && r[|w|] == '-' && IsCanonical(r[|w| + 1..])))
  {
    var w := Run(r);
    assert IsClassChar(r[0]);
    if |w| < |r| {
      assert IsClassChar(r[|w|]);
      assert |w| + 1 < |r|;
      var tail := r[|w| + 1..];
      assert forall i :: 0 <= i < |tail| ==> tail[i] == r[|w| + 1 + i];
    }
  }

  /** Splitting a text at a dash that ends its first run. */
  lemma RunsAcrossDash(r: string, k: nat)
    requires k == |Run(r)| && 0 < k && k + 1 < |r| && r[k] == '-'
    ensures r == Run(r) + "-" + r[k + 1..]
    ensures SlugRuns(r) == [Run(r)] + SlugRuns(r[k + 1..])
  {
    var rest := r[k..];
    assert rest[1..] == r[k + 1..];
    assert SlugRuns(r) == [Run(r)] + SlugRuns(rest);
  }

  /** A canonical token is its slug runs joined by single dashes. */
  lemma {:induction false} CanonicalIsJoinedRuns(r: string)
    requires IsCanonical(r)
    ensures r == Join(SlugRuns(r), "-")
    ensures r != [] ==> SlugRuns(r) != []
    decreases |r|
  {
    if r != [] {
      var w := Run(r);
      CanonicalSplit(r);
      if |w| < |r| {
        var tail := r[|w| + 1..];
        CanonicalIsJoinedRuns(tail);
        RunsAcrossDash(r, |w|);
      } else {
        assert r[|w|..] == [];
      }
    }
  }

  /** `.replace(/^-|-$/g, '')`: one leading and one trailing dash removed. */
  function TrimDash(s: string): (r: string)
  {
    var t := if |s| > 0 && s[0] == '-' then s[1..] else s;
    if |t| > 0 && t[|t| - 1] == '-' then t[..|t| - 1] else t
  }

  /** Dropping a leading dash keeps the rest; afterwards no dash leads. */
  lemma DropLeadingFacts(s: string, t: string)
    requires NoDoubleDash(s)
    requires t == if |s| > 0 && s[0] == '-' then s[1..] else s
    ensures NoDoubleDash(t) && (|t| > 0 ==> t[0] != '-')
    ensures SlugChars(t) == SlugChars(s)
    ensures forall i :: 0 <= i < |t| ==> t[i] in s
  {
    if |s| > 0 && s[0] == '-' {
      assert s == [s[0]] + t;
      SlugCharsAppend([s[0]], t);
      assert forall i :: 0 <= i < |t| ==> t[i] == s[i + 1];
    }
  }

  /** Dropping a trailing dash from a string without a leading one. */
  lemma DropTrailingFacts(t: string, r: string)
    requires NoDoubleDash(t) && (|t| > 0 ==> t[0] != '-')
    requires r == if |t| > 0 && t[|t| - 1] == '-' then t[..|t| - 1] else t
    ensures NoDoubleDash(r) && (|r| > 0 ==> r[0] != '-' && r[|r| - 1] != '-')
    ensures SlugChars(r) == SlugChars(t)
    ensures forall i :: 0 <= i < |r| ==> r[i] in t
  {
    if |t| > 0 && t[|t| - 1] == '-' {
      DropLastKeeps(t, r);
      SlugCharsAppend(r, [t[|t| - 1]]);
    }
  }

  /** Dropping a final dash of a text without `--` leaves a prefix that does not end in a dash. */
  lemma DropLastKeeps(t: string, r: string)
    requires NoDoubleDash(t) && |t| > 0 && t[|t| - 1] == '-'
    requires r == t[..|t| - 1]
    ensures t == r + [t[|t| - 1]]
    ensures NoDoubleDash(r)
    ensures |r| > 0 ==> r[0] == t[0] && r[|r| - 1] != '-'
    ensures forall i :: 0 <= i < |r| ==> r[i] == t[i] && r[i] in t
  {
    forall i | 0 <= i < |r|
      ensures r[i] == t[i]
    {
    }
  }



  lemma TrimDashFacts(s: string)
    requires NoDoubleDash(s)
    ensures var r := TrimDash(s);
      && NoDoubleDash(r)
      && (|r| > 0 ==> r[0] != '-' && r[|r| - 1] != '-')
      && SlugChars(r) == SlugChars(s)
      && (forall i :: 0 <= i < |r| ==> r[i] in s)
  {
    var t := if |s| > 0 && s[0] == '-' then s[1..] else s;
    var r := if |t| > 0 && t[|t| - 1] == '-' then t[..|t| - 1] else t;
    DropLeadingFacts(s, t);
    DropTrailingFacts(t, r);
    assert TrimDash(s) == r;
  }

  /** `sanitizeClassName(name)`. */
  function Sanitize(name: string): string {
    TrimDash(CollapseDashes(Mask(name)))
  }

  /**
    A sanitised name is a canonical class token (only `[a-z0-9-]`, no `--`, no
    dash at either end) that keeps every ASCII letter and digit of the name,
    lower-cased and in order, and is empty exactly when the name has none.
   */
  lemma SanitizeProperties(name: string)
    ensures IsCanonical(Sanitize(name))
    ensures SlugChars(Sanitize(name)) == SlugChars(Lower(name))
    ensures Sanitize(name) == [] <==> SlugChars(Lower(name)) == []
    ensures Sanitize(name) == Join(SlugRuns(Lower(name)), "-")
  {
    var c := CollapseDashes(Mask(name));
    TrimDashFacts(c);
    SlugCharsOfMask(name);
    DashesOnly(Sanitize(name));
    SanitizeKeepsRuns(name);
    CanonicalIsJoinedRuns(Sanitize(name));
  }

  /** Sanitising keeps the maximal `[a-z0-9]` runs of the lower-cased name. */
  lemma SanitizeKeepsRuns(name: string)
    ensures SlugRuns(Sanitize(name)) == SlugRuns(Lower(name))
  {
    var m := Mask(name);
    MaskKeepsRuns(name);
    CollapseKeepsRuns(m);
    TrimDashKeepsRuns(CollapseDashes(m));
  }

  /** A canonical string without slug characters is empty. */
  lemma DashesOnly(s: string)
    ensures IsCanonical(s) && s != [] ==> SlugChars(s) != []
  {
    if IsCanonical(s) && s != [] {
      assert s[0] != '-' && IsClassChar(s[0]);
      assert s == [s[0]] + s[1..];
    }
  }

  lemma {:induction false} CollapseKeepsNoDoubleDash(s: string)
    requires NoDoubleDash(s)
    ensures CollapseDashes(s) == s
  {
    if |s| > 1 {
      CollapseKeepsNoDoubleDash(s[1..]);
    }
  }

  lemma MaskKeepsClassChars(s: string)
    requires forall i :: 0 <= i < |s| ==> IsClassChar(s[i])
    ensures Mask(s) == s
  {
  }

  lemma CanonicalUnchanged(s: string)
    requires IsCanonical(s)
    ensures Sanitize(s) == s
  {
    MaskKeepsClassChars(s);
    CollapseKeepsNoDoubleDash(s);
    TrimDashKeeps(s);
  }

  lemma TrimDashKeeps(s: string)
    requires |s| > 0 ==> s[0] != '-' && s[|s| - 1] != '-'
    ensures TrimDash(s) == s
  {
  }

  /** The fixed points of sanitising are exactly the canonical tokens. */
  lemma SanitizeFixedPoints(s: string)
    ensures Sanitize(s) == s <==> IsCanonical(s)
  {
    SanitizeProperties(s);
    if IsCanonical(s) {
      CanonicalUnchanged(s);
    }
  }

  /** Sanitising an already sanitised name changes nothing. */
  lemma SanitizeIdempotent(name: string)
    ensures Sanitize(Sanitize(name)) == Sanitize(name)
  {
    SanitizeProperties(name);
    SanitizeFixedPoints(Sanitize(name));
  }
}

=== FILE: code_generator.dfy ===
/**
  The template renderer (`CodeGenerator`): a registry of four frameworks, the
  per-framework templates built from the component tree and the variable map,
  and the formatting and validation utilities.
 */
module CodeGenerator {
  import opened Wrappers
  import opened Text
  import opened Markup
  import opened Styles
  import opened ClassName

  // ------------------------------------------------------------------ registry

  datatype Framework = Html | React | Vue | Angular

  /** The keys of the generator's `frameworks` registry. */
  function FrameworkOf(key: string): (r: Option<Framework>)
    ensures r.Some? <==> key in {"html", "react", "vue", "angular"}
  {
    if key == "html" then Some(Html)
    else if key == "react" then Some(React)
    else if key == "vue" then Some(Vue)
    else if key == "angular" then Some(Angular)
    else None
  }

  /** The registry's display name and file extension of each framework. */
  function DisplayName(f: Framework): string {
    match f
    case Html => "HTML/CSS"
    case React => "React"
    case Vue => "Vue"
    case Angular => "Angular"
  }

  function Extension(f: Framework): string {
    match f
    case Html => "html"
    case React => "jsx"
    case Vue => "vue"
    case Angular => "ts"
  }

  /** The design input after defaults: roots and variables (`{}`/`[]` when missing). */
  datatype DesignData = DesignData(components: seq<Node>, variables: seq<(string, string)>)

  /** `generateReactPackageJson()`: a fixed manifest, independent of the design. */
  datatype PackageJson = PackageJson(
    name: string,
    version: string,
    dependencies: seq<(string, string)>,
    devDependencies: seq<(string, string)>)

  const ReactPackage: PackageJson := PackageJson(
    "figma-generated-app", "1.0.0",
    [("react", "^18.2.0"), ("react-dom", "^18.2.0")],
    [("@vitejs/plugin-react", "^4.0.0"), ("vite", "^4.4.0")])

  /** What a template returns: source text, or React's component/stylesheet/manifest triple. */
  datatype Generated = Code(text: string) | ReactApp(component: string, styles: string, package: PackageJson)

  datatype GenerateError = UnsupportedFramework(framework: string)

  // ----------------------------------------------------------------- templates

  const ContainerOpen: string := "<div class=\"container\">\n"

  /** `generateHTMLStructure(components)`: roots at two spaces, their children and content at four. */
  function HtmlStructure(components: seq<Node>): string {
    ContainerOpen + RootLoop("class", components, "  ", "    ") + "</div>"
  }

  const HtmlHead: string := HtmlTop + HeadRest

  const HeadRest: string :=
    "<head>\n" + "    <meta charset=\"UTF-8\">\n"
    + "    <meta name=\"viewport\" content=\"width=device-width, initial-scale=1.0\">\n"
    + "    <title>Generated Design</title>\n" + "    <style>\n" + "        "

  const StyleGap: string := "\n        "

  const HtmlBodyOpen: string := "\n    </style>\n" + "</head>\n" + "<body>\n    "

  const HtmlTail: string := "\n</body>\n</html>"

  /** The stylesheet embedded in the HTML document. */
  function HtmlStyles(d: DesignData): string {
    CssVariables(d.variables) + StyleGap + BaseStyles + StyleGap + ComponentStyles(d.components)
  }

  function HtmlBody(components: seq<Node>): string {
    HtmlBodyOpen + HtmlStructure(components) + HtmlTail
  }

  /** `generateHTMLTemplate(designData)`: one document with an embedded stylesheet. */
  function HtmlTemplate(d: DesignData): string {
    HtmlHead + HtmlStyles(d) + HtmlBody(d.components)
  }

  const ReactHead: string :=
    "import React from 'react';\n" + "import './styles.css';\n\n" + "const App = () => {\n" + "    return (\n"
    + "        <div className=\"container\">\n"

  const ReactTail: string := "        </div>\n" + "    );\n" + "};\n\n" + "export default App;"

  /** `generateReactComponents(components)`: roots at twelve spaces, children at sixteen. */
  function ReactComponents(components: seq<Node>): string {
    ReactHead + RootLoop("className", components, "            ", "                ") + ReactTail
  }

  /** `generateReactStyles(components, variables)`. */
  function ReactStyles(components: seq<Node>, vars: seq<(string, string)>): string {
    CssVariables(vars) + BaseStyles + ComponentStyles(components)
  }

  const VueHead: string := "<template>\n" + "    <div class=\"container\">\n"

  const VueMiddle: string :=
    "    </div>\n" + "</template>\n\n" + "<script>\n" + "export default {\n" + "    name: 'GeneratedApp'\n"
    + "}\n" + "</script>\n\n" + "<style scoped>\n"

  /** The scoped stylesheet of the single-file component. */
  function VueStyles(components: seq<Node>, vars: seq<(string, string)>): string {
    VueMiddle + CssVariables(vars) + "\n" + BaseStyles + "\n" + ComponentStyles(components) + "\n</style>"
  }

  /** `generateVueComponents(components, variables)`: roots at eight spaces, children and content at twelve. */
  function VueComponents(components: seq<Node>, vars: seq<(string, string)>): string {
    VueHead + RootLoop("class", components, "        ", "            ") + VueStyles(components, vars)
  }

  const AngularHead: string :=
    "import { Component } from '@angular/core';\n\n" + "@Component({\n" + "    selector: 'app-root',\n"
    + "    template: `\n" + "        <div class=\"container\">\n"

  const AngularTail: string :=
    "        </div>\n" + "    `,\n" + "    styleUrls: ['./app.component.css']\n" + "})\n"
    + "export class AppComponent {\n" + "    title = 'figma-generated-app';\n" + "}"

  /**
    `generateAngularComponents(components, variables)`: roots at twelve
    spaces, children and content at sixteen; the variables are not used.
   */
  function AngularComponents(components: seq<Node>): string {
    AngularHead + RootLoop("class", components, "            ", "                ") + AngularTail
  }

  /** The registered template of each framework. */
  function Template(f: Framework, d: DesignData): Generated {
    match f
    case Html => Code(HtmlTemplate(d))
    case React => ReactApp(ReactComponents(d.components), ReactStyles(d.components, d.variables), ReactPackage)
    case Vue => Code(VueComponents(d.components, d.variables))
    case Angular => Code(AngularComponents(d.components))
  }

  /**
    `generateCode(designData, framework)`: an unknown key fails with an error
    that names it; a known key yields that framework's template, which is a
    component/stylesheet/manifest triple exactly for `react`.
   */
  function GenerateCode(d: DesignData, key: string): (r: Result<Generated, GenerateError>)
    ensures r.Failure? <==> key !in {"html", "react", "vue", "angular"}
    ensures r.Failure? ==> r.error == UnsupportedFramework(key)
    ensures r.Success? ==> (r.value.ReactApp? <==> key == "react")
  {
    match FrameworkOf(key)
    case None => Failure(UnsupportedFramework(key))
    case Some(f) => Success(Template(f, d))
  }

  /** The markup part of a generated result. */
  function MarkupOf(g: Generated): string {
    match g
    case Code(text) => text
    case ReactApp(component, _, _) => component
  }

  /** The attribute name, root indentation and inner indentation of each framework's root loop. */
  function AttrOf(f: Framework): string {
    if f == React then "className" else "class"
  }

  function RootIndent(f: Framework): string {
    match f
    case Html => "  "
    case React => "            "
    case Vue => "        "
    case Angular => "            "
  }

  /** Where a root's children and content start: two spaces below the root for HTML, four for the others. */
  function InnerIndent(f: Framework): (r: string)
    ensures f == Html ==> r == RootIndent(f) + "  "
    ensures f != Html ==> r == RootIndent(f) + "    "
  {
    match f
    case Html => "    "
    case React => "                "
    case Vue => "            "
    case Angular => "                "
  }

  /** The HTML document holds the root loop, which is the class walk of the whole forest at two spaces. */
  lemma HtmlEmbedsTree(d: DesignData)
    ensures Contains(HtmlTemplate(d), RootLoop("class", d.components, "  ", "    "))
    ensures Contains(HtmlTemplate(d), Walk("class", d.components, "  "))
  {
    HtmlEmbedsRoots(d);
    HtmlLoopIsWalk(d.components);
  }

  lemma HtmlEmbedsRoots(d: DesignData)
    ensures Contains(HtmlTemplate(d), RootLoop("class", d.components, "  ", "    "))
  {
    var w := RootLoop("class", d.components, "  ", "    ");
    ContainsMiddle(ContainerOpen, w, "</div>");
    ContainsRight(HtmlBodyOpen, HtmlStructure(d.components), w);
    ContainsLeft(HtmlBodyOpen + HtmlStructure(d.components), HtmlTail, w);
    ContainsRight(HtmlHead + HtmlStyles(d), HtmlBody(d.components), w);
  }

  /** The HTML root loop prints exactly what the HTML child walker prints at two spaces. */
  lemma HtmlLoopIsWalk(components: seq<Node>)
    ensures RootLoop("class", components, "  ", "    ") == Walk("class", components, "  ")
    ensures RootLoop("class", components, "  ", "    ") == HtmlChildren(components, "  ")
  {
    RootLoopIsWalk("class", components, "  ");
    assert "  " + "  " == "    ";
    HtmlChildrenIsWalk(components, "  ");
  }

  lemma ReactEmbedsTree(d: DesignData)
    ensures Contains(ReactComponents(d.components), RootLoop("className", d.components, "            ", "                "))
  {
    ContainsMiddle(ReactHead, RootLoop("className", d.components, "            ", "                "), ReactTail);
  }

  lemma VueEmbedsTree(d: DesignData)
    ensures Contains(VueComponents(d.components, d.variables), RootLoop("class", d.components, "        ", "            "))
  {
    ContainsMiddle(VueHead, RootLoop("class", d.components, "        ", "            "), VueStyles(d.components, d.variables));
  }

  lemma AngularEmbedsTree(d: DesignData)
    ensures Contains(AngularComponents(d.components), RootLoop("class", d.components, "            ", "                "))
  {
    ContainsMiddle(AngularHead, RootLoop("class", d.components, "            ", "                "), AngularTail);
  }

  /**
    Whatever framework is chosen, its markup holds one block per root
    component: the opening line at the framework's root indentation, then
    the walk of the root's children from the inner indentation (two spaces
    deeper for HTML, four for the others), or its shown content at the inner
    indentation, or nothing, then the closing line at the root indentation.
   */
  lemma GeneratedEmbedsTree(d: DesignData, key: string)
    ensures GenerateCode(d, key).Success? ==>
      var f := FrameworkOf(key).value;
      var m := MarkupOf(GenerateCode(d, key).value);
      var attr, root, inner := AttrOf(f), RootIndent(f), InnerIndent(f);
      && (forall i :: 0 <= i < |d.components| && d.components[i].children.Present? ==>
            Contains(m, OpenLine(attr, d.components[i], root) + Walk(attr, d.components[i].children.nodes, inner) + CloseLine(root)))
      && (forall i :: 0 <= i < |d.components| && ShowsContent(d.components[i]) ==>
            Contains(m, OpenLine(attr, d.components[i], root) + inner + d.components[i].content.value + "\n" + CloseLine(root)))
  {
    if FrameworkOf(key).Some? {
      var f := FrameworkOf(key).value;
      assert GenerateCode(d, key) == Success(Template(f, d));
      TemplateEmbedsTree(d, f);
      EveryBlockContained(MarkupOf(Template(f, d)), AttrOf(f), d.components, RootIndent(f), InnerIndent(f));
    }
  }

  /** Text that holds a root loop holds each of its blocks. */
  lemma EveryBlockContained(m: string, attr: string, roots: seq<Node>, indent: string, inner: string)
    requires Contains(m, RootLoop(attr, roots, indent, inner))
    ensures forall i :: 0 <= i < |roots| && roots[i].children.Present? ==>
      Contains(m, OpenLine(attr, roots[i], indent) + Walk(attr, roots[i].children.nodes, inner) + CloseLine(indent))
    ensures forall i :: 0 <= i < |roots| && ShowsContent(roots[i]) ==>
      Contains(m, OpenLine(attr, roots[i], indent) + inner + roots[i].content.value + "\n" + CloseLine(indent))
  {
    var loop := RootLoop(attr, roots, indent, inner);
    forall i | 0 <= i < |roots| && roots[i].children.Present?
      ensures Contains(m, OpenLine(attr, roots[i], indent) + Walk(attr, roots[i].children.nodes, inner) + CloseLine(indent))
    {
      RootLoopHasBlocks(attr, roots, indent, inner, i);
      ContainsTrans(m, loop, OpenLine(attr, roots[i], indent) + Walk(attr, roots[i].children.nodes, inner) + CloseLine(indent));
    }
    forall i | 0 <= i < |roots| && ShowsContent(roots[i])
      ensures Contains(m, OpenLine(attr, roots[i], indent) + inner + roots[i].content.value + "\n" + CloseLine(indent))
    {
      RootLoopHasBlocks(attr, roots, indent, inner, i);
      ContainsTrans(m, loop, OpenLine(attr, roots[i], indent) + inner + roots[i].content.value + "\n" + CloseLine(indent));
    }
  }

  lemma TemplateEmbedsTree(d: DesignData, f: Framework)
    ensures Contains(MarkupOf(Template(f, d)), RootLoop(AttrOf(f), d.components, RootIndent(f), InnerIndent(f)))
  {
    match f
    case Html => HtmlTemplateEmbeds(d);
    case React => ReactTemplateEmbeds(d);
    case Vue => VueTemplateEmbeds(d);
    case Angular => AngularTemplateEmbeds(d);
  }

  lemma HtmlTemplateEmbeds(d: DesignData)
    ensures Contains(MarkupOf(Template(Html, d)), RootLoop(AttrOf(Html), d.components, RootIndent(Html), InnerIndent(Html)))
  {
    HtmlEmbedsTree(d);
  }

  lemma ReactTemplateEmbeds(d: DesignData)
    ensures Contains(MarkupOf(Template(React, d)), RootLoop(AttrOf(React), d.components, RootIndent(React), InnerIndent(React)))
  {
    ReactEmbedsTree(d);
  }

  lemma VueTemplateEmbeds(d: DesignData)
    ensures Contains(MarkupOf(Template(Vue, d)), RootLoop(AttrOf(Vue), d.components, RootIndent(Vue), InnerIndent(Vue)))
  {
    VueEmbedsTree(d);
  }

  lemma AngularTemplateEmbeds(d: DesignData)
    ensures Contains(MarkupOf(Template(Angular, d)), RootLoop(AttrOf(Angular), d.components, RootIndent(Angular), InnerIndent(Angular)))
  {
    AngularEmbedsTree(d);
  }

  // ---------------------------------------------------------------- formatting

  /** `formatCode(code, language)`: returns the code unchanged. */
  function FormatCode(code: string, language: string): (r: string)
    ensures r == code
  {
    code
  }

  /** JavaScript's `\s` and the characters `trim()` removes. */
  predicate IsJsSpace(c: char) {
    c == '\t' || c == '\n' || c == '\U{000B}' || c == '\U{000C}' || c == '\r' || c == ' '
    || c == '\U{00A0}' || c == '\U{1680}' || ('\U{2000}' <= c <= '\U{200A}')
    || c == '\U{2028}' || c == '\U{2029}' || c == '\U{202F}' || c == '\U{205F}'
    || c == '\U{3000}' || c == '\U{FEFF}'
  }

  predicate NoDoubleSpace(s: string) {
    forall i :: 0 <= i < |s| - 1 ==> !(IsJsSpace(s[i]) && IsJsSpace(s[i + 1]))
  }

  /** Whitespace in `s` is only ever the plain space. */
  predicate SpacesArePlain(s: string) {
    forall i :: 0 <= i < |s| && IsJsSpace(s[i]) ==> s[i] == ' '
  }

  /** The characters of `s` that are not whitespace, in order. */
  function Ink(s: string): string {
    if s == [] then [] else (if IsJsSpace(s[0]) then [] else [s[0]]) + Ink(s[1..])
  }

  lemma {:induction false} InkAppend(a: string, b: string)
    ensures Ink(a + b) == Ink(a) + Ink(b)
  {
    if a == [] {
      assert a + b == b;
    } else {
      assert (a + b)[1..] == a[1..] + b;
      InkAppend(a[1..], b);
    }
  }

  /** `.replace(/\s+/g, ' ')`: each maximal whitespace run becomes one space. */
  function CollapseSpaces(s: string): (r: string)
    ensures NoDoubleSpace(r) && SpacesArePlain(r)
    ensures Ink(r) == Ink(s)
    ensures s == [] <==> r == []
    ensures s != [] ==> r[0] == (if IsJsSpace(s[0]) then ' ' else s[0])
  {
    if s == [] then []
    else if IsJsSpace(s[0]) then
      if |s| > 1 && IsJsSpace(s[1]) then CollapseSpaces(s[1..]) else [' '] + CollapseSpaces(s[1..])
    else [s[0]] + CollapseSpaces(s[1..])
  }

  /** Leading whitespace removed. */
  function TrimStart(s: string): (r: string)
    ensures |r| <= |s| && r == s[|s| - |r|..]
    ensures r == [] || !IsJsSpace(r[0])
    ensures Ink(r) == Ink(s)
  {
    if s != [] && IsJsSpace(s[0]) then
      assert s == [s[0]] + s[1..];
      TrimStart(s[1..])
    else s
  }

  /** Trailing whitespace removed. */
  function TrimEnd(s: string): (r: string)
    ensures |r| <= |s| && r == s[..|r|]
    ensures r == [] || !IsJsSpace(r[|r| - 1])
    ensures Ink(r) == Ink(s)
  {
    if s != [] && IsJsSpace(s[|s| - 1]) then
      assert s == s[..|s| - 1] + [s[|s| - 1]];
      InkAppend(s[..|s| - 1], [s[|s| - 1]]);
      TrimEnd(s[..|s| - 1])
    else s
  }

  /**
    `minifyCode(code)`: whitespace runs collapsed to one space, then trimmed.
    The result has no whitespace at either end, never two whitespace
    characters in a row, no whitespace other than the plain space, and the
    same non-whitespace characters in the same order.
   */
  function MinifyCode(code: string, language: string): (r: string)
    ensures r == [] || (!IsJsSpace(r[0]) && !IsJsSpace(r[|r| - 1]))
    ensures NoDoubleSpace(r) && SpacesArePlain(r)
    ensures Ink(r) == Ink(code)
  {
    var c := CollapseSpaces(code);
    TrimKeepsShape(c);
    TrimEnd(TrimStart(c))
  }

  lemma TrimKeepsShape(c: string)
    requires NoDoubleSpace(c) && SpacesArePlain(c)
    ensures NoDoubleSpace(TrimEnd(TrimStart(c))) && SpacesArePlain(TrimEnd(TrimStart(c)))
  {
    var u := TrimStart(c);
    SliceKeepsShape(c, |c| - |u|, |c|);
    assert u == c[|c| - |u|..|c|];
    var t := TrimEnd(u);
    SliceKeepsShape(u, 0, |t|);
    assert t == u[0..|t|];
  }

  lemma SliceKeepsShape(s: string, a: nat, b: nat)
    requires a <= b <= |s|
    requires NoDoubleSpace(s) && SpacesArePlain(s)
    ensures NoDoubleSpace(s[a..b]) && SpacesArePlain(s[a..b])
  {
  }

  lemma {:induction false} CollapseFixes(s: string)
    requires NoDoubleSpace(s) && SpacesArePlain(s)
    ensures CollapseSpaces(s) == s
  {
    if s != [] {
      CollapseFixes(s[1..]);
    }
  }

  /** Minifying twice is minifying once. */
  lemma MinifyIdempotent(code: string, language: string)
    ensures MinifyCode(MinifyCode(code, language), language) == MinifyCode(code, language)
  {
    var m := MinifyCode(code, language);
    CollapseFixes(m);
  }

  // ------------------------------------------------------------------- words

  /** The leading run of non-whitespace characters of `s`. */
  function Word(s: string): (r: string)
    ensures |r| <= |s| && r == s[..|r|]
    ensures forall i :: 0 <= i < |r| ==> !IsJsSpace(r[i])
    ensures |r| < |s| ==> IsJsSpace(s[|r|])
  {
    if s == [] || IsJsSpace(s[0]) then [] else [s[0]] + Word(s[1..])
  }

  /** The maximal runs of non-whitespace characters of `s`, in order. */
  function Words(s: string): seq<string>
    decreases |s|
  {
    if s == [] then []
    else if IsJsSpace(s[0]) then Words(s[1..])
    else [Word(s)] + Words(s[|Word(s)|..])
  }

  /** A non-whitespace character in front either starts a new word or joins the first one. */
  lemma WordsCons(c: char, x: string)
    requires !IsJsSpace(c)
    ensures x == [] || IsJsSpace(x[0]) ==> Words([c] + x) == [[c]] + Words(x)
    ensures x != [] && !IsJsSpace(x[0]) ==>
      Words(x) != [] && Words([c] + x) == [[c] + Words(x)[0]] + Words(x)[1..]
  {
    var s := [c] + x;
    assert s[1..] == x;
    assert Word(s) == [c] + Word(x);
    assert s[|Word(s)|..] == x[|Word(x)|..];
  }

  /** Collapsing whitespace runs keeps the words. */
  lemma {:induction false} CollapseKeepsWords(s: string)
    ensures Words(CollapseSpaces(s)) == Words(s)
    decreases |s|
  {
    if s != [] {
      var t := s[1..];
      CollapseKeepsWords(t);
      var c := CollapseSpaces(t);
      if IsJsSpace(s[0]) {
        if !(|s| > 1 && IsJsSpace(s[1])) {
          assert ([' '] + c)[1..] == c;
        }
      } else {
        assert CollapseSpaces(s) == [s[0]] + c;
        assert s == [s[0]] + t;
        WordsCons(s[0], c);
        WordsCons(s[0], t);
      }
    }
  }

  lemma {:induction false} TrimStartKeepsWords(s: string)
    ensures Words(TrimStart(s)) == Words(s)
    decreases |s|
  {
    if s != [] && IsJsSpace(s[0]) {
      TrimStartKeepsWords(s[1..]);
    }
  }

  /** A whitespace character at the end adds no word. */
  lemma {:induction false} WordsSnocSpace(x: string, c: char)
    requires IsJsSpace(c)
    ensures Words(x + [c]) == Words(x)
    decreases |x|
  {
    var s := x + [c];
    if x != [] {
      assert s[1..] == x[1..] + [c];
      WordsSnocSpace(x[1..], c);
      if !IsJsSpace(x[0]) {
        var t := x[1..];
        assert s == [x[0]] + (t + [c]);
        assert x == [x[0]] + t;
        WordsCons(x[0], t + [c]);
        WordsCons(x[0], t);
        if t == [] {
          assert Words(t + [c]) == [] by {
            assert t + [c] == [c];
          }
        } else {
          assert (t + [c])[0] == t[0];
        }
      }
    } else {
      assert s == [c];
      assert s[1..] == [];
    }
  }

  lemma {:induction false} TrimEndKeepsWords(s: string)
    ensures Words(TrimEnd(s)) == Words(s)
    decreases |s|
  {
    if s != [] && IsJsSpace(s[|s| - 1]) {
      var x := s[..|s| - 1];
      assert s == x + [s[|s| - 1]];
      TrimEndKeepsWords(x);
      WordsSnocSpace(x, s[|s| - 1]);
    }
  }

  /** The shape `minifyCode` leaves: no whitespace at the ends, none doubled, only plain spaces. */
  predicate Minified(r: string) {
    (r == [] || (!IsJsSpace(r[0]) && !IsJsSpace(r[|r| - 1]))) && NoDoubleSpace(r) && SpacesArePlain(r)
  }

  /** Text that is already in minified shape is its words joined by single spaces. */
  lemma {:induction false} CanonicalIsJoin(r: string)
    requires Minified(r)
    ensures r == Join(Words(r), " ")
    ensures r != [] ==> Words(r) != []
    decreases |r|
  {
    if r != [] {
      var w := Word(r);
      MinifiedSplit(r);
      var rest := r[|w|..];
      assert Words(r) == [w] + Words(rest);
      if |w| < |r| {
        var tail := r[|w| + 1..];
        CanonicalIsJoin(tail);
        assert rest[1..] == tail;
        assert Words(rest) == Words(tail);
        assert r == w + " " + tail;
      } else {
        assert rest == [];
      }
    }
  }

  /** A minified text is one word, or a word, one space and a minified rest. */
  lemma MinifiedSplit(r: string)
    requires Minified(r) && r != []
    ensures var w := Word(r);
      w != [] && (|w| == |r| || (|w| + 1 < |r| && r[|w|] == ' ' && Minified(r[|w| + 1..])))
  {
    var w := Word(r);
    if |w| < |r| {
      assert IsJsSpace(r[|w|]);
      assert |w| + 1 < |r|;
      assert !IsJsSpace(r[|w| + 1]);
      SliceKeepsShape(r, |w| + 1, |r|);
      assert r[|w| + 1..] == r[|w| + 1..|r|];
    }
  }

  /**
    Minified code is the words of the input (its maximal whitespace-free
    runs, in order) joined by single spaces.
   */
  lemma MinifyIsJoinedWords(code: string, language: string)
    ensures MinifyCode(code, language) == Join(Words(code), " ")
    ensures Words(MinifyCode(code, language)) == Words(code)
  {
    var c := CollapseSpaces(code);
    CollapseKeepsWords(code);
    TrimStartKeepsWords(c);
    TrimEndKeepsWords(TrimStart(c));
    CanonicalIsJoin(MinifyCode(code, language));
  }

  // ---------------------------------------------------------------- validation

  /** `validateHTML(html)`: the three fixed markers are all present. */
  predicate ValidateHtml(html: string) {
    Contains(html, "<!DOCTYPE") && Contains(html, "<html") && Contains(html, "<body")
  }

  /** No `}` strictly between positions `i` and `j`. */
  predicate NoCloseBetween(s: string, i: int, j: int) {
    forall k :: i < k < j && 0 <= k < |s| ==> s[k] != '}'
  }

  /** `validateCSS(css)`: the pattern `{[^}]*}` matches somewhere. */
  predicate ValidateCss(css: string) {
    exists i, j | 0 <= i < j < |css| :: css[i] == '{' && css[j] == '}' && NoCloseBetween(css, i, j)
  }

  /** The pattern matches exactly when some `{` comes before some `}`. */
  lemma ValidateCssIff(css: string)
    ensures ValidateCss(css) <==> exists i, j | 0 <= i < j < |css| :: css[i] == '{' && css[j] == '}'
  {
    if exists i, j | 0 <= i < j < |css| :: css[i] == '{' && css[j] == '}' {
      var i, j :| 0 <= i < j < |css| && css[i] == '{' && css[j] == '}';
      var t := css[i + 1..];
      var k := i + 1 + IndexOfChar(t, '}');
      assert t[j - i - 1] == '}';
      assert k <= j;
      forall m | i < m < k
        ensures css[m] != '}'
      {
        assert t[m - i - 1] == css[m];
      }
      assert css[i] == '{' && css[k] == '}' && NoCloseBetween(css, i, k);
    }
  }

  /**
    `validateCode(code, language)`: the validator registered for `html`,
    `css` or `javascript`, and `true` for any other language. Whether a
    script parses is the host engine's question and comes in as `parses`.
   */
  function ValidateCode(code: string, language: string, parses: string -> bool): (r: bool)
    ensures language !in {"html", "css", "javascript"} ==> r
    ensures language == "html" ==> (r <==> Contains(code, "<!DOCTYPE") && Contains(code, "<html") && Contains(code, "<body"))
    ensures language == "css" ==> (r <==> exists i, j | 0 <= i < j < |code| :: code[i] == '{' && code[j] == '}')
    ensures language == "javascript" ==> r == parses(code)
  {
    ValidateCssIff(code);
    if language == "html" then ValidateHtml(code)
    else if language == "css" then ValidateCss(code)
    else if language == "javascript" then parses(code)
    else true
  }

  lemma BraceBlockInside(a: string, b: string, c: string)
    requires ValidateCss(b)
    ensures ValidateCss(a + b + c)
  {
    var s := a + b + c;
    var i, j :| 0 <= i < j < |b| && b[i] == '{' && b[j] == '}' && NoCloseBetween(b, i, j);
    assert forall k :: 0 <= k < |b| ==> s[|a| + k] == b[k];
    assert s[|a| + i] == '{' && s[|a| + j] == '}';
    assert NoCloseBetween(s, |a| + i, |a| + j);
  }

  /** A `{` followed later by a `}` satisfies the CSS check. */
  lemma BracePair(a: string, m: string, b: string)
    requires |a| > 0 && a[|a| - 1] == '{'
    ensures ValidateCss(a + m + "}" + b)
  {
    var s := a + m + "}" + b;
    assert s[|a| - 1] == '{' && s[|a| + |m|] == '}';
    ValidateCssIff(s);
  }

  lemma BaseStylesValid()
    ensures ValidateCss(BaseStyles)
  {
    BracePair("* {", ResetDecls, BaseRest);
  }

  const HtmlTop: string := "<!DOCTYPE html>\n" + "<html lang=\"en\">\n"

  lemma HeadInDocument(d: DesignData, w: string)
    requires Contains(HtmlTop, w)
    ensures Contains(HtmlTemplate(d), w)
  {
    ContainsLeft(HtmlTop, HeadRest, w);
    ContainsLeft(HtmlHead, HtmlStyles(d), w);
    ContainsLeft(HtmlHead + HtmlStyles(d), HtmlBody(d.components), w);
  }

  lemma BodyInDocument(d: DesignData, w: string)
    requires Contains(HtmlBodyOpen, w)
    ensures Contains(HtmlTemplate(d), w)
  {
    ContainsLeft(HtmlBodyOpen, HtmlStructure(d.components), w);
    ContainsLeft(HtmlBodyOpen + HtmlStructure(d.components), HtmlTail, w);
    ContainsRight(HtmlHead + HtmlStyles(d), HtmlBody(d.components), w);
  }

  lemma MarkerPositions()
    ensures OccursAt(HtmlTop, "<!DOCTYPE", 0) && OccursAt(HtmlTop, "<html", 16)
    ensures OccursAt(HtmlBodyOpen, "<body", 22)
  {
  }

  lemma HtmlHasMarkers(d: DesignData)
    ensures ValidateHtml(HtmlTemplate(d))
  {
    MarkerPositions();
    HeadInDocument(d, "<!DOCTYPE");
    HeadInDocument(d, "<html");
    BodyInDocument(d, "<body");
  }

  lemma HtmlStylesValid(d: DesignData)
    ensures ValidateCss(HtmlTemplate(d))
  {
    BaseStylesValid();
    StylesheetInside(HtmlHead, CssVariables(d.variables), StyleGap, BaseStyles, ComponentStyles(d.components),
      HtmlBody(d.components));
  }

  /** A valid block stays valid inside the document's stylesheet and the document around it. */
  lemma StylesheetInside(a: string, vars: string, gap: string, b: string, comps: string, c: string)
    requires ValidateCss(b)
    ensures ValidateCss(a + (vars + gap + b + gap + comps) + c)
  {
    BraceBlockInside(vars + gap, b, gap + comps);
    assert vars + gap + b + gap + comps == (vars + gap) + b + (gap + comps);
    BraceBlockInside(a, vars + gap + b + gap + comps, c);
  }

  lemma ReactStylesValid(d: DesignData)
    ensures ValidateCss(ReactStyles(d.components, d.variables))
  {
    BaseStylesValid();
    BraceBlockInside(CssVariables(d.variables), BaseStyles, ComponentStyles(d.components));
  }

  lemma HtmlCodeAccepted(html: string)
    requires ValidateHtml(html)
    ensures ValidateCode(html, "html", _ => false)
  {
  }

  lemma CssCodeAccepted(css: string)
    requires ValidateCss(css)
    ensures ValidateCode(css, "css", _ => false)
  {
    ValidateCssIff(css);
  }

  /** The generated HTML document passes the HTML check, and every generated stylesheet passes the CSS check. */
  lemma GeneratedPassesValidators(d: DesignData)
    ensures ValidateCode(HtmlTemplate(d), "html", _ => false)
    ensures ValidateCode(ReactStyles(d.components, d.variables), "css", _ => false)
    ensures ValidateCode(HtmlTemplate(d), "css", _ => false)
  {
    HtmlHasMarkers(d);
    HtmlCodeAccepted(HtmlTemplate(d));
    HtmlStylesValid(d);
    CssCodeAccepted(HtmlTemplate(d));
    ReactStylesValid(d);
    CssCodeAccepted(ReactStyles(d.components, d.variables));
  }

  lemma HeroBannerMask()
    ensures Mask("Hero Banner") == "hero-banner"
    ensures Mask("hero-banner") == "hero-banner"
  {
    var m := Mask("Hero Banner");
    forall i | 0 <= i < 11
      ensures m[i] == "hero-banner"[i]
    {
    }
    var m' := Mask("hero-banner");
    forall i | 0 <= i < 11
      ensures m'[i] == "hero-banner"[i]
    {
    }
  }

  /** The class token of a component called `Hero Banner`. */
  lemma HeroBannerSanitized()
    ensures Sanitize("Hero Banner") == "hero-banner"
  {
    HeroBannerMask();
    var s := "hero-banner";
    assert IsCanonical(s);
    CanonicalUnchanged(s);
  }
}

=== FILE: collections.dfy ===
/**
  Sequence utilities shared by the planners: filtering, Python's string order
  and a stable sort by a string key (Python's `sorted(xs, key=...)`).
 */
module Collections {

  /** The elements of `s` that satisfy `p`, in their original order. */
  function Filter<T>(s: seq<T>, p: T -> bool): (r: seq<T>)
    ensures |r| <= |s|
    ensures forall i :: 0 <= i < |r| ==> p(r[i])
    ensures forall i :: 0 <= i < |r| ==> r[i] in s
    ensures forall i :: 0 <= i < |s| && p(s[i]) ==> s[i] in r
  {
    if s == [] then []
    else if p(s[0]) then [s[0]] + Filter(s[1..], p)
    else Filter(s[1..], p)
  }

  lemma {:induction false} FilterAppend<T>(a: seq<T>, b: seq<T>, p: T -> bool)
    ensures Filter(a + b, p) == Filter(a, p) + Filter(b, p)
  {
    if a == [] {
      assert a + b == b;
    } else {
      assert (a + b)[1..] == a[1..] + b;
      FilterAppend(a[1..], b, p);
    }
  }

  /** Filtering two permutations of each other gives permutations of each other. */
  lemma {:induction false} FilterPermutation<T>(s: seq<T>, t: seq<T>, p: T -> bool)
    requires multiset(s) == multiset(t)
    ensures multiset(Filter(s, p)) == multiset(Filter(t, p))
    decreases |s|
  {
    if s != [] {
      var a := s[0];
      assert a in multiset(t);
      var k :| 0 <= k < |t| && t[k] == a;
      var t' := t[..k] + t[k + 1..];
      FilterHead(s, p);
      FilterRemoved(t, k, p);
      FilterPermutation(s[1..], t', p);
    }
  }

  /** The first element's share of a filter, and what remains without it. */
  lemma FilterHead<T>(s: seq<T>, p: T -> bool)
    requires s != []
    ensures multiset(Filter(s, p)) == multiset(Filter([s[0]], p)) + multiset(Filter(s[1..], p))
    ensures multiset(s[1..]) == multiset(s) - multiset{s[0]}
  {
    assert s == [s[0]] + s[1..];
    FilterAppend([s[0]], s[1..], p);
  }

  /** The share of the element at `k` in a filter, and what remains without it. */
  lemma FilterRemoved<T>(t: seq<T>, k: nat, p: T -> bool)
    requires k < |t|
    ensures multiset(Filter(t, p)) == multiset(Filter([t[k]], p)) + multiset(Filter(t[..k] + t[k + 1..], p))
    ensures multiset(t[..k] + t[k + 1..]) == multiset(t) - multiset{t[k]}
  {
    var l, a, r := t[..k], t[k], t[k + 1..];
    SplitAt(t, k);
    MultisetAround(t, l, a, r);
    FilterAround(t, l, a, r, p);
  }

  lemma SplitAt<T>(t: seq<T>, k: nat)
    requires k < |t|
    ensures t == t[..k] + [t[k]] + t[k + 1..]
  {
  }

  lemma MultisetAround<T>(t: seq<T>, l: seq<T>, a: T, r: seq<T>)
    requires t == l + [a] + r
    ensures multiset(l + r) == multiset(t) - multiset{a}
  {
    assert multiset(t) == multiset(l) + multiset{a} + multiset(r);
    assert multiset(l + r) == multiset(l) + multiset(r);
  }

  lemma FilterAround<T>(t: seq<T>, l: seq<T>, a: T, r: seq<T>, p: T -> bool)
    requires t == l + [a] + r
    ensures multiset(Filter(t, p)) == multiset(Filter([a], p)) + multiset(Filter(l + r, p))
  {
    FilterAppend(l + [a], r, p);
    FilterAppend(l, [a], p);
    FilterAppend(l, r, p);
  }

  // ------------------------------------------------------------ string order

  /** Python's `a <= b` on strings: lexicographic by code point, a prefix first. */
  predicate LexLe(a: string, b: string) {
    |a| == 0 || (|b| > 0 && (a[0] < b[0] || (a[0] == b[0] && LexLe(a[1..], b[1..]))))
  }

  lemma {:induction false} LexLeTotal(a: string, b: string)
    ensures LexLe(a, b) || LexLe(b, a)
  {
    if |a| > 0 && |b| > 0 && a[0] == b[0] {
      LexLeTotal(a[1..], b[1..]);
    }
  }

  lemma {:induction false} LexLeTransitive(a: string, b: string, c: string)
    requires LexLe(a, b) && LexLe(b, c)
    ensures LexLe(a, c)
  {
    if |a| > 0 && a[0] == b[0] && b[0] == c[0] {
      LexLeTransitive(a[1..], b[1..], c[1..]);
    }
  }

  lemma {:induction false} LexLeAntisymmetric(a: string, b: string)
    requires LexLe(a, b) && LexLe(b, a)
    ensures a == b
  {
    if |a| > 0 {
      LexLeAntisymmetric(a[1..], b[1..]);
      assert a == [a[0]] + a[1..];
      assert b == [b[0]] + b[1..];
    }
  }

  /** A common prefix does not change the order. */
  lemma {:induction false} LexLeCommonPrefix(p: string, a: string, b: string)
    ensures LexLe(p + a, p + b) <==> LexLe(a, b)
  {
    if p != [] {
      assert (p + a)[1..] == p[1..] + a;
      assert (p + b)[1..] == p[1..] + b;
      LexLeCommonPrefix(p[1..], a, b);
    } else {
      assert p + a == a && p + b == b;
    }
  }

  /** `s` is in ascending order of `key`. */
  predicate SortedBy<T>(s: seq<T>, key: T -> string) {
    forall i, j :: 0 <= i < j < |s| ==> LexLe(key(s[i]), key(s[j]))
  }

  /** Inserts `x` after every element whose key is not greater than its own. */
  function InsertBy<T>(x: T, s: seq<T>, key: T -> string): (r: seq<T>)
    requires SortedBy(s, key)
    ensures SortedBy(r, key)
    ensures multiset(r) == multiset(s) + multiset{x}
    ensures |r| == |s| + 1
  {
    if s == [] then [x]
    else if LexLe(key(s[0]), key(x)) then
      var rest := InsertBy(x, s[1..], key);
      InsertAfterHead(x, s, rest, key);
      [s[0]] + rest
    else
      InsertBeforeHead(x, s, key);
      [x] + s
  }

  lemma InsertAfterHead<T>(x: T, s: seq<T>, rest: seq<T>, key: T -> string)
    requires s != [] && SortedBy(s, key) && LexLe(key(s[0]), key(x))
    requires SortedBy(rest, key) && multiset(rest) == multiset(s[1..]) + multiset{x}
    ensures SortedBy([s[0]] + rest, key)
    ensures multiset([s[0]] + rest) == multiset(s) + multiset{x}
  {
    forall i | 0 <= i < |rest|
      ensures LexLe(key(s[0]), key(rest[i]))
    {
      assert rest[i] in multiset(rest);
      if rest[i] != x {
        assert rest[i] in multiset(s[1..]);
        var j :| 0 <= j < |s[1..]| && s[1..][j] == rest[i];
        assert s[j + 1] == rest[i];
      }
    }
    assert s == [s[0]] + s[1..];
    var r := [s[0]] + rest;
    forall i, j | 0 <= i < j < |r|
      ensures LexLe(key(r[i]), key(r[j]))
    {
      assert r[j] == rest[j - 1];
      if i > 0 {
        assert r[i] == rest[i - 1];
      }
    }
  }

  lemma InsertBeforeHead<T>(x: T, s: seq<T>, key: T -> string)
    requires s != [] && SortedBy(s, key) && !LexLe(key(s[0]), key(x))
    ensures SortedBy([x] + s, key)
  {
    LexLeTotal(key(s[0]), key(x));
    var r := [x] + s;
    forall i, j | 0 <= i < j < |r|
      ensures LexLe(key(r[i]), key(r[j]))
    {
      assert r[j] == s[j - 1];
      if i > 0 {
        assert r[i] == s[i - 1];
      } else if j > 1 {
        LexLeTransitive(key(x), key(s[0]), key(s[j - 1]));
      }
    }
  }

  /**
    A stable sort by `key`: Python's `sorted(s, key=key)`, and with the identity
    key plain `sorted(s)`.
   */
  function SortBy<T>(s: seq<T>, key: T -> string): (r: seq<T>)
    ensures SortedBy(r, key)
    ensures multiset(r) == multiset(s)
    ensures |r| == |s|
  {
    if s == [] then []
    else
      assert s == s[..|s| - 1] + [s[|s| - 1]];
      InsertBy(s[|s| - 1], SortBy(s[..|s| - 1], key), key)
  }

  lemma SortByKeeps<T>(s: seq<T>, key: T -> string, x: T)
    requires x in s
    ensures x in SortBy(s, key)
  {
    assert x in multiset(s);
  }

  lemma FilterKeeps<T>(s: seq<T>, p: T -> bool, x: T)
    requires x in s && p(x)
    ensures x in Filter(s, p)
  {
    var k :| 0 <= k < |s| && s[k] == x;
  }

  /** Python `sorted` on strings. */
  function Sorted(s: seq<string>): (r: seq<string>)
    ensures SortedBy(r, x => x)
    ensures multiset(r) == multiset(s)
  {
    SortBy(s, x => x)
  }

  lemma {:induction false} FilterKeepsSorted<T>(s: seq<T>, p: T -> bool, key: T -> string)
    requires SortedBy(s, key)
    ensures SortedBy(Filter(s, p), key)
  {
    if s != [] {
      FilterKeepsSorted(s[1..], p, key);
      var rest := Filter(s[1..], p);
      forall i | 0 <= i < |rest|
        ensures LexLe(key(s[0]), key(rest[i]))
      {
        assert rest[i] in s[1..];
        var j :| 0 <= j < |s[1..]| && s[1..][j] == rest[i];
        assert s[j + 1] == rest[i];
      }
    }
  }
}

=== FILE: figma.dfy ===
/**
  The design-metadata helpers of the Figma integration: node-id extraction and
  validation, the component filter over a metadata tree, the integration's own
  CSS-variable block, and the initialisation gate on the data accessors.
 */
module FigmaIntegration {
  import opened Wrappers
  import opened Text
  import opened Collections
  import Styles

  // ------------------------------------------------------------- node ids

  const NodeIdKey: string := "node-id="

  /** The pattern `node-id=([^&]+)` can match at `i`: the key, then at least one non-`&`. */
  predicate MatchAt(url: string, i: int) {
    OccursAt(url, NodeIdKey, i) && i + 8 < |url| && url[i + 8] != '&'
  }

  /** The leftmost position at or after `from` where the pattern matches. */
  function FindMatch(url: string, from: nat): (r: Option<nat>)
    ensures r.Some? ==> from <= r.value && MatchAt(url, r.value)
    ensures r.Some? ==> forall j :: from <= j < r.value ==> !MatchAt(url, j)
    ensures r.None? ==> forall j :: from <= j ==> !MatchAt(url, j)
    decreases |url| - from
  {
    if from + 8 >= |url| then None
    else if MatchAt(url, from) then Some(from)
    else FindMatch(url, from + 1)
  }

  /** `.replace(/-/g, ':')`. */
  function DashToColon(s: string): string { ReplaceChar(s, '-', ':') }

  /**
    `parseFigmaUrl(url)`: the value after the first `node-id=` that is followed
    by a non-`&` character, up to the next `&` or the end, with every `-`
    turned into `:`; `None` when there is no such `node-id=`.
   */
  function ParseFigmaUrl(url: string): (r: Option<string>)
    ensures r.None? <==> forall i :: !MatchAt(url, i)
    ensures r.Some? ==> r.value != [] && '-' !in r.value && '&' !in r.value
  {
    match FindMatch(url, 0)
    case None => None
    case Some(i) =>
      var rest := url[i + 8..];
      var captured := rest[..IndexOfChar(rest, '&')];
      assert captured[0] == url[i + 8];
      Some(DashToColon(captured))
  }

  /** `:` back to `-`, the form node ids take inside a URL. */
  function ColonToDash(s: string): string { ReplaceChar(s, ':', '-') }

  /** A prefix holding no key: no match can start inside it, not even one running into the key written after it. */
  lemma NoMatchBefore(prefix: string, rest: string, j: int)
    requires forall t :: !OccursAt(prefix, NodeIdKey, t)
    requires 0 <= j < |prefix|
    ensures !MatchAt(prefix + NodeIdKey + rest, j)
  {
    var url := prefix + NodeIdKey + rest;
    if j + 8 <= |prefix| {
      assert url[j..j + 8] == prefix[j..j + 8];
      assert !OccursAt(prefix, NodeIdKey, j);
    } else {
      // The eighth character would fall inside the key, before its `=`.
      var m := j + 7 - |prefix|;
      assert url[j + 7] == NodeIdKey[m] != '=';
      assert url[j..j + 8][7] == url[j + 7];
    }
  }

  /** The key placed after the prefix sits at `|prefix|`, followed by the rest. */
  lemma KeyAfterPrefix(prefix: string, rest: string)
    ensures OccursAt(prefix + NodeIdKey + rest, NodeIdKey, |prefix|)
    ensures (prefix + NodeIdKey + rest)[|prefix| + 8..] == rest
  {
    var url := prefix + NodeIdKey + rest;
    var k := NodeIdKey;
    assert |k| == 8;
    assert url == prefix + (k + rest);
    assert (k + rest)[..|k|] == k;
    assert (k + rest)[|k|..] == rest;
    assert url[|prefix|..] == k + rest;
    assert url[|prefix|..][..|k|] == url[|prefix|..|prefix| + |k|];
  }

  /**
    The value of a parameter: when the text before `node-id=` holds no
    `node-id=` of its own (earlier parameters such as `?type=design&` are
    fine), and the value is non-empty and ends at an `&` or at the end, the
    parse is that value with every `-` turned into `:`.
   */
  lemma ParseSegment(prefix: string, seg: string, suffix: string)
    requires forall t :: !OccursAt(prefix, NodeIdKey, t)
    requires seg != [] && '&' !in seg
    requires suffix == [] || suffix[0] == '&'
    ensures ParseFigmaUrl(prefix + NodeIdKey + seg + suffix) == Some(DashToColon(seg))
  {
    var url := prefix + NodeIdKey + seg + suffix;
    assert url == prefix + NodeIdKey + (seg + suffix);
    FirstMatchAfterPrefix(prefix, seg + suffix);
    CaptureStopsAtAmpersand(seg, suffix);
  }

  /**
    Parsing inverts URL encoding: a node id without `-` or `&`, written with
    `:` as `-` after `node-id=`, is read back exactly, whatever parameters
    precede the key (as long as none is another `node-id=`) and whatever
    parameters follow an `&`.
   */
  lemma ParseRoundTrip(prefix: string, id: string, suffix: string)
    requires forall t :: !OccursAt(prefix, NodeIdKey, t)
    requires id != [] && '-' !in id && '&' !in id
    requires suffix == [] || suffix[0] == '&'
    ensures ParseFigmaUrl(prefix + NodeIdKey + ColonToDash(id) + suffix) == Some(id)
  {
    var enc := ColonToDash(id);
    EncodedNoAmpersand(id);
    ParseSegment(prefix, enc, suffix);
    assert DashToColon(enc) == id;
  }

  /**
    Text with a single `=` holds the key only when `node-id` comes just
    before that `=`: the key's only `=` is its last character.
   */
  lemma OneEqualsNoKey(a: string, b: string)
    requires '=' !in a && '=' !in b
    requires |a| < 7 || a[|a| - 7..] != NodeIdKey[..7]
    ensures forall t :: !OccursAt(a + "=" + b, NodeIdKey, t)
  {
    var s := a + "=" + b;
    forall t
      ensures !OccursAt(s, NodeIdKey, t)
    {
      if 0 <= t && t + 8 <= |s| {
        assert s[t..t + 8][7] == s[t + 7];
        if t + 7 < |a| {
          assert s[t + 7] == a[t + 7];
        } else if t + 7 > |a| {
          assert s[t + 7] == b[t + 7 - |a| - 1];
        } else {
          assert s[t..t + 8][..7] == a[|a| - 7..];
        }
      }
    }
  }

  /**
    A link with an earlier query parameter, such as
    `https://www.figma.com/file/K/N?type=design&node-id=1-2`, parses to the id
    with colons.
   */
  lemma ParseAfterEarlierParameter(base: string)
    requires '=' !in base
    ensures ParseFigmaUrl(base + "?type" + "=" + "design&" + NodeIdKey + "1-2") == Some("1:2")
  {
    var a, b := base + "?type", "design&";
    assert "?type"[0] == '?' != NodeIdKey[2];
    if |a| >= 7 {
      assert a[|a| - 7..][2] == a[|a| - 5] == '?';
    }
    assert '=' !in "?type";
    OneEqualsNoKey(a, b);
    ParseSegment(a + "=" + b, "1-2", "");
    assert a + "=" + b + NodeIdKey + "1-2" + "" == a + "=" + b + NodeIdKey + "1-2";
    assert DashToColon("1-2") == "1:2";
  }

  lemma EncodedNoAmpersand(id: string)
    requires '&' !in id
    ensures '&' !in ColonToDash(id)
  {
    var enc := ColonToDash(id);
    forall t | 0 <= t < |enc|
      ensures enc[t] != '&'
    {
      assert enc[t] == (if id[t] == ':' then '-' else id[t]);
    }
  }

  /** Without a key in the prefix, the first match is the key written after it. */
  lemma FirstMatchAfterPrefix(prefix: string, rest: string)
    requires forall t :: !OccursAt(prefix, NodeIdKey, t)
    requires rest != [] && rest[0] != '&'
    ensures FindMatch(prefix + NodeIdKey + rest, 0) == Some(|prefix|)
    ensures (prefix + NodeIdKey + rest)[|prefix| + 8..] == rest
  {
    var url := prefix + NodeIdKey + rest;
    forall j | 0 <= j < |prefix|
      ensures !MatchAt(url, j)
    {
      NoMatchBefore(prefix, rest, j);
    }
    KeyAfterPrefix(prefix, rest);
    assert url[|prefix| + 8..][0] == rest[0];
    assert MatchAt(url, |prefix|);
    var m := FindMatch(url, 0);
    assert m.Some? && m.value <= |prefix|;
  }

  /** The capture after the key runs up to the first `&`, which starts the suffix. */
  lemma CaptureStopsAtAmpersand(enc: string, suffix: string)
    requires '&' !in enc
    requires suffix == [] || suffix[0] == '&'
    ensures (enc + suffix)[..IndexOfChar(enc + suffix, '&')] == enc
  {
    var rest := enc + suffix;
    if suffix != [] {
      IndexOfCharSkips(enc, suffix, '&');
    } else {
      assert rest == enc;
      assert forall t :: 0 <= t < |enc| ==> rest[t] != '&';
    }
    assert rest[..|enc|] == enc;
  }


  /** The regular-expression reading of `^\d+:\d+$`. */
  predicate NodeIdShape(s: string) {
    exists k | 0 < k < |s| - 1 :: s[k] == ':' && AllDigits(s[..k]) && AllDigits(s[k + 1..])
  }

  /** `validateNodeId(nodeId)`: digits, one colon, digits, and nothing else. */
  function ValidateNodeId(s: string): (r: bool)
    ensures r <==> NodeIdShape(s)
  {
    var k := IndexOfChar(s, ':');
    if 0 < k < |s| - 1 && AllDigits(s[..k]) && AllDigits(s[k + 1..]) then true
    else
      forall j | 0 < j < |s| - 1
        ensures s[j] == ':' && AllDigits(s[..j]) ==> j == k
      {
        if k < j {
          assert s[..j][k] == s[k];
        }
      }
      false
  }

  /** A valid node id survives the URL round trip, after any parameters other than `node-id=`. */
  lemma ValidIdRoundTrip(prefix: string, id: string, suffix: string)
    requires forall t :: !OccursAt(prefix, NodeIdKey, t)
    requires ValidateNodeId(id)
    requires suffix == [] || suffix[0] == '&'
    ensures ParseFigmaUrl(prefix + NodeIdKey + ColonToDash(id) + suffix) == Some(id)
  {
    var k :| 0 < k < |id| - 1 && id[k] == ':' && AllDigits(id[..k]) && AllDigits(id[k + 1..]);
    forall t | 0 <= t < |id|
      ensures id[t] != '-' && id[t] != '&'
    {
      if t < k {
        assert id[..k][t] == id[t];
      } else if t > k {
        assert id[k + 1..][t - k - 1] == id[t];
      }
    }
    ParseRoundTrip(prefix, id, suffix);
  }

  // ------------------------------------------------------- metadata tree

  /** A metadata node: type, name, id, and children when the field is present. */
  datatype MetaNode = MetaNode(kind: string, name: string, id: string, children: MetaChildren)

  datatype MetaChildren = NoChildren | Kids(nodes: seq<MetaNode>)

  /** The record pushed for each component: id, name and type. */
  datatype Component = Component(id: string, name: string, kind: string)

  predicate IsComponentNode(n: MetaNode) {
    n.kind == "COMPONENT" || n.kind == "INSTANCE"
  }

  function Summarize(n: MetaNode): Component {
    Component(n.id, n.name, n.kind)
  }

  /** The inner `traverse`: record a matching node, then visit every child in order. */
  function Traverse(n: MetaNode, acc: seq<Component>): seq<Component>
    decreases n, 1
  {
    var acc' := if IsComponentNode(n) then acc + [Summarize(n)] else acc;
    if n.children.Kids? then TraverseAll(n.children.nodes, acc') else acc'
  }

  /** `node.children.forEach(traverse)`. */
  function TraverseAll(nodes: seq<MetaNode>, acc: seq<Component>): seq<Component>
    decreases nodes
  {
    if nodes == [] then acc else TraverseAll(nodes[1..], Traverse(nodes[0], acc))
  }

  /** `extractComponentsFromMetadata(metadata)`. */
  function ExtractComponents(metadata: MetaNode): seq<Component> {
    Traverse(metadata, [])
  }

  /** Every node of the tree, parents before children, siblings in order. */
  function Preorder(n: MetaNode): (r: seq<MetaNode>)
    ensures |r| >= 1 && r[0] == n
    decreases n, 1
  {
    [n] + (if n.children.Kids? then PreorderAll(n.children.nodes) else [])
  }

  function PreorderAll(nodes: seq<MetaNode>): seq<MetaNode>
    decreases nodes
  {
    if nodes == [] then [] else Preorder(nodes[0]) + PreorderAll(nodes[1..])
  }

  function Summaries(nodes: seq<MetaNode>): (r: seq<Component>)
    ensures |r| == |nodes|
    ensures forall i :: 0 <= i < |nodes| ==> r[i] == Summarize(nodes[i])
  {
    if nodes == [] then [] else [Summarize(nodes[0])] + Summaries(nodes[1..])
  }

  lemma {:induction false} SummariesAppend(a: seq<MetaNode>, b: seq<MetaNode>)
    ensures Summaries(a + b) == Summaries(a) + Summaries(b)
  {
    assert Summaries(a + b) == Summaries(a) + Summaries(b);
  }

  /** The components of `n`'s subtree, as the specification of the traversal. */
  function ComponentsOf(n: MetaNode): seq<Component> {
    Summaries(Filter(Preorder(n), IsComponentNode))
  }

  lemma FilterOne(n: MetaNode)
    ensures Summaries(Filter([n], IsComponentNode)) == if IsComponentNode(n) then [Summarize(n)] else []
  {
  }

  lemma {:induction false} TraverseIsFilter(n: MetaNode, acc: seq<Component>)
    ensures Traverse(n, acc) == acc + Summaries(Filter(Preorder(n), IsComponentNode))
    decreases n, 1
  {
    var acc' := if IsComponentNode(n) then acc + [Summarize(n)] else acc;
    FilterOne(n);
    if n.children.Kids? {
      var kids := PreorderAll(n.children.nodes);
      assert Preorder(n) == [n] + kids;
      FilterAppend([n], kids, IsComponentNode);
      SummariesAppend(Filter([n], IsComponentNode), Filter(kids, IsComponentNode));
      TraverseAllIsFilter(n.children.nodes, acc');
    } else {
      assert Preorder(n) == [n];
    }
  }

  lemma {:induction false} TraverseAllIsFilter(nodes: seq<MetaNode>, acc: seq<Component>)
    ensures TraverseAll(nodes, acc) == acc + Summaries(Filter(PreorderAll(nodes), IsComponentNode))
    decreases nodes
  {
    if nodes != [] {
      var mid := Traverse(nodes[0], acc);
      TraverseIsFilter(nodes[0], acc);
      TraverseAllIsFilter(nodes[1..], mid);
      FilterAppend(Preorder(nodes[0]), PreorderAll(nodes[1..]), IsComponentNode);
      SummariesAppend(Filter(Preorder(nodes[0]), IsComponentNode), Filter(PreorderAll(nodes[1..]), IsComponentNode));
    }
  }

  /**
    The extracted list is exactly the COMPONENT and INSTANCE nodes of the whole
    tree in pre-order, each reduced to id, name and type: the children of a
    node that does not match are visited all the same. It is never longer
    than the tree has nodes.
   */
  lemma ExtractIsPreorderFilter(metadata: MetaNode)
    ensures ExtractComponents(metadata) == ComponentsOf(metadata)
    ensures |ExtractComponents(metadata)| <= |Preorder(metadata)|
    ensures forall i :: 0 <= i < |Preorder(metadata)| && IsComponentNode(Preorder(metadata)[i]) ==>
              Summarize(Preorder(metadata)[i]) in ExtractComponents(metadata)
  {
    TraverseIsFilter(metadata, []);
    var f := Filter(Preorder(metadata), IsComponentNode);
    forall i | 0 <= i < |Preorder(metadata)| && IsComponentNode(Preorder(metadata)[i])
      ensures Summarize(Preorder(metadata)[i]) in ExtractComponents(metadata)
    {
      var k :| 0 <= k < |f| && f[k] == Preorder(metadata)[i];
      assert Summaries(f)[k] == Summarize(f[k]);
    }
  }

  // --------------------------------------------------- CSS variables (2)

  /** `--name: value;` with `/` turned into `-` and the case kept. */
  function IntegrationDecls(vars: seq<(string, string)>): string {
    if vars == [] then ""
    else "  --" + ReplaceChar(vars[0].0, '/', '-') + ": " + vars[0].1 + ";\n" + IntegrationDecls(vars[1..])
  }

  /**
    The integration's `generateCSSVariables(variables)`: always a `:root`
    block, empty for no variables, closed by a single newline.
   */
  function IntegrationCssVariables(vars: seq<(string, string)>): (r: string)
    ensures StartsWith(r, ":root {\n") && EndsWith(r, "}\n")
    ensures vars == [] ==> r == ":root {\n}\n"
  {
    ":root {\n" + IntegrationDecls(vars) + "}\n"
  }

  /** One declaration line of the integration's block, without its newline. */
  function IntegrationLine(entry: (string, string)): string {
    "  --" + ReplaceChar(entry.0, '/', '-') + ": " + entry.1 + ";"
  }

  function IntegrationLines(vars: seq<(string, string)>): (r: seq<string>)
    ensures |r| == |vars|
    ensures forall i :: 0 <= i < |vars| ==> r[i] == IntegrationLine(vars[i])
  {
    seq(|vars|, i requires 0 <= i < |vars| => IntegrationLine(vars[i]))
  }

  lemma {:induction false} IntegrationDeclsAreLines(vars: seq<(string, string)>)
    ensures IntegrationDecls(vars) == Unlines(IntegrationLines(vars))
  {
    if vars != [] {
      IntegrationDeclsAreLines(vars[1..]);
      assert IntegrationLines(vars)[1..] == IntegrationLines(vars[1..]);
    }
  }

  lemma IntegrationLinesOneLine(vars: seq<(string, string)>)
    requires Styles.EntriesOneLine(vars)
    ensures AllNoNewline(IntegrationLines(vars))
  {
    forall i | 0 <= i < |vars|
      ensures NoNewline(IntegrationLine(vars[i]))
    {
      var name := ReplaceChar(vars[i].0, '/', '-');
      assert NoNewline(name) by {
        assert forall k :: 0 <= k < |name| ==> name[k] != '\n';
      }
      assert IntegrationLine(vars[i]) == "  --" + name + ": " + vars[i].1 + ";";
    }
  }

  /**
    For single-line keys and values, the integration's block is, line by
    line, `:root {`, then one declaration per entry in iteration order with
    each `/` of the key turned into `-` and the case of the key kept, then
    `}`, which ends the text with its newline.
   */
  lemma IntegrationCssVariablesLines(vars: seq<(string, string)>)
    requires Styles.EntriesOneLine(vars)
    ensures Lines(IntegrationCssVariables(vars)) == [":root {"] + IntegrationLines(vars) + ["}"]
  {
    var ls := [":root {"] + IntegrationLines(vars) + ["}"];
    IntegrationDeclsAreLines(vars);
    UnlinesAppend([":root {"] + IntegrationLines(vars), ["}"]);
    UnlinesAppend([":root {"], IntegrationLines(vars));
    IntegrationLinesOneLine(vars);
    assert Unlines([":root {"]) == ":root {\n";
    assert Unlines(["}"]) == "}\n";
    assert Unlines(ls) == IntegrationCssVariables(vars);
    LinesOfUnlines(ls);
  }

  predicate NoUpperKeys(vars: seq<(string, string)>) {
    forall i :: 0 <= i < |vars| ==> forall k :: 0 <= k < |vars[i].0| ==> !IsUpper(vars[i].0[k])
  }

  lemma LowerKeeps(s: string)
    requires forall k :: 0 <= k < |s| ==> !IsUpper(s[k])
    ensures Lower(s) == s
  {
  }

  lemma {:induction false} DeclsAgree(vars: seq<(string, string)>)
    requires NoUpperKeys(vars)
    ensures Styles.VariableDecls(vars) == IntegrationDecls(vars)
  {
    if vars != [] {
      var key := vars[0].0;
      var dashed := ReplaceChar(key, '/', '-');
      assert forall k :: 0 <= k < |dashed| ==> !IsUpper(dashed[k]) by {
        assert forall k :: 0 <= k < |key| ==> !IsUpper(key[k]);
      }
      LowerKeeps(dashed);
      assert NoUpperKeys(vars[1..]) by {
        assert forall i :: 0 <= i < |vars[1..]| ==> vars[1..][i] == vars[i + 1];
      }
      DeclsAgree(vars[1..]);
    }
  }

  /**
    The two variable generators agree except in two places: the renderer's
    writes nothing for an empty map and adds a blank line after the block,
    and it also lower-cases the names, which matters only for keys with
    upper-case letters.
   */
  lemma CssVariablesAgree(vars: seq<(string, string)>)
    requires NoUpperKeys(vars)
    ensures vars != [] ==> Styles.CssVariables(vars) == IntegrationCssVariables(vars) + "\n"
    ensures vars == [] ==> Styles.CssVariables(vars) == "" && IntegrationCssVariables(vars) == ":root {\n}\n"
  {
    DeclsAgree(vars);
  }

  // -------------------------------------------------------------- accessors

  /** The five tools the integration looks up on the host at initialisation. */
  datatype Tool = Metadata | Code | Screenshot | VariableDefs | CodeConnectMap

  /** The integration object: the flag and the tools found so far. */
  datatype Client = Client(initialized: bool, tools: set<Tool>)

  /** The constructor: nothing found, not initialised. */
  const NewClient: Client := Client(false, {})

  /**
    `initialize()`: records every tool present on the host (keeping those
    recorded before), sets the flag and reports success.
   */
  function Initialize(c: Client, present: set<Tool>): (r: (Client, bool))
    ensures r.0.initialized && r.1
    ensures r.0.tools == c.tools + present
  {
    (Client(true, c.tools + present), true)
  }

  /** The argument object handed to a tool. */
  datatype Request = Request(tool: Tool, nodeId: Option<string>, frameworks: string, languages: string, forceCode: bool)

  /** `getMockCode`'s templates, by key. Their text is static and not modelled. */
  datatype MockTemplate = HtmlMock | ReactMock | VueMock | AngularMock

  datatype Mock =
    | MockMetadata
    | MockCode(template: MockTemplate)
    | MockScreenshot
    | MockVariables
    | MockCodeConnectMap

  /** The tool's answer to a request (opaque), or the local fallback. */
  datatype Reply = Remote(request: Request) | Fallback(mock: Mock)

  datatype AccessError = NotInitialized

  /** `getMockCode(framework)`: the template for the key, the HTML one otherwise. */
  function GetMockCode(key: string): (r: MockTemplate)
    ensures key !in {"html", "react", "vue", "angular"} ==> r == HtmlMock
    ensures key == "react" <==> r == ReactMock
    ensures key == "vue" <==> r == VueMock
    ensures key == "angular" <==> r == AngularMock
  {
    if key == "react" then ReactMock
    else if key == "vue" then VueMock
    else if key == "angular" then AngularMock
    else HtmlMock
  }

  const DefaultLanguages: string := "html,css,javascript"

  /** The shared shape of the five accessors: gate, then tool, then fallback. */
  function Access(c: Client, req: Request, mock: Mock): Result<Reply, AccessError> {
    if !c.initialized then Failure(NotInitialized)
    else if req.tool in c.tools then Success(Remote(req))
    else Success(Fallback(mock))
  }

  function GetDesignMetadata(c: Client, nodeId: Option<string>): Result<Reply, AccessError> {
    Access(c, Request(Metadata, nodeId, DefaultLanguages, DefaultLanguages, false), MockMetadata)
  }

  function GetDesignCode(c: Client, nodeId: Option<string>, framework: string): Result<Reply, AccessError> {
    Access(c, Request(Code, nodeId, framework, DefaultLanguages, true), MockCode(GetMockCode(framework)))
  }

  function GetDesignScreenshot(c: Client, nodeId: Option<string>): Result<Reply, AccessError> {
    Access(c, Request(Screenshot, nodeId, DefaultLanguages, DefaultLanguages, false), MockScreenshot)
  }

  function GetDesignVariables(c: Client, nodeId: Option<string>): Result<Reply, AccessError> {
    Access(c, Request(VariableDefs, nodeId, DefaultLanguages, DefaultLanguages, false), MockVariables)
  }

  function GetCodeConnectMap(c: Client, nodeId: Option<string>): Result<Reply, AccessError> {
    Access(c, Request(CodeConnectMap, nodeId, DefaultLanguages, DefaultLanguages, false), MockCodeConnectMap)
  }

  /** Every accessor, by the tool it asks for. */
  function Accessor(c: Client, t: Tool, nodeId: Option<string>, framework: string): Result<Reply, AccessError> {
    match t
    case Metadata => GetDesignMetadata(c, nodeId)
    case Code => GetDesignCode(c, nodeId, framework)
    case Screenshot => GetDesignScreenshot(c, nodeId)
    case VariableDefs => GetDesignVariables(c, nodeId)
    case CodeConnectMap => GetCodeConnectMap(c, nodeId)
  }

  /**
    The gate: every accessor fails with "not initialised" exactly when the
    flag is unset; once set, a tool found on the host is asked (with the
    requested node id, and for code the requested framework) and otherwise
    the local mock answers.
   */
  lemma AccessorGate(c: Client, t: Tool, nodeId: Option<string>, framework: string)
    ensures Accessor(c, t, nodeId, framework).Failure? <==> !c.initialized
    ensures c.initialized && t in c.tools ==>
      Accessor(c, t, nodeId, framework).value.Remote?
      && Accessor(c, t, nodeId, framework).value.request.tool == t
      && Accessor(c, t, nodeId, framework).value.request.nodeId == nodeId
    ensures c.initialized && t !in c.tools ==> Accessor(c, t, nodeId, framework).value.Fallback?
    ensures c.initialized && t == Code && t !in c.tools ==>
      Accessor(c, t, nodeId, framework) == Success(Fallback(MockCode(GetMockCode(framework))))
  {
  }

  /**
    A fresh client refuses every call; after `initialize` every call
    succeeds, and the tools found at initialisation are the ones asked.
   */
  lemma InitializeOpensGate(present: set<Tool>, t: Tool, nodeId: Option<string>, framework: string)
    ensures Accessor(NewClient, t, nodeId, framework) == Failure(NotInitialized)
    ensures var c := Initialize(NewClient, present).0;
      Accessor(c, t, nodeId, framework).Success?
      && (Accessor(c, t, nodeId, framework).value.Remote? <==> t in present)
  {
  }
}

=== FILE: markup.dfy ===
/**
  The component tree and its rendering as nested `<div>` markup. The four
  framework-specific child walkers of the generator are kept as four functions,
  as in the program, and each is proved equal to one shared walk parameterised
  by the attribute name. The shared walk is in turn described by a flat stream
  of open/text/close events, one rendered line per event.
 */
module Markup {
  import opened Wrappers
  import opened Text
  import opened ClassName

  /**
    A component: `children` present (even empty) takes precedence over
    `content`; `styles` are CSS declarations in insertion order.
   */
  datatype Node = Node(
    name: string,
    content: Option<string>,
    children: Children,
    styles: seq<(string, string)>)

  /** A node's `children` field: absent, or an array (possibly empty). */
  datatype Children = Absent | Present(nodes: seq<Node>)

  /** JavaScript truthiness of `content`: present and non-empty. */
  predicate ShowsContent(n: Node) {
    n.children.Absent? && n.content.Some? && n.content.value != ""
  }

  /** The line that holds the content of a leaf rendered at `indent`. */
  function ContentLine(n: Node, indent: string): string {
    if n.content.Some? && n.content.value != "" then indent + "  " + n.content.value + "\n" else ""
  }

  // ------------------------------------------------ the program's four walkers

  /** `generateHTMLChildren(children, indent)`. */
  function HtmlChildren(children: seq<Node>, indent: string): string
    decreases children
  {
    if children == [] then ""
    else
      var child := children[0];
      indent + "<div class=\"" + Sanitize(child.name) + "\">\n"
      + (if child.children.Present? then HtmlChildren(child.children.nodes, indent + "  ")
         else ContentLine(child, indent))
      + indent + "</div>\n"
      + HtmlChildren(children[1..], indent)
  }

  /** `generateReactChildren(children, indent)`. */
  function ReactChildren(children: seq<Node>, indent: string): string
    decreases children
  {
    if children == [] then ""
    else
      var child := children[0];
      indent + "<div className=\"" + Sanitize(child.name) + "\">\n"
      + (if child.children.Present? then ReactChildren(child.children.nodes, indent + "  ")
         else ContentLine(child, indent))
      + indent + "</div>\n"
      + ReactChildren(children[1..], indent)
  }

  /** `generateVueChildren(children, indent)`. */
  function VueChildren(children: seq<Node>, indent: string): string
    decreases children
  {
    if children == [] then ""
    else
      var child := children[0];
      indent + "<div class=\"" + Sanitize(child.name) + "\">\n"
      + (if child.children.Present? then VueChildren(child.children.nodes, indent + "  ")
         else ContentLine(child, indent))
      + indent + "</div>\n"
      + VueChildren(children[1..], indent)
  }

  /** `generateAngularChildren(children, indent)`. */
  function AngularChildren(children: seq<Node>, indent: string): string
    decreases children
  {
    if children == [] then ""
    else
      var child := children[0];
      indent + "<div class=\"" + Sanitize(child.name) + "\">\n"
      + (if child.children.Present? then AngularChildren(child.children.nodes, indent + "  ")
         else ContentLine(child, indent))
      + indent + "</div>\n"
      + AngularChildren(children[1..], indent)
  }

  // ----------------------------------------------------------- the shared walk

  /** The walk all four share, with the class attribute's name as a parameter. */
  function Walk(attr: string, nodes: seq<Node>, indent: string): string
    decreases nodes
  {
    if nodes == [] then "" else WalkNode(attr, nodes[0], indent) + Walk(attr, nodes[1..], indent)
  }

  function WalkNode(attr: string, n: Node, indent: string): string
    decreases n, 1
  {
    OpenLine(attr, n, indent) + WalkBody(attr, n, indent) + CloseLine(indent)
  }

  /** A node's children one level deeper, or else its content line. */
  function WalkBody(attr: string, n: Node, indent: string): string
    decreases n, 0
  {
    if n.children.Present? then Walk(attr, n.children.nodes, indent + "  ") else ContentLine(n, indent)
  }

  function OpenLine(attr: string, n: Node, indent: string): string {
    indent + "<div " + attr + "=\"" + Sanitize(n.name) + "\">\n"
  }

  function CloseLine(indent: string): string {
    indent + "</div>\n"
  }

  lemma OpenLineClass(n: Node, indent: string)
    ensures indent + "<div class=\"" + Sanitize(n.name) + "\">\n" == OpenLine("class", n, indent)
  {
  }

  lemma OpenLineClassName(n: Node, indent: string)
    ensures indent + "<div className=\"" + Sanitize(n.name) + "\">\n" == OpenLine("className", n, indent)
  {
    var id := Sanitize(n.name);
    assert "<div className=\"" == "<div " + "className" + "=\"";
  }

  lemma Regroup(open: string, body: string, indent: string, rest: string)
    ensures open + body + indent + "</div>\n" + rest == open + body + CloseLine(indent) + rest
  {
  }

  lemma {:induction false} HtmlChildrenIsWalk(nodes: seq<Node>, indent: string)
    ensures HtmlChildren(nodes, indent) == Walk("class", nodes, indent)
    decreases nodes
  {
    if nodes != [] {
      var n := nodes[0];
      if n.children.Present? {
        HtmlChildrenIsWalk(n.children.nodes, indent + "  ");
      }
      HtmlChildrenIsWalk(nodes[1..], indent);
      var open := indent + "<div class=\"" + Sanitize(n.name) + "\">\n";
      OpenLineClass(n, indent);
      Regroup(open, WalkBody("class", n, indent), indent, Walk("class", nodes[1..], indent));
    }
  }

  lemma {:induction false} ReactChildrenIsWalk(nodes: seq<Node>, indent: string)
    ensures ReactChildren(nodes, indent) == Walk("className", nodes, indent)
    decreases nodes
  {
    if nodes != [] {
      var n := nodes[0];
      if n.children.Present? {
        ReactChildrenIsWalk(n.children.nodes, indent + "  ");
      }
      ReactChildrenIsWalk(nodes[1..], indent);
      var open := indent + "<div className=\"" + Sanitize(n.name) + "\">\n";
      OpenLineClassName(n, indent);
      Regroup(open, WalkBody("className", n, indent), indent, Walk("className", nodes[1..], indent));
    }
  }

  lemma {:induction false} VueChildrenIsWalk(nodes: seq<Node>, indent: string)
    ensures VueChildren(nodes, indent) == Walk("class", nodes, indent)
    decreases nodes
  {
    if nodes != [] {
      var n := nodes[0];
      if n.children.Present? {
        VueChildrenIsWalk(n.children.nodes, indent + "  ");
      }
      VueChildrenIsWalk(nodes[1..], indent);
      var open := indent + "<div class=\"" + Sanitize(n.name) + "\">\n";
      OpenLineClass(n, indent);
      Regroup(open, WalkBody("class", n, indent), indent, Walk("class", nodes[1..], indent));
    }
  }

  lemma {:induction false} AngularChildrenIsWalk(nodes: seq<Node>, indent: string)
    ensures AngularChildren(nodes, indent) == Walk("class", nodes, indent)
    decreases nodes
  {
    if nodes != [] {
      var n := nodes[0];
      if n.children.Present? {
        AngularChildrenIsWalk(n.children.nodes, indent + "  ");
      }
      AngularChildrenIsWalk(nodes[1..], indent);
      var open := indent + "<div class=\"" + Sanitize(n.name) + "\">\n";
      OpenLineClass(n, indent);
      Regroup(open, WalkBody("class", n, indent), indent, Walk("class", nodes[1..], indent));
    }
  }

  /**
    The HTML, Vue and Angular walkers print the same text, and the React
    walker prints the text of the shared walk with `className` in place of
    `class`.
   */
  lemma WalkersAgree(nodes: seq<Node>, indent: string)
    ensures HtmlChildren(nodes, indent) == VueChildren(nodes, indent) == AngularChildren(nodes, indent)
    ensures ReactChildren(nodes, indent) == Walk("className", nodes, indent)
    ensures HtmlChildren(nodes, indent) == Walk("class", nodes, indent)
  {
    HtmlChildrenIsWalk(nodes, indent);
    VueChildrenIsWalk(nodes, indent);
    AngularChildrenIsWalk(nodes, indent);
    ReactChildrenIsWalk(nodes, indent);
  }

  // ------------------------------------------------------------ root loops

  /**
    A generator's own loop over the root components. Each root opens at
    `indent`; its children are walked from `inner`, or else its content is
    printed at `inner`; it closes at `indent`. The HTML loop puts `inner`
    two spaces deeper than `indent`, as the walker does for every level
    below; the React, Vue and Angular loops put it four spaces deeper.
   */
  function RootLoop(attr: string, roots: seq<Node>, indent: string, inner: string): string
    decreases roots
  {
    if roots == [] then "" else RootBlock(attr, roots[0], indent, inner) + RootLoop(attr, roots[1..], indent, inner)
  }

  /** The lines one root contributes. */
  function RootBlock(attr: string, n: Node, indent: string, inner: string): string {
    OpenLine(attr, n, indent) + RootBody(attr, n, inner) + CloseLine(indent)
  }

  function RootBody(attr: string, n: Node, inner: string): string {
    if n.children.Present? then Walk(attr, n.children.nodes, inner)
    else if n.content.Some? && n.content.value != "" then inner + n.content.value + "\n"
    else ""
  }

  /** With the inner indent one walker step (two spaces) deeper, the root loop is the walk itself. */
  lemma {:induction false} RootLoopIsWalk(attr: string, roots: seq<Node>, indent: string)
    ensures RootLoop(attr, roots, indent, indent + "  ") == Walk(attr, roots, indent)
    decreases roots
  {
    if roots != [] {
      RootLoopIsWalk(attr, roots[1..], indent);
      assert RootBody(attr, roots[0], indent + "  ") == WalkBody(attr, roots[0], indent);
    }
  }

  /**
    Every root appears in the loop's text as one block: its opening line at
    `indent`, then the walk of its children from `inner` (when it has a
    children array) or its content line at `inner` (when the content is
    shown) or nothing, then its closing line at `indent`.
   */
  lemma RootLoopHasBlocks(attr: string, roots: seq<Node>, indent: string, inner: string, i: int)
    requires 0 <= i < |roots|
    ensures roots[i].children.Present? ==>
      Contains(RootLoop(attr, roots, indent, inner),
               OpenLine(attr, roots[i], indent) + Walk(attr, roots[i].children.nodes, inner) + CloseLine(indent))
    ensures ShowsContent(roots[i]) ==>
      Contains(RootLoop(attr, roots, indent, inner),
               OpenLine(attr, roots[i], indent) + inner + roots[i].content.value + "\n" + CloseLine(indent))
    ensures roots[i].children.Absent? && !ShowsContent(roots[i]) ==>
      Contains(RootLoop(attr, roots, indent, inner), OpenLine(attr, roots[i], indent) + CloseLine(indent))
  {
    RootLoopContainsBlock(attr, roots, indent, inner, i);
    RootBlockShape(attr, roots[i], indent, inner);
  }

  lemma {:induction false} RootLoopContainsBlock(attr: string, roots: seq<Node>, indent: string, inner: string, i: int)
    requires 0 <= i < |roots|
    ensures Contains(RootLoop(attr, roots, indent, inner), RootBlock(attr, roots[i], indent, inner))
    decreases i
  {
    var block := RootBlock(attr, roots[i], indent, inner);
    var rest := RootLoop(attr, roots[1..], indent, inner);
    if i == 0 {
      assert OccursAt(block, block, 0);
      ContainsLeft(block, rest, block);
    } else {
      RootLoopContainsBlock(attr, roots[1..], indent, inner, i - 1);
      assert roots[1..][i - 1] == roots[i];
      ContainsRight(RootBlock(attr, roots[0], indent, inner), rest, block);
    }
  }

  /** A root's block is its opening line, its children's walk or its content line or nothing, and its closing line. */
  lemma RootBlockShape(attr: string, n: Node, indent: string, inner: string)
    ensures n.children.Present? ==>
      RootBlock(attr, n, indent, inner) == OpenLine(attr, n, indent) + Walk(attr, n.children.nodes, inner) + CloseLine(indent)
    ensures ShowsContent(n) ==>
      RootBlock(attr, n, indent, inner) == OpenLine(attr, n, indent) + inner + n.content.value + "\n" + CloseLine(indent)
    ensures n.children.Absent? && !ShowsContent(n) ==>
      RootBlock(attr, n, indent, inner) == OpenLine(attr, n, indent) + CloseLine(indent)
  {
    var open, close := OpenLine(attr, n, indent), CloseLine(indent);
    if ShowsContent(n) {
      var line := inner + n.content.value + "\n";
      assert RootBlock(attr, n, indent, inner) == open + line + close;
      assert open + line == open + inner + n.content.value + "\n";
    } else if n.children.Absent? {
      assert RootBody(attr, n, inner) == "";
      assert RootBlock(attr, n, indent, inner) == open + "" + close;
    }
  }

  // ------------------------------------------------------------- event stream

  /** One rendered line: an opening tag, a content line or a closing tag, at a nesting depth. */
  datatype Event = Open(depth: nat, id: string) | Text(depth: nat, text: string) | Close(depth: nat)

  /** Pre-order events of a forest whose roots sit at nesting depth `depth`. */
  function Events(nodes: seq<Node>, depth: nat): seq<Event>
    decreases nodes
  {
    if nodes == [] then [] else NodeEvents(nodes[0], depth) + Events(nodes[1..], depth)
  }

  /** A node's opening tag, then its children or its shown content, then its closing tag. */
  function NodeEvents(n: Node, depth: nat): seq<Event>
    decreases n, 1
  {
    [Open(depth, Sanitize(n.name))] + BodyEvents(n, depth) + [Close(depth)]
  }

  function BodyEvents(n: Node, depth: nat): seq<Event>
    decreases n, 0
  {
    if n.children.Present? then Events(n.children.nodes, depth + 1)
    else if ShowsContent(n) then [Text(depth + 1, n.content.value)] else []
  }

  function Spaces(k: nat): (r: string)
    ensures |r| == k
  {
    seq(k, _ => ' ')
  }

  /** An event as its line of text (without the newline), two spaces per level. */
  function RenderEvent(attr: string, indent: string, e: Event): string {
    match e
    case Open(d, id) => indent + Spaces(2 * d) + "<div " + attr + "=\"" + id + "\">"
    case Text(d, t) => indent + Spaces(2 * d) + t
    case Close(d) => indent + Spaces(2 * d) + "</div>"
  }

  function RenderEvents(attr: string, indent: string, es: seq<Event>): (r: seq<string>)
    ensures |r| == |es|
    ensures forall i :: 0 <= i < |es| ==> r[i] == RenderEvent(attr, indent, es[i])
  {
    seq(|es|, i requires 0 <= i < |es| => RenderEvent(attr, indent, es[i]))
  }

  /** The walk prints one line per event, indented two spaces per nesting level. */
  lemma {:induction false} WalkRendersEvents(attr: string, nodes: seq<Node>, indent: string, depth: nat)
    ensures Walk(attr, nodes, indent + Spaces(2 * depth))
         == Unlines(RenderEvents(attr, indent, Events(nodes, depth)))
    decreases nodes
  {
    if nodes != [] {
      NodeRendersEvents(attr, nodes[0], indent, depth);
      WalkRendersEvents(attr, nodes[1..], indent, depth);
      RenderEventsAppend(attr, indent, NodeEvents(nodes[0], depth), Events(nodes[1..], depth));
      UnlinesAppend(RenderEvents(attr, indent, NodeEvents(nodes[0], depth)),
                    RenderEvents(attr, indent, Events(nodes[1..], depth)));
    }
  }

  lemma {:induction false} NodeRendersEvents(attr: string, n: Node, indent: string, depth: nat)
    ensures WalkNode(attr, n, indent + Spaces(2 * depth))
         == Unlines(RenderEvents(attr, indent, NodeEvents(n, depth)))
    decreases n, 1
  {
    var ind := indent + Spaces(2 * depth);
    var open := [Open(depth, Sanitize(n.name))];
    var body := BodyEvents(n, depth);
    var close := [Close(depth)];
    assert NodeEvents(n, depth) == open + body + close;
    RenderThree(attr, indent, open, body, close);
    OpenRenders(attr, n, indent, depth);
    CloseRenders(attr, indent, depth);
    BodyRenders(attr, n, indent, depth);
  }

  /** Rendering a concatenation of three event runs concatenates their texts. */
  lemma RenderThree(attr: string, indent: string, a: seq<Event>, b: seq<Event>, c: seq<Event>)
    ensures Unlines(RenderEvents(attr, indent, a + b + c))
         == Unlines(RenderEvents(attr, indent, a)) + Unlines(RenderEvents(attr, indent, b))
            + Unlines(RenderEvents(attr, indent, c))
  {
    RenderEventsAppend(attr, indent, a + b, c);
    RenderEventsAppend(attr, indent, a, b);
    UnlinesAppend(RenderEvents(attr, indent, a + b), RenderEvents(attr, indent, c));
    UnlinesAppend(RenderEvents(attr, indent, a), RenderEvents(attr, indent, b));
  }

  lemma OpenRenders(attr: string, n: Node, indent: string, depth: nat)
    ensures Unlines(RenderEvents(attr, indent, [Open(depth, Sanitize(n.name))]))
         == OpenLine(attr, n, indent + Spaces(2 * depth))
  {
    var rs := RenderEvents(attr, indent, [Open(depth, Sanitize(n.name))]);
    assert rs == [indent + Spaces(2 * depth) + "<div " + attr + "=\"" + Sanitize(n.name) + "\">"];
    assert Unlines(rs) == rs[0] + "\n" + Unlines([]);
  }

  lemma CloseRenders(attr: string, indent: string, depth: nat)
    ensures Unlines(RenderEvents(attr, indent, [Close(depth)])) == CloseLine(indent + Spaces(2 * depth))
  {
    var rs := RenderEvents(attr, indent, [Close(depth)]);
    assert rs == [indent + Spaces(2 * depth) + "</div>"];
    assert Unlines(rs) == rs[0] + "\n" + Unlines([]);
  }

  lemma SpacesStep(indent: string, depth: nat)
    ensures indent + Spaces(2 * (depth + 1)) == indent + Spaces(2 * depth) + "  "
  {
    assert Spaces(2 * (depth + 1)) == Spaces(2 * depth) + "  ";
  }

  lemma {:induction false} BodyRenders(attr: string, n: Node, indent: string, depth: nat)
    ensures Unlines(RenderEvents(attr, indent, BodyEvents(n, depth)))
         == WalkBody(attr, n, indent + Spaces(2 * depth))
    decreases n, 0
  {
    var ind := indent + Spaces(2 * depth);
    SpacesStep(indent, depth);
    if n.children.Present? {
      WalkRendersEvents(attr, n.children.nodes, indent, depth + 1);
    } else if ShowsContent(n) {
      var rs := RenderEvents(attr, indent, BodyEvents(n, depth));
      assert rs == [ind + "  " + n.content.value];
      assert Unlines(rs) == rs[0] + "\n" + Unlines([]);
    } else {
      assert RenderEvents(attr, indent, BodyEvents(n, depth)) == [];
    }
  }

  lemma RenderEventsAppend(attr: string, indent: string, a: seq<Event>, b: seq<Event>)
    ensures RenderEvents(attr, indent, a + b) == RenderEvents(attr, indent, a) + RenderEvents(attr, indent, b)
  {
  }

  /** No content string of the forest holds a newline. */
  predicate ContentsOneLine(nodes: seq<Node>)
    decreases nodes
  {
    forall i :: 0 <= i < |nodes| ==> NodeOneLine(nodes[i])
  }

  predicate NodeOneLine(n: Node)
    decreases n
  {
    && (n.content.Some? ==> NoNewline(n.content.value))
    && (n.children.Present? ==> ContentsOneLine(n.children.nodes))
  }

  /** Every opening tag carries a canonical class token and every content line is a shown content. */
  predicate EventLineSafe(e: Event) {
    match e
    case Open(_, id) => IsCanonical(id)
    case Text(_, t) => NoNewline(t)
    case Close(_) => true
  }

  lemma {:induction false} EventsLineSafe(nodes: seq<Node>, depth: nat)
    requires ContentsOneLine(nodes)
    ensures forall i :: 0 <= i < |Events(nodes, depth)| ==> EventLineSafe(Events(nodes, depth)[i])
    decreases nodes
  {
    if nodes != [] {
      assert NodeOneLine(nodes[0]);
      NodeEventsLineSafe(nodes[0], depth);
      assert forall j :: 0 <= j < |nodes[1..]| ==> nodes[1..][j] == nodes[j + 1];
      EventsLineSafe(nodes[1..], depth);
    }
  }

  lemma {:induction false} NodeEventsLineSafe(n: Node, depth: nat)
    requires NodeOneLine(n)
    ensures forall i :: 0 <= i < |NodeEvents(n, depth)| ==> EventLineSafe(NodeEvents(n, depth)[i])
    decreases n
  {
    SanitizeProperties(n.name);
    var body := BodyEvents(n, depth);
    if n.children.Present? {
      EventsLineSafe(n.children.nodes, depth + 1);
      assert body == Events(n.children.nodes, depth + 1);
    } else if ShowsContent(n) {
      assert body == [Text(depth + 1, n.content.value)];
      assert EventLineSafe(body[0]);
    } else {
      assert body == [];
    }
    assert NodeEvents(n, depth) == [Open(depth, Sanitize(n.name))] + body + [Close(depth)];
  }

  lemma ClassTokenOneLine(id: string)
    requires IsCanonical(id)
    ensures NoNewline(id)
  {
    assert forall k :: 0 <= k < |id| ==> id[k] != '\n';
  }

  lemma EventsOneLine(attr: string, indent: string, nodes: seq<Node>, depth: nat)
    requires NoNewline(attr) && NoNewline(indent) && ContentsOneLine(nodes)
    ensures AllNoNewline(RenderEvents(attr, indent, Events(nodes, depth)))
  {
    var es := Events(nodes, depth);
    EventsLineSafe(nodes, depth);
    forall i | 0 <= i < |es|
      ensures NoNewline(RenderEvent(attr, indent, es[i]))
    {
      assert EventLineSafe(es[i]);
      assert NoNewline(Spaces(2 * es[i].depth));
      match es[i]
      case Open(d, id) => ClassTokenOneLine(id);
      case Text(d, t) =>
      case Close(d) =>
    }
  }

  /**
    With single-line contents, the lines of the walk's output are exactly the
    rendered events: one opening line and one closing line per node, and one
    content line per leaf that shows its content.
   */
  lemma WalkLines(attr: string, nodes: seq<Node>, indent: string)
    requires NoNewline(attr) && NoNewline(indent) && ContentsOneLine(nodes)
    ensures Lines(Walk(attr, nodes, indent)) == RenderEvents(attr, indent, Events(nodes, 0))
  {
    assert indent + Spaces(0) == indent;
    WalkRendersEvents(attr, nodes, indent, 0);
    EventsOneLine(attr, indent, nodes, 0);
    LinesOfUnlines(RenderEvents(attr, indent, Events(nodes, 0)));
  }

  // ---------------------------------------------------------- nesting, counts

  /**
    Replays events against a depth counter: an opening tag or a content line
    must sit at the current depth, a closing tag one level above it. `None`
    when some event is out of place.
   */
  function Replay(es: seq<Event>, cur: nat): Option<nat> {
    if es == [] then Some(cur)
    else match es[0]
      case Open(d, _) => if d == cur then Replay(es[1..], cur + 1) else None
      case Text(d, _) => if d == cur then Replay(es[1..], cur) else None
      case Close(d) => if d + 1 == cur then Replay(es[1..], d) else None
  }

  lemma {:induction false} ReplayAppend(a: seq<Event>, b: seq<Event>, cur: nat, mid: nat)
    requires Replay(a, cur) == Some(mid)
    ensures Replay(a + b, cur) == Replay(b, mid)
  {
    if a == [] {
      assert a + b == b;
    } else {
      assert (a + b)[1..] == a[1..] + b;
      match a[0]
      case Open(d, _) => ReplayAppend(a[1..], b, cur + 1, mid);
      case Text(d, _) => ReplayAppend(a[1..], b, cur, mid);
      case Close(d) => ReplayAppend(a[1..], b, d, mid);
    }
  }

  /**
    The events are properly nested: every opening tag is at the current depth,
    every closing tag closes the innermost open one, and the stream ends at the
    depth it started from.
   */
  lemma {:induction false} EventsWellNested(nodes: seq<Node>, depth: nat)
    ensures Replay(Events(nodes, depth), depth) == Some(depth)
    decreases nodes
  {
    if nodes != [] {
      NodeEventsWellNested(nodes[0], depth);
      EventsWellNested(nodes[1..], depth);
      ReplayAppend(NodeEvents(nodes[0], depth), Events(nodes[1..], depth), depth, depth);
    }
  }

  lemma {:induction false} NodeEventsWellNested(n: Node, depth: nat)
    ensures Replay(NodeEvents(n, depth), depth) == Some(depth)
    decreases n
  {
    var body := BodyEvents(n, depth);
    var close := [Close(depth)];
    if n.children.Present? {
      EventsWellNested(n.children.nodes, depth + 1);
    }
    assert Replay(body, depth + 1) == Some(depth + 1);
    assert Replay(close, depth + 1) == Some(depth);
    ReplayAppend(body, close, depth + 1, depth + 1);
    assert NodeEvents(n, depth) == [Open(depth, Sanitize(n.name))] + (body + close);
  }

  /** Number of nodes in a forest. */
  function Size(nodes: seq<Node>): nat
    decreases nodes
  {
    if nodes == [] then 0 else NodeSize(nodes[0]) + Size(nodes[1..])
  }

  function NodeSize(n: Node): nat
    decreases n
  {
    1 + if n.children.Present? then Size(n.children.nodes) else 0
  }

  /** Number of leaves whose content is shown (children absent, content non-empty). */
  function ShownContents(nodes: seq<Node>): nat
    decreases nodes
  {
    if nodes == [] then 0 else NodeShownContents(nodes[0]) + ShownContents(nodes[1..])
  }

  function NodeShownContents(n: Node): nat
    decreases n
  {
    if n.children.Present? then ShownContents(n.children.nodes)
    else if ShowsContent(n) then 1 else 0
  }

  function CountOpen(es: seq<Event>): nat {
    if es == [] then 0 else (if es[0].Open? then 1 else 0) + CountOpen(es[1..])
  }

  function CountClose(es: seq<Event>): nat {
    if es == [] then 0 else (if es[0].Close? then 1 else 0) + CountClose(es[1..])
  }

  function CountText(es: seq<Event>): nat {
    if es == [] then 0 else (if es[0].Text? then 1 else 0) + CountText(es[1..])
  }

  lemma {:induction false} CountsAppend(a: seq<Event>, b: seq<Event>)
    ensures CountOpen(a + b) == CountOpen(a) + CountOpen(b)
    ensures CountClose(a + b) == CountClose(a) + CountClose(b)
    ensures CountText(a + b) == CountText(a) + CountText(b)
  {
    if a == [] {
      assert a + b == b;
    } else {
      assert (a + b)[1..] == a[1..] + b;
      CountsAppend(a[1..], b);
    }
  }

  /**
    Exactly one opening and one closing tag per node, and one content line per
    leaf that has no `children` and non-empty `content`.
   */
  lemma {:induction false} EventCounts(nodes: seq<Node>, depth: nat)
    ensures CountOpen(Events(nodes, depth)) == Size(nodes)
    ensures CountClose(Events(nodes, depth)) == Size(nodes)
    ensures CountText(Events(nodes, depth)) == ShownContents(nodes)
    decreases nodes
  {
    if nodes != [] {
      NodeEventCounts(nodes[0], depth);
      EventCounts(nodes[1..], depth);
      CountsAppend(NodeEvents(nodes[0], depth), Events(nodes[1..], depth));
    }
  }

  lemma {:induction false} NodeEventCounts(n: Node, depth: nat)
    ensures CountOpen(NodeEvents(n, depth)) == NodeSize(n)
    ensures CountClose(NodeEvents(n, depth)) == NodeSize(n)
    ensures CountText(NodeEvents(n, depth)) == NodeShownContents(n)
    decreases n
  {
    var open := [Open(depth, Sanitize(n.name))];
    var body := BodyEvents(n, depth);
    if n.children.Present? {
      EventCounts(n.children.nodes, depth + 1);
    }
    CountsAppend(open + body, [Close(depth)]);
    CountsAppend(open, body);
  }

  /**
    An empty `children` array suppresses `content`: such a node renders as an
    opening and a closing line only, whatever its content.
   */
  lemma EmptyChildrenSuppressContent(attr: string, n: Node, indent: string)
    requires n.children == Present([])
    ensures Walk(attr, [n], indent)
         == indent + "<div " + attr + "=\"" + Sanitize(n.name) + "\">\n" + indent + "</div>\n"
  {
    var rest: seq<Node> := [n][1..];
    assert rest == [];
    assert Walk(attr, [n], indent) == WalkNode(attr, n, indent) + Walk(attr, rest, indent);
    assert WalkBody(attr, n, indent) == Walk(attr, [], indent + "  ") == "";
    OpenThenClose(attr, n, indent);
  }

  lemma OpenThenClose(attr: string, n: Node, indent: string)
    ensures OpenLine(attr, n, indent) + CloseLine(indent)
         == indent + "<div " + attr + "=\"" + Sanitize(n.name) + "\">\n" + indent + "</div>\n"
  {
  }
}

=== FILE: organize_assets.dfy ===
/**
  The planning steps of the asset organiser: which files of a project folder
  are renamed, in what order and to which names, and the manifest entries of
  a discipline after the move. Listings come in as values; moving files and
  writing the manifest are not modelled.
 */
module OrganizeAssets {
  import opened Wrappers
  import opened Text
  import opened Collections
  import opened Paths

  // ------------------------------------------------------------ renaming

  function LowerName(e: Entry): string { Lower(e.name) }

  /** `f"asset_{counter:03d}{ext}"`. */
  function AssetName(counter: nat, ext: string): string {
    "asset_" + ZeroPad(counter, 3) + ext
  }

  /** The suffix of a file name, lower-cased: empty or starting with a dot. */
  function LowerSuffix(name: string): (r: string)
    ensures |r| == |Suffix(name)|
    ensures forall i :: 0 <= i < |r| ==> r[i] == ToLower(Suffix(name)[i])
    ensures forall i :: 0 <= i < |r| ==> !IsUpper(r[i])
    ensures Suffix(name) != [] ==> r[0] == '.'
  {
    Lower(Suffix(name))
  }

  /** One move: the file `source` becomes asset number `number` with extension `ext`. */
  datatype Rename = Rename(source: string, number: nat, ext: string)

  function Target(r: Rename): string { AssetName(r.number, r.ext) }

  /** The rename of `e` when the counter stands at `counter`. */
  function RenameOf(e: Entry, counter: nat): Rename {
    Rename(e.name, counter, LowerSuffix(e.name))
  }

  /** The loop over the sorted files, the counter starting at `counter`. */
  function RenamePlan(files: seq<Entry>, counter: nat): seq<Rename> {
    seq(|files|, k requires 0 <= k < |files| => RenameOf(files[k], counter + k))
  }

  /** The selected files in the order they are numbered. */
  function Selection(listing: seq<Entry>): seq<Entry> {
    SortBy(Filter(listing, IsProjectImage), LowerName)
  }

  /**
    `organize_project_assets(project_dir)` as a plan: nothing for a missing
    folder (or one that is not a directory), else one rename per selected file.
   */
  function OrganizePlan(listing: Option<seq<Entry>>): seq<Rename> {
    if listing.None? then [] else RenamePlan(Selection(listing.value), 1)
  }

  /** The function's return value: the new names, in order. */
  function Targets(plan: seq<Rename>): seq<string> {
    seq(|plan|, k requires 0 <= k < |plan| => Target(plan[k]))
  }

  function OrganizeProjectAssets(listing: Option<seq<Entry>>): seq<string> {
    Targets(OrganizePlan(listing))
  }

  /** Different digit strings stay different when each is followed by an empty or dotted extension. */
  lemma DigitsThenExtension(d1: string, e1: string, d2: string, e2: string)
    requires AllDigits(d1) && AllDigits(d2)
    requires e1 == [] || e1[0] == '.'
    requires e2 == [] || e2[0] == '.'
    requires d1 != d2
    ensures d1 + e1 != d2 + e2
  {
    var s1, s2 := d1 + e1, d2 + e2;
    if |d1| == |d2| {
      var t :| 0 <= t < |d1| && d1[t] != d2[t];
      assert s1[t] == d1[t] && s2[t] == d2[t];
    } else if |d1| < |d2| {
      if |s1| == |s2| {
        assert s1[|d1|] == e1[0] == '.';
        assert s2[|d1|] == d2[|d1|];
      }
    } else {
      if |s1| == |s2| {
        assert s2[|d2|] == e2[0] == '.';
        assert s1[|d2|] == d1[|d2|];
      }
    }
  }

  /** Different counters give different names, whatever the two extensions. */
  lemma AssetNamesDiffer(k1: nat, e1: string, k2: nat, e2: string)
    requires e1 == [] || e1[0] == '.'
    requires e2 == [] || e2[0] == '.'
    requires k1 != k2
    ensures AssetName(k1, e1) != AssetName(k2, e2)
  {
    var d1, d2 := ZeroPad(k1, 3), ZeroPad(k2, 3);
    assert DigitsValue(d1) != DigitsValue(d2);
    DigitsThenExtension(d1, e1, d2, e2);
    PrefixKeepsDifference("asset_", d1, e1, d2, e2);
  }

  lemma PrefixKeepsDifference(p: string, d1: string, e1: string, d2: string, e2: string)
    requires d1 + e1 != d2 + e2
    ensures p + d1 + e1 != p + d2 + e2
  {
    assert (p + d1 + e1)[|p|..] == d1 + e1;
    assert (p + d2 + e2)[|p|..] == d2 + e2;
  }

  /**
    An asset name reads `asset_`, then the counter in decimal, then the
    extension. Below 1000 the counter is zero-padded to exactly three
    digits; from 1000 on it is written unpadded.
   */
  lemma AssetNameShape(counter: nat, ext: string)
    ensures var r := AssetName(counter, ext);
      exists digits :: |digits| >= 3 && AllDigits(digits) && DigitsValue(digits) == counter
        && r == "asset_" + digits + ext
        && (counter < 1000 ==> |digits| == 3)
        && (counter >= 1000 ==> digits == Decimal(counter))
  {
    var digits := ZeroPad(counter, 3);
    DecimalLength(counter, 3);
    assert Pow10(3) == 1000;
    assert AssetName(counter, ext) == "asset_" + digits + ext;
  }

  /** The k-th move of the loop takes the k-th file, number `counter + k` and its lower-cased suffix. */
  lemma RenamePlanAt(files: seq<Entry>, counter: nat)
    ensures |RenamePlan(files, counter)| == |files|
    ensures forall k :: 0 <= k < |files| ==>
              && RenamePlan(files, counter)[k].source == files[k].name
              && RenamePlan(files, counter)[k].number == counter + k
              && RenamePlan(files, counter)[k].ext == Lower(Suffix(files[k].name))
  {
  }

  /** The selected files are the project images of the listing, by lower-cased name. */
  lemma SelectionSpec(listing: seq<Entry>)
    ensures multiset(Selection(listing)) == multiset(Filter(listing, IsProjectImage))
    ensures |Selection(listing)| == |Filter(listing, IsProjectImage)|
    ensures forall i, j :: 0 <= i < j < |Selection(listing)| ==>
              LexLe(Lower(Selection(listing)[i].name), Lower(Selection(listing)[j].name))
  {
    var sel := Selection(listing);
    assert forall i :: 0 <= i < |sel| ==> Lower(sel[i].name) == LowerName(sel[i]);
  }

  /**
    The plan renames exactly the selected files: regular files with an image
    suffix (any case) and no "thumbnail" in the lower-cased name, one move
    each, ordered by lower-cased name. The k-th move (counting from 1) gets
    number k and the file's lower-cased suffix. A missing folder gives an
    empty plan.
   */
  lemma OrganizePlanSpec(listing: Option<seq<Entry>>)
    ensures listing.None? ==> OrganizePlan(listing) == []
    ensures listing.Some? ==>
      var plan := OrganizePlan(listing);
      var sel := Selection(listing.value);
      && |plan| == |Filter(listing.value, IsProjectImage)|
      && multiset(sel) == multiset(Filter(listing.value, IsProjectImage))
      && (forall i, j :: 0 <= i < j < |plan| ==> LexLe(Lower(plan[i].source), Lower(plan[j].source)))
      && (forall k :: 0 <= k < |plan| ==>
            plan[k].source == sel[k].name && plan[k].number == k + 1
            && plan[k].ext == Lower(Suffix(plan[k].source)))
  {
    if listing.Some? {
      var sel := Selection(listing.value);
      SelectionSpec(listing.value);
      RenamePlanAt(sel, 1);
    }
  }

  /** The moves of one loop have pairwise different targets. */
  lemma PlanTargetsDistinct(files: seq<Entry>, counter: nat)
    ensures forall i, j :: 0 <= i < j < |RenamePlan(files, counter)| ==>
              Target(RenamePlan(files, counter)[i]) != Target(RenamePlan(files, counter)[j])
  {
    var plan := RenamePlan(files, counter);
    forall i, j | 0 <= i < j < |plan|
      ensures Target(plan[i]) != Target(plan[j])
    {
      MoveShape(files, counter, i);
      MoveShape(files, counter, j);
      AssetNamesDiffer(plan[i].number, plan[i].ext, plan[j].number, plan[j].ext);
    }
  }

  /** The k-th move is numbered `counter + k` and its extension is empty or dotted. */
  lemma MoveShape(files: seq<Entry>, counter: nat, k: int)
    requires 0 <= k < |files|
    ensures |RenamePlan(files, counter)| == |files|
    ensures RenamePlan(files, counter)[k].number == counter + k
    ensures var ext := RenamePlan(files, counter)[k].ext; ext == [] || ext[0] == '.'
  {
    var r := RenamePlan(files, counter)[k];
    assert r == RenameOf(files[k], counter + k);
    assert r.ext == LowerSuffix(files[k].name);
  }

  /** No two moves of a plan share a target name. */
  lemma OrganizeTargetsDistinct(listing: Option<seq<Entry>>)
    ensures forall i, j :: 0 <= i < j < |OrganizePlan(listing)| ==>
              Target(OrganizePlan(listing)[i]) != Target(OrganizePlan(listing)[j])
  {
    if listing.Some? {
      PlanTargetsDistinct(Selection(listing.value), 1);
    }
  }

  /** Every selected entry of the listing is renamed. */
  lemma EverySelectedRenamed(listing: seq<Entry>, i: int)
    requires 0 <= i < |listing| && IsProjectImage(listing[i])
    ensures exists k :: 0 <= k < |OrganizePlan(Some(listing))| && OrganizePlan(Some(listing))[k].source == listing[i].name
  {
    SelectedIndex(listing, i);
    var sel := Selection(listing);
    PlanCovers(sel, 1, listing[i]);
    var plan := OrganizePlan(Some(listing));
    assert plan == RenamePlan(sel, 1);
    var k :| 0 <= k < |plan| && plan[k].source == listing[i].name;
  }

  /** Every file handed to the loop is the source of one of its moves. */
  lemma PlanCovers(files: seq<Entry>, counter: nat, e: Entry)
    requires e in files
    ensures exists k :: 0 <= k < |RenamePlan(files, counter)| && RenamePlan(files, counter)[k].source == e.name
  {
    var k :| 0 <= k < |files| && files[k] == e;
    assert RenamePlan(files, counter)[k].source == e.name;
  }

  lemma SelectedIndex(listing: seq<Entry>, i: int)
    requires 0 <= i < |listing| && IsProjectImage(listing[i])
    ensures listing[i] in Selection(listing)
  {
    var kept := Filter(listing, IsProjectImage);
    assert listing[i] in kept;
    assert listing[i] in multiset(kept);
    assert listing[i] in multiset(Selection(listing));
  }

  // ------------------------------------------------------------- manifest

  /** A project folder of a discipline and, when it has one, its `assets` listing. */
  datatype ProjectDir = ProjectDir(entry: Entry, assets: Option<seq<Entry>>)

  function DirName(p: ProjectDir): string { p.entry.name }

  /** A directory whose name does not start with a dot. */
  predicate IsVisibleProject(p: ProjectDir) {
    p.entry.kind == Directory && !StartsWith(p.entry.name, ".")
  }

  predicate Listed(p: ProjectDir) {
    IsVisibleProject(p) && p.assets.Some?
  }

  /** A regular file with an image suffix (here without the thumbnail rule). */
  predicate IsAssetImage(e: Entry) {
    e.kind == File && HasImageSuffix(e.name)
  }

  function Prefixed(es: seq<Entry>): seq<string> {
    seq(|es|, i requires 0 <= i < |es| => "assets/" + es[i].name)
  }

  /** The image list of one project: `assets/` and the name, over the sorted listing. */
  function AssetImages(assets: seq<Entry>): seq<string> {
    Prefixed(Filter(SortBy(assets, NameOf), IsAssetImage))
  }

  /** The image list written for a project: its `assets` folder's images. */
  function ImagesOf(p: ProjectDir): seq<string> {
    if p.assets.Some? then AssetImages(p.assets.value) else []
  }

  function ManifestEntries(ps: seq<ProjectDir>): seq<(string, seq<string>)> {
    seq(|ps|, i requires 0 <= i < |ps| => (ps[i].entry.name, ImagesOf(ps[i])))
  }

  /**
    `update_manifest_for_discipline(discipline)`: nothing for a missing
    discipline folder, else one entry per visible project directory that
    has an `assets` folder, in sorted order.
   */
  function DisciplineManifest(projects: Option<seq<ProjectDir>>): seq<(string, seq<string>)> {
    if projects.None? then [] else ManifestEntries(Kept(projects.value))
  }

  /** The project directories that get an entry, in sorted order. */
  function Kept(ps: seq<ProjectDir>): seq<ProjectDir> {
    Filter(SortBy(ps, DirName), Listed)
  }

  /** The kept directories are sorted by name and are exactly the listed ones. */
  lemma KeptSpec(ps: seq<ProjectDir>)
    ensures SortedBy(Kept(ps), DirName)
    ensures forall i :: 0 <= i < |Kept(ps)| ==> Kept(ps)[i] in ps && Listed(Kept(ps)[i])
    ensures forall p :: p in ps && Listed(p) ==> p in Kept(ps)
  {
    var sorted := SortBy(ps, DirName);
    FilterKeepsSorted(sorted, Listed, DirName);
    forall i | 0 <= i < |Kept(ps)|
      ensures Kept(ps)[i] in ps
    {
      assert Kept(ps)[i] in sorted;
      assert Kept(ps)[i] in multiset(ps);
    }
    forall p | p in ps && Listed(p)
      ensures p in Kept(ps)
    {
      assert p in multiset(sorted);
      var k :| 0 <= k < |sorted| && sorted[k] == p;
    }
  }

  /**
    Each image list is in ascending order and has one entry per image file
    of the folder; every entry is `assets/` followed by the name of an image
    file of the folder, and every image file of the folder is listed.
   */
  lemma AssetImagesSpec(assets: seq<Entry>)
    ensures forall i, j :: 0 <= i < j < |AssetImages(assets)| ==> LexLe(AssetImages(assets)[i], AssetImages(assets)[j])
    ensures forall i :: 0 <= i < |AssetImages(assets)| ==> StartsWith(AssetImages(assets)[i], "assets/")
    ensures |AssetImages(assets)| == |Filter(assets, IsAssetImage)|
    ensures forall i :: 0 <= i < |AssetImages(assets)| ==>
              exists e :: e in assets && IsAssetImage(e) && AssetImages(assets)[i] == "assets/" + e.name
    ensures forall e :: e in assets && IsAssetImage(e) ==> "assets/" + e.name in AssetImages(assets)
  {
    var sorted := SortBy(assets, NameOf);
    var kept := Filter(sorted, IsAssetImage);
    FilterKeepsSorted(sorted, IsAssetImage, NameOf);
    PrefixedAscending(kept);
    PrefixedStartsWith(kept);
    FilterPermutation(sorted, assets, IsAssetImage);
    assert |multiset(kept)| == |multiset(Filter(assets, IsAssetImage))|;
    AssetImagesSound(assets);
    AssetImagesComplete(assets);
  }

  /** Every listed entry names an image file of the folder. */
  lemma AssetImagesSound(assets: seq<Entry>)
    ensures forall i :: 0 <= i < |AssetImages(assets)| ==>
              exists e :: e in assets && IsAssetImage(e) && AssetImages(assets)[i] == "assets/" + e.name
  {
    var m := AssetImages(assets);
    forall i | 0 <= i < |m|
      ensures exists e :: e in assets && IsAssetImage(e) && m[i] == "assets/" + e.name
    {
      var e := AssetImageFrom(assets, i);
      assert e in assets && IsAssetImage(e) && m[i] == "assets/" + e.name;
    }
  }

  lemma AssetImageFrom(assets: seq<Entry>, i: int) returns (e: Entry)
    requires 0 <= i < |AssetImages(assets)|
    ensures e in assets && IsAssetImage(e) && AssetImages(assets)[i] == "assets/" + e.name
  {
    var sorted := SortBy(assets, NameOf);
    var kept := Filter(sorted, IsAssetImage);
    e := kept[i];
    assert e in sorted;
    assert e in multiset(assets);
  }

  /** Every image file of the folder is listed. */
  lemma AssetImagesComplete(assets: seq<Entry>)
    ensures forall e :: e in assets && IsAssetImage(e) ==> "assets/" + e.name in AssetImages(assets)
  {
    var sorted := SortBy(assets, NameOf);
    var kept := Filter(sorted, IsAssetImage);
    var m := AssetImages(assets);
    forall e | e in assets && IsAssetImage(e)
      ensures "assets/" + e.name in m
    {
      SortByKeeps(assets, NameOf, e);
      FilterKeeps(sorted, IsAssetImage, e);
      var k :| 0 <= k < |kept| && kept[k] == e;
      assert m[k] == "assets/" + e.name;
    }
  }

  lemma PrefixedAscending(es: seq<Entry>)
    requires SortedBy(es, NameOf)
    ensures forall i, j :: 0 <= i < j < |Prefixed(es)| ==> LexLe(Prefixed(es)[i], Prefixed(es)[j])
  {
    forall i, j | 0 <= i < j < |es|
      ensures LexLe(Prefixed(es)[i], Prefixed(es)[j])
    {
      LexLeCommonPrefix("assets/", es[i].name, es[j].name);
    }
  }

  lemma PrefixedStartsWith(es: seq<Entry>)
    ensures forall i :: 0 <= i < |Prefixed(es)| ==> StartsWith(Prefixed(es)[i], "assets/")
  {
    forall i | 0 <= i < |es|
      ensures StartsWith(Prefixed(es)[i], "assets/")
    {
      assert Prefixed(es)[i][..7] == "assets/";
    }
  }


  /** The manifest's i-th entry is the i-th kept directory with its images. */
  lemma ManifestAt(ps: seq<ProjectDir>)
    ensures |DisciplineManifest(Some(ps))| == |Kept(ps)|
    ensures forall i :: 0 <= i < |Kept(ps)| ==>
              DisciplineManifest(Some(ps))[i] == (Kept(ps)[i].entry.name, ImagesOf(Kept(ps)[i]))
  {
  }

  lemma ManifestAscending(ps: seq<ProjectDir>)
    ensures forall i, j :: 0 <= i < j < |DisciplineManifest(Some(ps))| ==>
              LexLe(DisciplineManifest(Some(ps))[i].0, DisciplineManifest(Some(ps))[j].0)
  {
    var kept := Kept(ps);
    var m := DisciplineManifest(Some(ps));
    KeptSpec(ps);
    ManifestAt(ps);
    forall i, j | 0 <= i < j < |m|
      ensures LexLe(m[i].0, m[j].0)
    {
      assert LexLe(DirName(kept[i]), DirName(kept[j]));
    }
  }

  lemma ManifestSound(ps: seq<ProjectDir>)
    ensures forall i :: 0 <= i < |DisciplineManifest(Some(ps))| ==>
              exists p :: p in ps && Listed(p) && DisciplineManifest(Some(ps))[i] == (p.entry.name, ImagesOf(p))
  {
    var m := DisciplineManifest(Some(ps));
    forall i | 0 <= i < |m|
      ensures exists p :: p in ps && Listed(p) && m[i] == (p.entry.name, ImagesOf(p))
    {
      var p := ManifestEntryFrom(ps, i);
    }
  }

  /** The manifest's i-th entry, when there is one, comes from a listed directory of the discipline. */
  lemma ManifestEntryFrom(ps: seq<ProjectDir>, i: int) returns (p: ProjectDir)
    ensures 0 <= i < |DisciplineManifest(Some(ps))| ==>
      p in ps && Listed(p) && DisciplineManifest(Some(ps))[i] == (p.entry.name, ImagesOf(p))
  {
    KeptSpec(ps);
    ManifestAt(ps);
    p := if 0 <= i < |Kept(ps)| then Kept(ps)[i] else ProjectDir(Entry("", Other), None);
  }

  lemma ManifestComplete(ps: seq<ProjectDir>)
    ensures forall p :: p in ps && Listed(p) ==> (p.entry.name, ImagesOf(p)) in DisciplineManifest(Some(ps))
  {
    var kept := Kept(ps);
    var m := DisciplineManifest(Some(ps));
    KeptSpec(ps);
    ManifestAt(ps);
    forall p | p in ps && Listed(p)
      ensures (p.entry.name, ImagesOf(p)) in m
    {
      var k :| 0 <= k < |kept| && kept[k] == p;
      assert m[k] == (p.entry.name, ImagesOf(p));
    }
  }

  /**
    The manifest is keyed in ascending order; a key is the name of a visible
    project directory that has an `assets` folder, with that folder's image
    list; every such directory is present; a missing discipline has none.
   */
  lemma DisciplineManifestSpec(projects: Option<seq<ProjectDir>>)
    ensures projects.None? ==> DisciplineManifest(projects) == []
    ensures forall i, j :: 0 <= i < j < |DisciplineManifest(projects)| ==>
              LexLe(DisciplineManifest(projects)[i].0, DisciplineManifest(projects)[j].0)
    ensures projects.Some? ==> forall i :: 0 <= i < |DisciplineManifest(projects)| ==>
              exists p :: p in projects.value && Listed(p)
                && DisciplineManifest(projects)[i] == (p.entry.name, ImagesOf(p))
    ensures projects.Some? ==> forall p :: p in projects.value && Listed(p) ==>
              (p.entry.name, ImagesOf(p)) in DisciplineManifest(projects)
  {
    if projects.Some? {
      ManifestAscending(projects.value);
      ManifestSound(projects.value);
      ManifestComplete(projects.value);
    }
  }
}

=== FILE: paths.dfy ===
/**
  Directory entries as the two planning scripts see them: a name and what
  kind of filesystem object it is, with `pathlib`'s suffix rule and the
  image-file test both scripts share.
 */
module Paths {
  import opened Text

  datatype Kind = File | Directory | Other

  datatype Entry = Entry(name: string, kind: Kind)

  /** Index of the last `c` in `s`, or -1 (`str.rfind`). */
  function RFind(s: string, c: char): (r: int)
    ensures -1 <= r < |s|
    ensures r >= 0 ==> s[r] == c
    ensures forall j :: r < j < |s| ==> s[j] != c
  {
    if s == [] then -1 else if s[|s| - 1] == c then |s| - 1 else RFind(s[..|s| - 1], c)
  }

  /**
    `PurePath.suffix`: from the last `.` to the end, provided that dot is
    neither the first nor the last character; the empty string otherwise.
   */
  function Suffix(name: string): (r: string)
    ensures r == [] || (|r| >= 2 && r[0] == '.' && '.' !in r[1..] && |r| < |name| && r == name[|name| - |r|..])
  {
    var i := RFind(name, '.');
    if 0 < i < |name| - 1 then
      var tail := name[i + 1..];
      assert forall j :: 0 <= j < |tail| ==> tail[j] == name[i + 1 + j];
      name[i..]
    else []
  }

  /** A name built from a stem and an extension without dots has that extension as suffix. */
  lemma SuffixOfStemAndExtension(stem: string, ext: string)
    requires stem != [] && ext != [] && '.' !in ext
    ensures Suffix(stem + "." + ext) == "." + ext
  {
    var name := stem + "." + ext;
    var i := RFind(name, '.');
    assert name[|stem|] == '.';
    forall j | |stem| < j < |name|
      ensures name[j] != '.'
    {
      assert name[j] == ext[j - |stem| - 1];
    }
    assert i == |stem|;
    assert name[i..] == "." + ext;
  }

  /** A name whose only dot is its first character has no suffix. */
  lemma HiddenNameHasNoSuffix(ext: string)
    requires '.' !in ext
    ensures Suffix("." + ext) == []
  {
    var name := "." + ext;
    forall j | 0 < j < |name|
      ensures name[j] != '.'
    {
      assert name[j] == ext[j - 1];
    }
  }

  const ImageExtensions: seq<string> := [".png", ".jpg", ".jpeg", ".gif", ".webp"]

  /** `file.suffix.lower() in [...]`. */
  predicate HasImageSuffix(name: string) {
    Lower(Suffix(name)) in ImageExtensions
  }

  /** `'thumbnail' in file.name.lower()`. */
  predicate MentionsThumbnail(name: string) {
    Contains(Lower(name), "thumbnail")
  }

  /** A regular file with an image extension whose name does not mention thumbnails. */
  predicate IsProjectImage(e: Entry) {
    e.kind == File && HasImageSuffix(e.name) && !MentionsThumbnail(e.name)
  }

  function NameOf(e: Entry): string { e.name }
}

=== FILE: styles.dfy ===
/**
  The stylesheet pieces of the generator: the `:root` block of CSS custom
  properties, the fixed base rules, and one rule per top-level component.
 */
module Styles {
  import opened Text
  import opened ClassName
  import opened Markup

  /** A custom-property name from a variable key: each `/` becomes `-`, then ASCII lower-case. */
  function CssVarName(key: string): (r: string)
    ensures |r| == |key|
    ensures forall i :: 0 <= i < |r| ==> r[i] == (if key[i] == '/' then '-' else ToLower(key[i]))
    ensures forall i :: 0 <= i < |r| ==> r[i] != '/' && !IsUpper(r[i])
    ensures NoNewline(key) ==> NoNewline(r)
  {
    Lower(ReplaceChar(key, '/', '-'))
  }

  function VariableDecls(vars: seq<(string, string)>): string {
    if vars == [] then ""
    else "  --" + CssVarName(vars[0].0) + ": " + vars[0].1 + ";\n" + VariableDecls(vars[1..])
  }

  /** `generateCSSVariables(variables)`: nothing for no variables, else a `:root` block. */
  function CssVariables(vars: seq<(string, string)>): (r: string)
    ensures r == "" <==> vars == []
  {
    if vars == [] then "" else ":root {\n" + VariableDecls(vars) + "}\n\n"
  }

  /** The declaration line for the i-th variable, without its newline. */
  function VariableLine(entry: (string, string)): string {
    "  --" + CssVarName(entry.0) + ": " + entry.1 + ";"
  }

  function VariableLines(vars: seq<(string, string)>): (r: seq<string>)
    ensures |r| == |vars|
    ensures forall i :: 0 <= i < |vars| ==> r[i] == VariableLine(vars[i])
  {
    seq(|vars|, i requires 0 <= i < |vars| => VariableLine(vars[i]))
  }

  predicate EntriesOneLine(entries: seq<(string, string)>) {
    forall i :: 0 <= i < |entries| ==> NoNewline(entries[i].0) && NoNewline(entries[i].1)
  }

  lemma {:induction false} VariableDeclsAreLines(vars: seq<(string, string)>)
    ensures VariableDecls(vars) == Unlines(VariableLines(vars))
  {
    if vars != [] {
      VariableDeclsAreLines(vars[1..]);
      assert VariableLines(vars)[1..] == VariableLines(vars[1..]);
    }
  }

  lemma EntryLinesOneLine(vars: seq<(string, string)>)
    requires EntriesOneLine(vars)
    ensures AllNoNewline(VariableLines(vars))
  {
    forall i | 0 <= i < |vars|
      ensures NoNewline(VariableLine(vars[i]))
    {
      var name := CssVarName(vars[i].0);
      assert VariableLine(vars[i]) == "  --" + name + ": " + vars[i].1 + ";";
    }
  }

  /**
    For a non-empty map of single-line keys and values, the block's lines are
    `:root {`, then exactly one declaration per entry in iteration order, then
    `}` and one empty line.
   */
  lemma CssVariablesLines(vars: seq<(string, string)>)
    requires vars != [] && EntriesOneLine(vars)
    ensures Lines(CssVariables(vars)) == [":root {"] + VariableLines(vars) + ["}", ""]
  {
    var ls := [":root {"] + VariableLines(vars) + ["}", ""];
    VariableDeclsAreLines(vars);
    UnlinesAppend([":root {"] + VariableLines(vars), ["}", ""]);
    UnlinesAppend([":root {"], VariableLines(vars));
    EntryLinesOneLine(vars);
    assert Unlines([":root {"]) == ":root {\n";
    assert Unlines(["}", ""]) == "}\n\n";
    assert Unlines(ls) == CssVariables(vars);
    LinesOfUnlines(ls);
  }

  /** `generateBaseStyles()`: fixed reset, body and container rules. */
  const BaseStyles: string := ResetRule + BaseRest

  const ResetRule: string := "* {" + ResetDecls + "}"

  const ResetDecls: string := "\n    margin: 0;\n    padding: 0;\n    box-sizing: border-box;\n"

  const BaseRest: string := "\n\n" + BodyRule + "\n\n" + ContainerRule + "\n\n"

  const BodyRule: string :=
    "body {\n    font-family: -apple-system, BlinkMacSystemFont, 'Segoe UI', Roboto, sans-serif;\n"
    + "    line-height: 1.6;\n    color: #333;\n}"

  const ContainerRule: string := ".container {\n    max-width: 1200px;\n    margin: 0 auto;\n    padding: 0 20px;\n}"

  function StyleDecls(styles: seq<(string, string)>): string {
    if styles == [] then ""
    else "  " + styles[0].0 + ": " + styles[0].1 + ";\n" + StyleDecls(styles[1..])
  }

  /**
    `generateComponentStyles(components, styles)`: one rule per top-level
    component, declarations from the component's own `styles`. The second
    argument of the program's function is never read, so it has no counterpart.
   */
  function ComponentStyles(components: seq<Node>): string {
    if components == [] then ""
    else
      "." + Sanitize(components[0].name) + " {\n" + StyleDecls(components[0].styles) + "}\n\n"
      + ComponentStyles(components[1..])
  }

  function StyleLine(entry: (string, string)): string {
    "  " + entry.0 + ": " + entry.1 + ";"
  }

  /** The lines of one component's rule: selector, declarations, `}`, empty line. */
  function StyleBlock(c: Node): (r: seq<string>)
    ensures |r| == |c.styles| + 3
  {
    ["." + Sanitize(c.name) + " {"]
    + StyleLines(c.styles)
    + ["}", ""]
  }

  function StyleBlocks(components: seq<Node>): seq<string> {
    if components == [] then [] else StyleBlock(components[0]) + StyleBlocks(components[1..])
  }

  predicate StylesOneLine(components: seq<Node>) {
    forall i :: 0 <= i < |components| ==> EntriesOneLine(components[i].styles)
  }

  lemma {:induction false} StyleDeclsAreLines(styles: seq<(string, string)>)
    ensures StyleDecls(styles) == Unlines(StyleLines(styles))
  {
    if styles != [] {
      StyleDeclsAreLines(styles[1..]);
      assert StyleLines(styles)[1..] == StyleLines(styles[1..]);
    }
  }

  function StyleLines(styles: seq<(string, string)>): (r: seq<string>)
    ensures |r| == |styles|
    ensures forall i :: 0 <= i < |styles| ==> r[i] == StyleLine(styles[i])
  {
    seq(|styles|, i requires 0 <= i < |styles| => StyleLine(styles[i]))
  }

  lemma BlockIsRule(c: Node)
    ensures Unlines(StyleBlock(c)) == "." + Sanitize(c.name) + " {\n" + StyleDecls(c.styles) + "}\n\n"
  {
    var id := Sanitize(c.name);
    var sel := "." + id + " {";
    var decls := StyleLines(c.styles);
    assert StyleBlock(c) == [sel] + decls + ["}", ""];
    StyleDeclsAreLines(c.styles);
    RuleText(sel, decls);
    SelectorLine(id);
  }

  /** A rule's lines joined: the selector line, the declarations, `}` and an empty line. */
  lemma RuleText(sel: string, decls: seq<string>)
    ensures Unlines([sel] + decls + ["}", ""]) == sel + "\n" + Unlines(decls) + "}\n\n"
  {
    UnlinesAppend([sel] + decls, ["}", ""]);
    UnlinesAppend([sel], decls);
    assert Unlines([sel]) == sel + "\n";
    assert Unlines(["}", ""]) == "}\n\n";
  }

  lemma SelectorLine(id: string)
    ensures "." + id + " {" + "\n" == "." + id + " {\n"
  {
  }

  lemma {:induction false} ComponentStylesAreBlocks(components: seq<Node>)
    ensures ComponentStyles(components) == Unlines(StyleBlocks(components))
  {
    if components != [] {
      var c := components[0];
      BlockIsRule(c);
      ComponentStylesAreBlocks(components[1..]);
      UnlinesAppend(StyleBlock(c), StyleBlocks(components[1..]));
    }
  }

  lemma BlockOneLine(c: Node)
    requires EntriesOneLine(c.styles)
    ensures AllNoNewline(StyleBlock(c))
  {
    var id := Sanitize(c.name);
    SelectorOneLine(c.name);
    DeclLinesOneLine(c.styles);
    var sel := "." + id + " {";
    var decls := StyleLines(c.styles);
    assert StyleBlock(c) == [sel] + decls + ["}", ""];
    RuleOneLine(sel, decls);
  }

  lemma SelectorOneLine(name: string)
    ensures NoNewline("." + Sanitize(name) + " {")
  {
    var id := Sanitize(name);
    SanitizeProperties(name);
    ClassTokenOneLine(id);
    NoNewlineConcat(".", id);
    NoNewlineConcat("." + id, " {");
  }

  lemma DeclLinesOneLine(styles: seq<(string, string)>)
    requires EntriesOneLine(styles)
    ensures AllNoNewline(StyleLines(styles))
  {
    forall i | 0 <= i < |styles|
      ensures NoNewline(StyleLine(styles[i]))
    {
    }
  }

  lemma RuleOneLine(sel: string, decls: seq<string>)
    requires NoNewline(sel) && AllNoNewline(decls)
    ensures AllNoNewline([sel] + decls + ["}", ""])
  {
    AllNoNewlineAppend([sel], decls);
    AllNoNewlineAppend([sel] + decls, ["}", ""]);
  }

  lemma {:induction false} StyleBlocksOneLine(components: seq<Node>)
    requires StylesOneLine(components)
    ensures AllNoNewline(StyleBlocks(components))
  {
    if components != [] {
      BlockOneLine(components[0]);
      StyleBlocksOneLine(components[1..]);
      AllNoNewlineAppend(StyleBlock(components[0]), StyleBlocks(components[1..]));
    }
  }

  /**
    With single-line style properties and values, the stylesheet's lines are
    one block per top-level component, in order, each block opened by the
    component's class selector and closed by `}` and an empty line, even when
    the component has no styles.
   */
  lemma ComponentStylesLines(components: seq<Node>)
    requires StylesOneLine(components)
    ensures Lines(ComponentStyles(components)) == StyleBlocks(components)
  {
    ComponentStylesAreBlocks(components);
    StyleBlocksOneLine(components);
    LinesOfUnlines(StyleBlocks(components));
  }

  /** Nested children get no rule: only top-level names and styles matter. */
  lemma {:induction false} ComponentStylesTopLevelOnly(a: seq<Node>, b: seq<Node>)
    requires |a| == |b|
    requires forall i :: 0 <= i < |a| ==> a[i].name == b[i].name && a[i].styles == b[i].styles
    ensures ComponentStyles(a) == ComponentStyles(b)
  {
    if a != [] {
      ComponentStylesTopLevelOnly(a[1..], b[1..]);
    }
  }
}

=== FILE: text.dfy ===
/**
  Character classes, substring search, line splitting, decimal digits and
  whitespace stripping over strings. Case mapping and digit classes are ASCII
  only.
 */
module Text {

  // ---------------------------------------------------------------- characters

  predicate IsUpper(c: char) { 'A' <= c <= 'Z' }
  predicate IsLower(c: char) { 'a' <= c <= 'z' }
  predicate IsDigit(c: char) { '0' <= c <= '9' }
  predicate IsLetter(c: char) { IsUpper(c) || IsLower(c) }

  /** ASCII lower-casing of one character; everything else is left alone. */
  function ToLower(c: char): (r: char)
    ensures !IsUpper(r)
    ensures IsLetter(r) <==> IsLetter(c)
    ensures IsDigit(r) <==> IsDigit(c)
    ensures !IsUpper(c) ==> r == c
    ensures IsUpper(c) ==> ToUpper(r) == c
  {
    if IsUpper(c) then (c as int + 32) as char else c
  }

  /** ASCII upper-casing of one character; everything else is left alone. */
  function ToUpper(c: char): (r: char)
    ensures !IsLower(r)
    ensures IsLetter(r) <==> IsLetter(c)
    ensures !IsLower(c) ==> r == c
  {
    if IsLower(c) then (c as int - 32) as char else c
  }

  /** `s.toLowerCase()` / `s.lower()` restricted to ASCII letters. */
  function Lower(s: string): (r: string)
    ensures |r| == |s|
    ensures forall i :: 0 <= i < |s| ==> r[i] == ToLower(s[i])
  {
    seq(|s|, i requires 0 <= i < |s| => ToLower(s[i]))
  }

  lemma LowerAppend(a: string, b: string)
    ensures Lower(a + b) == Lower(a) + Lower(b)
  {
  }

  /** Every occurrence of character `a` replaced by `b` (`s.replace(/a/g, b)`). */
  function ReplaceChar(s: string, a: char, b: char): (r: string)
    ensures |r| == |s|
    ensures forall i :: 0 <= i < |s| ==> r[i] == (if s[i] == a then b else s[i])
  {
    seq(|s|, i requires 0 <= i < |s| => if s[i] == a then b else s[i])
  }

  predicate AllDigits(s: string) { forall i :: 0 <= i < |s| ==> IsDigit(s[i]) }

  // ------------------------------------------------------------------- search

  /** `p` occurs in `s` starting at index `i`. */
  predicate OccursAt(s: string, p: string, i: int) {
    0 <= i && i + |p| <= |s| && s[i..i + |p|] == p
  }

  /** `s.includes(p)` / `p in s`. */
  predicate Contains(s: string, p: string) {
    exists i | 0 <= i <= |s| :: OccursAt(s, p, i)
  }


  lemma ContainsLeft(a: string, b: string, w: string)
    requires Contains(a, w)
    ensures Contains(a + b, w)
  {
    var i :| 0 <= i <= |a| && OccursAt(a, w, i);
    assert (a + b)[i..i + |w|] == a[i..i + |w|];
    assert OccursAt(a + b, w, i);
  }

  lemma ContainsRight(a: string, b: string, w: string)
    requires Contains(b, w)
    ensures Contains(a + b, w)
  {
    var i :| 0 <= i <= |b| && OccursAt(b, w, i);
    assert (a + b)[|a| + i..|a| + i + |w|] == b[i..i + |w|];
    assert OccursAt(a + b, w, |a| + i);
  }

  /** A text contains itself with anything around it. */
  lemma ContainsMiddle(a: string, w: string, c: string)
    ensures Contains(a + w + c, w)
  {
    assert OccursAt(w, w, 0);
    ContainsRight(a, w, w);
    ContainsLeft(a + w, c, w);
  }

  /** Whatever occurs inside `b` occurs inside any `b` contains. */
  lemma ContainsTrans(a: string, b: string, w: string)
    requires Contains(a, b) && Contains(b, w)
    ensures Contains(a, w)
  {
    var i :| 0 <= i <= |a| && OccursAt(a, b, i);
    var j :| 0 <= j <= |b| && OccursAt(b, w, j);
    assert b == a[i..i + |b|];
    forall k | 0 <= k < |w|
      ensures a[i + j + k] == w[k]
    {
      assert w[k] == b[j + k] == a[i + j + k];
    }
    assert a[i + j..i + j + |w|] == w;
    assert OccursAt(a, w, i + j);
  }

  predicate StartsWith(s: string, p: string) { OccursAt(s, p, 0) }

  predicate EndsWith(s: string, p: string) { |p| <= |s| && s[|s| - |p|..] == p }

  /**
    Python's `s.find(p, start)`: the least index at or after `start` where `p`
    occurs, or -1 when there is none.
   */
  function FindFrom(s: string, p: string, start: nat): (r: int)
    ensures r == -1 || (start <= r && OccursAt(s, p, r))
    ensures r == -1 <==> forall i :: start <= i ==> !OccursAt(s, p, i)
    ensures forall i :: start <= i && (r == -1 || i < r) ==> !OccursAt(s, p, i)
    decreases |s| - start
  {
    if start + |p| > |s| then -1
    else if s[start..start + |p|] == p then start
    else FindFrom(s, p, start + 1)
  }

  /** Python's `s.find(p)`. */
  function Find(s: string, p: string): (r: int)
    ensures r == -1 <==> !Contains(s, p)
    ensures r != -1 ==> OccursAt(s, p, r) && forall i :: 0 <= i < r ==> !OccursAt(s, p, i)
  {
    FindFrom(s, p, 0)
  }

  /** Index of the first `c` in `s`, or `|s|` when `c` does not occur. */
  function IndexOfChar(s: string, c: char): (r: nat)
    ensures r <= |s|
    ensures r < |s| ==> s[r] == c
    ensures forall j :: 0 <= j < r ==> s[j] != c
  {
    if s == [] then 0 else if s[0] == c then 0 else 1 + IndexOfChar(s[1..], c)
  }

  // -------------------------------------------------------------------- lines

  predicate NoNewline(s: string) { '\n' !in s }

  predicate AllNoNewline(ls: seq<string>) { forall i :: 0 <= i < |ls| ==> NoNewline(ls[i]) }

  lemma AllNoNewlineAppend(a: seq<string>, b: seq<string>)
    requires AllNoNewline(a) && AllNoNewline(b)
    ensures AllNoNewline(a + b)
  {
    assert forall i :: 0 <= i < |a + b| ==> (a + b)[i] == if i < |a| then a[i] else b[i - |a|];
  }

  lemma NoNewlineConcat(a: string, b: string)
    requires NoNewline(a) && NoNewline(b)
    ensures NoNewline(a + b)
  {
    assert forall i :: 0 <= i < |a + b| ==> (a + b)[i] == if i < |a| then a[i] else b[i - |a|];
  }

  /** Each line followed by a newline, concatenated. */
  function Unlines(ls: seq<string>): string {
    if ls == [] then "" else ls[0] + "\n" + Unlines(ls[1..])
  }

  /** Splits text into its newline-terminated lines; a final unterminated segment is a line too. */
  function Lines(s: string): seq<string>
    decreases |s|
  {
    if s == [] then []
    else
      var k := IndexOfChar(s, '\n');
      if k == |s| then [s] else [s[..k]] + Lines(s[k + 1..])
  }

  lemma UnlinesAppend(a: seq<string>, b: seq<string>)
    ensures Unlines(a + b) == Unlines(a) + Unlines(b)
  {
    if a == [] {
      assert a + b == b;
    } else {
      assert (a + b)[1..] == a[1..] + b;
      UnlinesAppend(a[1..], b);
      calc {
        Unlines(a + b);
        a[0] + "\n" + Unlines(a[1..] + b);
        a[0] + "\n" + (Unlines(a[1..]) + Unlines(b));
        (a[0] + "\n" + Unlines(a[1..])) + Unlines(b);
      }
    }
  }

  /** Splitting joined lines gives back the lines, provided none holds a newline. */
  lemma {:induction false} LinesOfUnlines(ls: seq<string>)
    requires AllNoNewline(ls)
    ensures Lines(Unlines(ls)) == ls
  {
    if ls != [] {
      assert NoNewline(ls[0]);
      LinesStep(ls[0], Unlines(ls[1..]));
      LinesOfUnlines(ls[1..]);
      assert ls == [ls[0]] + ls[1..];
    }
  }

  /** A line without a newline, then a newline, splits off as the first line. */
  lemma LinesStep(l: string, rest: string)
    requires NoNewline(l)
    ensures Lines(l + "\n" + rest) == [l] + Lines(rest)
  {
    var s := l + "\n" + rest;
    assert s == l + ("\n" + rest);
    IndexOfCharSkips(l, "\n" + rest, '\n');
    assert s[..|l|] == l;
    assert s[|l| + 1..] == rest;
  }

  lemma IndexOfCharSkips(a: string, b: string, c: char)
    requires c !in a && |b| > 0 && b[0] == c
    ensures IndexOfChar(a + b, c) == |a|
  {
    if a != [] {
      assert (a + b)[1..] == a[1..] + b;
      IndexOfCharSkips(a[1..], b, c);
    } else {
      assert a + b == b;
    }
  }

  /** Python's `sep.join(ls)`. */
  function Join(ls: seq<string>, sep: string): string {
    if ls == [] then "" else if |ls| == 1 then ls[0] else ls[0] + sep + Join(ls[1..], sep)
  }

  /** Every string followed by `sep`. */
  function Terminated(ls: seq<string>, sep: string): string {
    if ls == [] then "" else ls[0] + sep + Terminated(ls[1..], sep)
  }

  /** Terminating every piece is joining them and terminating the last. */
  lemma {:induction false} TerminatedJoin(ls: seq<string>, sep: string)
    requires ls != []
    ensures Terminated(ls, sep) == Join(ls, sep) + sep
  {
    if |ls| > 1 {
      TerminatedJoin(ls[1..], sep);
    } else {
      assert ls[1..] == [];
    }
  }

  // --------------------------------------------------------------- whitespace

  /** Python `str.isspace()` restricted to ASCII. */
  predicate IsPySpace(c: char) {
    c == ' ' || c == '\t' || c == '\n' || c == '\r' || c == '\U{000B}' || c == '\U{000C}'
    || ('\U{001C}' <= c <= '\U{001F}')
  }

  /** Python `s.lstrip()`. */
  function LStrip(s: string): (r: string)
    ensures |r| <= |s| && r == s[|s| - |r|..]
    ensures r == [] || !IsPySpace(r[0])
    ensures forall i :: 0 <= i < |s| - |r| ==> IsPySpace(s[i])
  {
    if s != [] && IsPySpace(s[0]) then LStrip(s[1..]) else s
  }

  /** Python `s.rstrip()`. */
  function RStrip(s: string): (r: string)
    ensures |r| <= |s| && r == s[..|r|]
    ensures r == [] || !IsPySpace(r[|r| - 1])
    ensures forall i :: |r| <= i < |s| ==> IsPySpace(s[i])
  {
    if s != [] && IsPySpace(s[|s| - 1]) then RStrip(s[..|s| - 1]) else s
  }

  /**
    Python `s.strip()`: `r` sits inside `s` with only whitespace before and
    after it, and neither end of `r` is whitespace.
   */
  function Strip(s: string): (r: string)
    ensures r == [] || (!IsPySpace(r[0]) && !IsPySpace(r[|r| - 1]))
    ensures exists i :: OccursAt(s, r, i)
              && (forall k :: 0 <= k < i ==> IsPySpace(s[k]))
              && (forall k :: i + |r| <= k < |s| ==> IsPySpace(s[k]))
  {
    var l := LStrip(s);
    var r := RStrip(l);
    StripFrame(s, l, r, IsPySpace);
    r
  }

  /** Cutting a run of `p` characters off the front and then off the back leaves the rest framed by them. */
  lemma StripFrame(s: string, l: string, r: string, p: char -> bool)
    requires |l| <= |s| && l == s[|s| - |l|..] && forall k :: 0 <= k < |s| - |l| ==> p(s[k])
    requires |r| <= |l| && r == l[..|r|] && forall k :: |r| <= k < |l| ==> p(l[k])
    ensures exists i :: OccursAt(s, r, i)
              && (forall k :: 0 <= k < i ==> p(s[k]))
              && (forall k :: i + |r| <= k < |s| ==> p(s[k]))
  {
    var i := |s| - |l|;
    assert s[i..i + |r|] == r;
    assert OccursAt(s, r, i);
    assert forall k :: i + |r| <= k < |s| ==> s[k] == l[k - i];
  }

  // ------------------------------------------------------------------ decimal

  function DigitChar(d: nat): (c: char)
    requires d < 10
    ensures IsDigit(c) && c as int - '0' as int == d
  {
    ('0' as int + d) as char
  }

  /** The decimal numeral of `n`, as Python `str(n)` and JavaScript template interpolation print it. */
  function Decimal(n: nat): (r: string)
    ensures 1 <= |r| && AllDigits(r)
    ensures n >= 10 ==> r[0] != '0'
  {
    if n < 10 then [DigitChar(n)] else Decimal(n / 10) + [DigitChar(n % 10)]
  }

  /** The number a string of decimal digits denotes (leading zeros allowed). */
  function DigitsValue(s: string): nat
    requires AllDigits(s)
  {
    if s == [] then 0 else DigitsValue(s[..|s| - 1]) * 10 + (s[|s| - 1] as int - '0' as int)
  }

  function Pow10(k: nat): (r: nat)
    ensures r >= 1
  {
    if k == 0 then 1 else 10 * Pow10(k - 1)
  }

  /** A number below 10^k has at most k digits, and one at or above it has more. */
  lemma {:induction false} DecimalLength(n: nat, k: nat)
    requires k >= 1
    ensures |Decimal(n)| <= k <==> n < Pow10(k)
  {
    if n >= 10 {
      if k == 1 {
        assert Pow10(1) == 10;
        assert |Decimal(n)| >= 2 by {
          assert Decimal(n) == Decimal(n / 10) + [DigitChar(n % 10)];
        }
      } else {
        DecimalLength(n / 10, k - 1);
        assert n < Pow10(k) <==> n / 10 < Pow10(k - 1);
      }
    } else {
      PowAtLeastTen(k);
    }
  }

  lemma {:induction false} PowAtLeastTen(k: nat)
    requires k >= 1
    ensures Pow10(k) >= 10
  {
    if k > 1 {
      PowAtLeastTen(k - 1);
    }
  }

  lemma {:induction false} DigitsValueOfDecimal(n: nat)
    ensures DigitsValue(Decimal(n)) == n
  {
    if n >= 10 {
      var d := Decimal(n);
      assert d[..|d| - 1] == Decimal(n / 10);
      DigitsValueOfDecimal(n / 10);
    }
  }

  function Zeros(k: nat): (r: string)
    ensures |r| == k && AllDigits(r)
    ensures forall i :: 0 <= i < k ==> r[i] == '0'
  {
    seq(k, _ => '0')
  }

  lemma {:induction false} DigitsValueLeadingZeros(k: nat, s: string)
    requires AllDigits(s)
    ensures DigitsValue(Zeros(k) + s) == DigitsValue(s)
    decreases |s|
  {
    if s == [] {
      assert Zeros(k) + s == Zeros(k);
      ZerosValue(k);
    } else {
      var t := Zeros(k) + s;
      assert t[..|t| - 1] == Zeros(k) + s[..|s| - 1];
      DigitsValueLeadingZeros(k, s[..|s| - 1]);
    }
  }

  lemma {:induction false} ZerosValue(k: nat)
    ensures DigitsValue(Zeros(k)) == 0
  {
    if k > 0 {
      assert Zeros(k)[..k - 1] == Zeros(k - 1);
      ZerosValue(k - 1);
    }
  }

  /**
    Python's `f"{n:0{width}d}"` for a natural number: the numeral left-padded
    with zeros. The result is the numeral preceded by zeros only; it is
    exactly `width` long unless the numeral alone is longer, and then it is
    the numeral.
   */
  function ZeroPad(n: nat, width: nat): (r: string)
    ensures AllDigits(r) && |r| >= width && |r| >= 1
    ensures DigitsValue(r) == n
    ensures |r| >= |Decimal(n)| && r == Zeros(|r| - |Decimal(n)|) + Decimal(n)
    ensures |r| > width ==> r == Decimal(n)
  {
    var d := Decimal(n);
    DigitsValueOfDecimal(n);
    if |d| >= width then d
    else
      DigitsValueLeadingZeros(width - |d|, d);
      Zeros(width - |d|) + d
  }
}

=== FILE: update_projects.dfy ===
/**
  The planning steps of the project-page updater: the image list of a
  project folder, the manifest, display names, the grid rewrite of the index
  page and its `projectNames` object. Directory listings and the thumbnail
  lookup come in as values; reading and writing files is not modelled.
 */
module UpdateProjects {
  import opened Wrappers
  import opened Text
  import opened Collections
  import opened Paths

  // ---------------------------------------------------------- image lists

  /** Strings in Python's ascending order. */
  predicate Ascending(s: seq<string>) {
    forall i, j :: 0 <= i < j < |s| ==> LexLe(s[i], s[j])
  }

  function Names(es: seq<Entry>): (r: seq<string>)
    ensures |r| == |es|
    ensures forall i :: 0 <= i < |es| ==> r[i] == es[i].name
  {
    if es == [] then [] else [es[0].name] + Names(es[1..])
  }

  /** `get_project_images(project_dir)`: walk the sorted listing, keep the project images. */
  function ProjectImages(listing: seq<Entry>): seq<string> {
    Names(Filter(SortBy(listing, NameOf), IsProjectImage))
  }

  lemma ProjectImagesSorted(listing: seq<Entry>)
    ensures Ascending(ProjectImages(listing))
    ensures |ProjectImages(listing)| == |Filter(listing, IsProjectImage)|
  {
    var sorted := SortBy(listing, NameOf);
    FilterKeepsSorted(sorted, IsProjectImage, NameOf);
    FilterPermutation(sorted, listing, IsProjectImage);
    assert |multiset(Filter(sorted, IsProjectImage))| == |multiset(Filter(listing, IsProjectImage))|;
  }

  lemma ProjectImagesComplete(listing: seq<Entry>, i: int)
    requires 0 <= i < |listing| && IsProjectImage(listing[i])
    ensures listing[i].name in ProjectImages(listing)
  {
    var sorted := SortBy(listing, NameOf);
    SortByKeeps(listing, NameOf, listing[i]);
    FilterKeeps(sorted, IsProjectImage, listing[i]);
    NameListed(Filter(sorted, IsProjectImage), listing[i]);
  }

  lemma NameListed(es: seq<Entry>, e: Entry)
    requires e in es
    ensures e.name in Names(es)
  {
    var m :| 0 <= m < |es| && es[m] == e;
    assert Names(es)[m] == e.name;
  }

  lemma ProjectImagesSound(listing: seq<Entry>, m: int)
    requires 0 <= m < |ProjectImages(listing)|
    ensures exists i :: 0 <= i < |listing| && IsProjectImage(listing[i]) && listing[i].name == ProjectImages(listing)[m]
  {
    var sorted := SortBy(listing, NameOf);
    var kept := Filter(sorted, IsProjectImage);
    assert kept[m] in sorted;
    assert kept[m] in multiset(listing);
    var i :| 0 <= i < |listing| && listing[i] == kept[m];
  }

  /**
    The image list holds, in ascending order, the name of every regular file
    of the listing with an image suffix (any case) and no "thumbnail" in its
    lower-cased name, once per such entry, and nothing else.
   */
  lemma ProjectImagesSpec(listing: seq<Entry>)
    ensures Ascending(ProjectImages(listing))
    ensures |ProjectImages(listing)| == |Filter(listing, IsProjectImage)|
    ensures forall i :: 0 <= i < |listing| && IsProjectImage(listing[i]) ==> listing[i].name in ProjectImages(listing)
    ensures forall m :: 0 <= m < |ProjectImages(listing)| ==>
              exists i :: 0 <= i < |listing| && IsProjectImage(listing[i]) && listing[i].name == ProjectImages(listing)[m]
  {
    ProjectImagesSorted(listing);
    forall i | 0 <= i < |listing| && IsProjectImage(listing[i])
      ensures listing[i].name in ProjectImages(listing)
    {
      ProjectImagesComplete(listing, i);
    }
    forall m | 0 <= m < |ProjectImages(listing)|
      ensures exists i :: 0 <= i < |listing| && IsProjectImage(listing[i]) && listing[i].name == ProjectImages(listing)[m]
    {
      ProjectImagesSound(listing, m);
    }
  }

  /** A project folder with its listing. */
  datatype Folder = Folder(entry: Entry, listing: seq<Entry>)

  function FolderName(f: Folder): string { f.entry.name }

  predicate IsFolderDir(f: Folder) { f.entry.kind == Directory }

  function ManifestEntries(fs: seq<Folder>): (r: seq<(string, seq<string>)>)
    ensures |r| == |fs|
    ensures forall i :: 0 <= i < |fs| ==> r[i] == (fs[i].entry.name, ProjectImages(fs[i].listing))
  {
    if fs == [] then [] else [(fs[0].entry.name, ProjectImages(fs[0].listing))] + ManifestEntries(fs[1..])
  }

  /** `update_manifest()`: project name to image list, for the directories in sorted order. */
  function UpdateManifest(folders: seq<Folder>): seq<(string, seq<string>)> {
    ManifestEntries(Filter(SortBy(folders, FolderName), IsFolderDir))
  }

  /**
    The manifest lists the directories among the folders in ascending order
    of name, each with its image list, and nothing that is not a directory.
   */
  lemma UpdateManifestSpec(folders: seq<Folder>)
    ensures forall i, j :: 0 <= i < j < |UpdateManifest(folders)| ==>
              LexLe(UpdateManifest(folders)[i].0, UpdateManifest(folders)[j].0)
    ensures forall i :: 0 <= i < |UpdateManifest(folders)| ==>
              exists f :: f in folders && IsFolderDir(f) && UpdateManifest(folders)[i] == (f.entry.name, ProjectImages(f.listing))
    ensures forall f :: f in folders && IsFolderDir(f) ==> (f.entry.name, ProjectImages(f.listing)) in UpdateManifest(folders)
  {
    var m := UpdateManifest(folders);
    UpdateManifestAscending(folders);
    UpdateManifestSound(folders);
    forall f | f in folders && IsFolderDir(f)
      ensures (f.entry.name, ProjectImages(f.listing)) in m
    {
      UpdateManifestComplete(folders, f);
    }
  }

  lemma UpdateManifestAscending(folders: seq<Folder>)
    ensures forall i, j :: 0 <= i < j < |UpdateManifest(folders)| ==>
              LexLe(UpdateManifest(folders)[i].0, UpdateManifest(folders)[j].0)
  {
    var dirs := Filter(SortBy(folders, FolderName), IsFolderDir);
    FilterKeepsSorted(SortBy(folders, FolderName), IsFolderDir, FolderName);
    var m := UpdateManifest(folders);
    forall i, j | 0 <= i < j < |m|
      ensures LexLe(m[i].0, m[j].0)
    {
      assert m[i].0 == FolderName(dirs[i]) && m[j].0 == FolderName(dirs[j]);
    }
  }

  lemma UpdateManifestComplete(folders: seq<Folder>, f: Folder)
    requires f in folders && IsFolderDir(f)
    ensures (f.entry.name, ProjectImages(f.listing)) in UpdateManifest(folders)
  {
    var sorted := SortBy(folders, FolderName);
    var dirs := Filter(sorted, IsFolderDir);
    SortByKeeps(folders, FolderName, f);
    FilterKeeps(sorted, IsFolderDir, f);
    var m :| 0 <= m < |dirs| && dirs[m] == f;
    assert UpdateManifest(folders)[m] == (f.entry.name, ProjectImages(f.listing));
  }

  lemma UpdateManifestSound(folders: seq<Folder>)
    ensures forall i :: 0 <= i < |UpdateManifest(folders)| ==>
              exists f :: f in folders && IsFolderDir(f) && UpdateManifest(folders)[i] == (f.entry.name, ProjectImages(f.listing))
  {
    var sorted := SortBy(folders, FolderName);
    var dirs := Filter(sorted, IsFolderDir);
    var m := UpdateManifest(folders);
    forall i | 0 <= i < |m|
      ensures exists f :: f in folders && IsFolderDir(f) && m[i] == (f.entry.name, ProjectImages(f.listing))
    {
      var f := dirs[i];
      assert f in sorted;
      assert f in multiset(folders);
      assert m[i] == (f.entry.name, ProjectImages(f.listing));
    }
  }


  // --------------------------------------------------------- display names

  /** Number of leading ASCII digits. */
  function LeadingDigits(s: string): (r: nat)
    ensures r <= |s| && AllDigits(s[..r])
    ensures r < |s| ==> !IsDigit(s[r])
  {
    if s == [] || !IsDigit(s[0]) then 0
    else
      var k := LeadingDigits(s[1..]);
      assert s[..k + 1] == [s[0]] + s[1..][..k];
      k + 1
  }

  /** The text starts with `^\d+_`. */
  predicate HasNumberPrefix(s: string) {
    exists k | 1 <= k < |s| :: AllDigits(s[..k]) && s[k] == '_'
  }

  /** `re.sub(r'^\d+_', '', name)`: one leading run of digits and its underscore removed. */
  function StripNumberPrefix(s: string): (r: string)
    ensures |r| <= |s| && r == s[|s| - |r|..]
    ensures r == s <==> !HasNumberPrefix(s)
  {
    var k := LeadingDigits(s);
    if 1 <= k < |s| && s[k] == '_' then s[k + 1..]
    else
      forall j | 1 <= j < |s|
        ensures AllDigits(s[..j]) ==> j <= k
      {
        if k < j {
          assert s[..j][k] == s[k];
        }
      }
      s
  }

  /** Only one prefix goes, however many follow it. */
  lemma StripsOnePrefix(digits: string, rest: string)
    requires digits != [] && AllDigits(digits)
    ensures StripNumberPrefix(digits + "_" + rest) == rest
  {
    var s := digits + "_" + rest;
    assert s[..|digits|] == digits;
    assert forall t | 0 <= t < |digits| :: s[t] == digits[t];
    var k := LeadingDigits(s);
    assert s[|digits|] == '_';
    assert k == |digits|;
    assert s[k + 1..] == rest;
  }

  /** `str.title()` on ASCII: a letter is upper-case after a non-letter and lower-case after a letter. */
  function TitleChar(s: string, i: nat): char
    requires i < |s|
  {
    if !IsLetter(s[i]) then s[i]
    else if i == 0 || !IsLetter(s[i - 1]) then ToUpper(s[i])
    else ToLower(s[i])
  }

  function Title(s: string): (r: string)
    ensures |r| == |s|
    ensures forall i :: 0 <= i < |s| ==> r[i] == TitleChar(s, i)
  {
    seq(|s|, i requires 0 <= i < |s| => TitleChar(s, i))
  }

  /** Every word starts with a capital and continues in lower case. */
  predicate IsTitleCased(s: string) {
    forall i :: 0 <= i < |s| && IsLetter(s[i]) ==> (IsUpper(s[i]) <==> (i == 0 || !IsLetter(s[i - 1])))
  }

  /**
    Title-casing yields a title-cased text with the same letters up to case
    and every other character untouched, and doing it again changes nothing.
   */
  lemma TitleSpec(s: string)
    ensures IsTitleCased(Title(s))
    ensures Lower(Title(s)) == Lower(s)
    ensures forall i :: 0 <= i < |s| && !IsLetter(s[i]) ==> Title(s)[i] == s[i]
    ensures Title(Title(s)) == Title(s)
  {
    var t := Title(s);
    assert forall i :: 0 <= i < |s| ==> (IsLetter(t[i]) <==> IsLetter(s[i]));
  }

  /** `get_project_name_from_folder(folder_name)`. */
  function ProjectName(folder: string): string {
    Title(ReplaceChar(StripNumberPrefix(folder), '_', ' '))
  }

  /**
    A display name has no underscore, is title-cased, and is the folder name
    after its one number prefix, with underscores read as spaces.
   */
  lemma ProjectNameSpec(folder: string)
    ensures '_' !in ProjectName(folder)
    ensures IsTitleCased(ProjectName(folder))
    ensures Lower(ProjectName(folder)) == Lower(ReplaceChar(StripNumberPrefix(folder), '_', ' '))
    ensures !HasNumberPrefix(folder) ==> ProjectName(folder) == Title(ReplaceChar(folder, '_', ' '))
  {
    var spaced := ReplaceChar(StripNumberPrefix(folder), '_', ' ');
    TitleSpec(spaced);
    forall i | 0 <= i < |spaced|
      ensures ProjectName(folder)[i] != '_'
    {
      assert spaced[i] != '_';
    }
  }

  // ------------------------------------------------------------ grid items

  /** `not thumbnail_file`: no thumbnail, or an empty name. */
  predicate HasThumbnail(t: Option<string>) {
    t.Some? && t.value != ""
  }

  /**
    The class suffix kept from the page: the captured text stripped of
    whitespace, and then one leading space unless it is empty.
   */
  function SpanClass(raw: Option<string>): (r: string)
    ensures r == "" <==> (raw.None? || Strip(raw.value) == "")
    ensures r != "" ==> |r| >= 2 && r[0] == ' ' && r[1] != ' ' && r[1..] == Strip(raw.value)
  {
    var s := if raw.Some? then Strip(raw.value) else "";
    if s != "" && s[0] != ' ' then " " + s else s
  }

  datatype GridItem = GridItem(number: nat, span: string, id: string, thumbnail: string, name: string)

  /** The loop over sorted project ids, numbering from `num`. */
  function GridItems(ids: seq<string>, num: nat, thumb: string -> Option<string>, spans: string -> Option<string>): seq<GridItem> {
    if ids == [] then []
    else if HasThumbnail(thumb(ids[0])) then
      [GridItem(num, SpanClass(spans(ids[0])), ids[0], thumb(ids[0]).value, ProjectName(ids[0]))]
      + GridItems(ids[1..], num + 1, thumb, spans)
    else GridItems(ids[1..], num, thumb, spans)
  }

  /** The projects that get a grid item. */
  function Shown(ids: seq<string>, thumb: string -> Option<string>): seq<string> {
    Filter(ids, id => HasThumbnail(thumb(id)))
  }

  /**
    A project without a thumbnail is skipped and does not use up a number:
    the items are the projects that have one, in order, numbered
    consecutively from `num`.
   */
  lemma {:induction false} GridItemsNumbering(ids: seq<string>, num: nat, thumb: string -> Option<string>, spans: string -> Option<string>)
    ensures |GridItems(ids, num, thumb, spans)| == |Shown(ids, thumb)|
    ensures forall i :: 0 <= i < |GridItems(ids, num, thumb, spans)| ==>
              GridItems(ids, num, thumb, spans)[i].number == num + i
              && GridItems(ids, num, thumb, spans)[i].id == Shown(ids, thumb)[i]
  {
    GridItemsLength(ids, num, thumb, spans);
    forall i | 0 <= i < |GridItems(ids, num, thumb, spans)|
      ensures GridItems(ids, num, thumb, spans)[i].number == num + i
      ensures GridItems(ids, num, thumb, spans)[i].id == Shown(ids, thumb)[i]
    {
      GridItemAt(ids, num, thumb, spans, i);
    }
  }

  lemma {:induction false} GridItemsLength(ids: seq<string>, num: nat, thumb: string -> Option<string>, spans: string -> Option<string>)
    ensures |GridItems(ids, num, thumb, spans)| == |Shown(ids, thumb)|
  {
    if ids != [] {
      if HasThumbnail(thumb(ids[0])) {
        GridItemsLength(ids[1..], num + 1, thumb, spans);
      } else {
        GridItemsLength(ids[1..], num, thumb, spans);
      }
    }
  }

  lemma {:induction false} GridItemAt(ids: seq<string>, num: nat, thumb: string -> Option<string>, spans: string -> Option<string>, i: nat)
    requires i < |GridItems(ids, num, thumb, spans)|
    ensures i < |Shown(ids, thumb)|
    ensures GridItems(ids, num, thumb, spans)[i].number == num + i
    ensures GridItems(ids, num, thumb, spans)[i].id == Shown(ids, thumb)[i]
  {
    var rest := ids[1..];
    GridItemsLength(ids, num, thumb, spans);
    if HasThumbnail(thumb(ids[0])) {
      if i > 0 {
        GridItemAt(rest, num + 1, thumb, spans, i - 1);
      }
    } else {
      GridItemAt(rest, num, thumb, spans, i);
    }
  }


  /** Each item carries its project's thumbnail, kept span class and display name. */
  lemma {:induction false} GridItemsFields(ids: seq<string>, num: nat, thumb: string -> Option<string>, spans: string -> Option<string>)
    ensures forall it :: it in GridItems(ids, num, thumb, spans) ==>
              Some(it.thumbnail) == thumb(it.id) && it.span == SpanClass(spans(it.id)) && it.name == ProjectName(it.id)
  {
    if ids != [] {
      if HasThumbnail(thumb(ids[0])) {
        GridItemsFields(ids[1..], num + 1, thumb, spans);
      } else {
        GridItemsFields(ids[1..], num, thumb, spans);
      }
    }
  }

  const GridIndent: string := "                "
  const ItemIndent: string := "                    "
  const ImageIndent: string := "                        "

  function GridItemText(it: GridItem): string {
    ItemIndent + "<div class=\"grid-item item-" + Decimal(it.number) + it.span + "\" data-project=\"" + it.id + "\">\n"
    + ImageIndent + "<img src=\"/design_quick_look/assets/thubnails/" + it.thumbnail + "\" alt=\"" + it.name
    + "\" class=\"grid-image\">\n"
    + ItemIndent + "</div>"
  }

  function GridTexts(items: seq<GridItem>): (r: seq<string>)
    ensures |r| == |items|
    ensures forall i :: 0 <= i < |items| ==> r[i] == GridItemText(items[i])
  {
    if items == [] then [] else [GridItemText(items[0])] + GridTexts(items[1..])
  }

  /** `new_grid_content`. */
  function GridContent(items: seq<GridItem>): string {
    GridIndent + "<div class=\"grid\">\n" + Join(GridTexts(items), "\n") + "\n" + GridIndent + "</div>"
  }

  // -------------------------------------------------------------- grid scan

  const GridOpenTag: string := "<div class=\"grid\">"
  const OpenTag: string := "<div class="
  const CloseTag: string := "</div>"

  /** `html[q:q+11] == '<div class='`, character by character. */
  predicate OpenAt(html: string, q: int) {
    0 <= q && q + 11 <= |html|
    && html[q] == '<' && html[q + 1] == 'd' && html[q + 2] == 'i' && html[q + 3] == 'v' && html[q + 4] == ' '
    && html[q + 5] == 'c' && html[q + 6] == 'l' && html[q + 7] == 'a' && html[q + 8] == 's' && html[q + 9] == 's'
    && html[q + 10] == '='
  }

  /** `html[q:q+6] == '</div>'`, character by character. */
  predicate CloseAt(html: string, q: int) {
    0 <= q && q + 6 <= |html|
    && html[q] == '<' && html[q + 1] == '/' && html[q + 2] == 'd' && html[q + 3] == 'i' && html[q + 4] == 'v'
    && html[q + 5] == '>'
  }

  lemma OpenAtIsOccurrence(html: string, q: int)
    ensures OpenAt(html, q) <==> OccursAt(html, OpenTag, q)
  {
    if 0 <= q && q + 11 <= |html| {
      var w := html[q..q + 11];
      assert forall k :: 0 <= k < 11 ==> w[k] == html[q + k];
      assert OpenTag == ['<', 'd', 'i', 'v', ' ', 'c', 'l', 'a', 's', 's', '='];
    }
  }

  lemma CloseAtIsOccurrence(html: string, q: int)
    ensures CloseAt(html, q) <==> OccursAt(html, CloseTag, q)
  {
    if 0 <= q && q + 6 <= |html| {
      var w := html[q..q + 6];
      assert forall k :: 0 <= k < 6 ==> w[k] == html[q + k];
      assert CloseTag == ['<', '/', 'd', 'i', 'v', '>'];
    }
  }

  /** The step in depth at one position: an opening tag first, else a closing one. */
  function Delta(html: string, q: int): int {
    if OpenAt(html, q) then 1 else if CloseAt(html, q) then -1 else 0
  }

  /** The scan's depth just before position `q`. */
  function Depth(html: string, start: nat, q: nat): int
    requires start <= q
    decreases q - start
  {
    if q == start then 0 else Depth(html, start, q - 1) + Delta(html, q - 1)
  }

  /** A closing tag at `q` that brings the depth from one back to zero. */
  predicate ClosesGrid(html: string, start: nat, q: nat) {
    start <= q && Delta(html, q) == -1 && Depth(html, start, q) == 1
  }

  /** What one step of the scan at `pos` does to the depth and whether it ends the grid. */
  lemma Step(html: string, start: nat, pos: nat)
    requires start <= pos
    ensures Depth(html, start, pos + 1) == Depth(html, start, pos) + Delta(html, pos)
    ensures ClosesGrid(html, start, pos) <==> Delta(html, pos) == -1 && Depth(html, start, pos) == 1
  {
  }

  /** Past the end of the page no closing tag can start. */
  lemma NoneBeyond(html: string, start: nat, pos: nat)
    requires pos >= |html|
    ensures forall q :: pos <= q ==> !ClosesGrid(html, start, q)
  {
  }

  /** No closing tag in `[start, hi)` ends the grid. */
  predicate OpenUntil(html: string, start: nat, hi: nat) {
    forall q :: start <= q < hi ==> !ClosesGrid(html, start, q)
  }

  lemma Extend(html: string, start: nat, pos: nat)
    requires start <= pos && OpenUntil(html, start, pos) && !ClosesGrid(html, start, pos)
    ensures OpenUntil(html, start, pos + 1)
  {
  }

  /** The scanning loop from `pos` on with the current `depth`. */
  function ScanFrom(html: string, start: nat, pos: nat, depth: int): (r: int)
    requires start <= pos && depth == Depth(html, start, pos) && OpenUntil(html, start, pos)
    ensures r == -1 ==> forall q :: start <= q ==> !ClosesGrid(html, start, q)
    ensures r != -1 ==> pos + 6 <= r <= |html| && ClosesGrid(html, start, r - 6) && OpenUntil(html, start, r - 6)
    decreases |html| - pos, 1
  {
    if pos >= |html| then
      NoneBeyond(html, start, pos);
      -1
    else ScanStep(html, start, pos, depth)
  }

  /** One iteration of the loop at `pos`, then the rest of the loop. */
  function ScanStep(html: string, start: nat, pos: nat, depth: int): (r: int)
    requires start <= pos < |html| && depth == Depth(html, start, pos) && OpenUntil(html, start, pos)
    ensures r == -1 ==> forall q :: start <= q ==> !ClosesGrid(html, start, q)
    ensures r != -1 ==> pos + 6 <= r <= |html| && ClosesGrid(html, start, r - 6) && OpenUntil(html, start, r - 6)
    decreases |html| - pos, 0
  {
    Step(html, start, pos);
    var d := depth + Delta(html, pos);
    if Delta(html, pos) == -1 && d == 0 then pos + 6
    else
      Extend(html, start, pos);
      ScanFrom(html, start, pos + 1, d)
  }

  /**
    The grid's end: just past the first closing tag, counted from the grid's
    start, at which the depth returns to zero; -1 when there is none.
   */
  function GridEnd(html: string, start: nat): (r: int)
    ensures r == -1 <==> forall q :: start <= q ==> !ClosesGrid(html, start, q)
    ensures r != -1 ==> start + 6 <= r <= |html| && ClosesGrid(html, start, r - 6)
    ensures r != -1 ==> forall q :: start <= q < r - 6 ==> !ClosesGrid(html, start, q)
  {
    ScanFrom(html, start, start, 0)
  }

  // ------------------------------------------------------- projectNames

  const NamesHeader: string := "        const projectNames = {\n"
  const NamesFooter: string := "\n        };"
  const NamesKey: string := "const " + "projectNames" + " = {"

  function NameEntry(id: string): string {
    "            '" + id + "': '" + ProjectName(id) + "'"
  }

  function NameEntries(ids: seq<string>): (r: seq<string>)
    ensures |r| == |ids|
    ensures forall i :: 0 <= i < |ids| ==> r[i] == NameEntry(ids[i])
  {
    if ids == [] then [] else [NameEntry(ids[0])] + NameEntries(ids[1..])
  }

  /** The accumulated text: every entry followed by a comma and a newline. */
  function NameLines(ids: seq<string>): string {
    if ids == [] then "" else NameEntry(ids[0]) + ",\n" + NameLines(ids[1..])
  }

  /** `s.rstrip(chars)`: the longest prefix of `s` that does not end in one of `chars`. */
  function RStripChars(s: string, chars: set<char>): (r: string)
    ensures |r| <= |s| && r == s[..|r|]
    ensures r == [] || r[|r| - 1] !in chars
    ensures forall i :: |r| <= i < |s| ==> s[i] in chars
  {
    if s != [] && s[|s| - 1] in chars then RStripChars(s[..|s| - 1], chars) else s
  }

  /** `js_project_names`. */
  function NamesBlock(ids: seq<string>): string {
    RStripChars(NamesHeader + NameLines(ids), {',', '\n'}) + NamesFooter
  }

  lemma NameLinesJoin(ids: seq<string>)
    requires ids != []
    ensures NameLines(ids) == Join(NameEntries(ids), ",\n") + ",\n"
  {
    NameLinesTerminated(ids);
    TerminatedJoin(NameEntries(ids), ",\n");
  }

  lemma {:induction false} NameLinesTerminated(ids: seq<string>)
    ensures NameLines(ids) == Terminated(NameEntries(ids), ",\n")
  {
    if ids != [] {
      var es := NameEntries(ids);
      NameLinesTerminated(ids[1..]);
      assert es[1..] == NameEntries(ids[1..]);
    }
  }

  lemma StripCommaNewline(x: string)
    requires x != [] && x[|x| - 1] == '\''
    ensures RStripChars(x + ",\n", {',', '\n'}) == x
  {
    var cs := {',', '\n'};
    var s := x + ",\n";
    assert s[..|s| - 1] == x + ",";
    assert (x + ",")[..|x|] == x;
    assert RStripChars(x, cs) == x;
    assert RStripChars(x + ",", cs) == RStripChars(x, cs);
    assert RStripChars(s, cs) == RStripChars(x + ",", cs);
  }

  lemma {:induction false} JoinEndsWithLast(ids: seq<string>)
    requires ids != []
    ensures var j := Join(NameEntries(ids), ",\n"); j != [] && j[|j| - 1] == '\''
  {
    if |ids| > 1 {
      JoinEndsWithLast(ids[1..]);
      assert NameEntries(ids)[1..] == NameEntries(ids[1..]);
    }
  }

  /**
    The `projectNames` object lists the ids one entry per line, separated by
    commas, with no comma after the last; with no ids it is empty.
   */
  lemma NamesBlockShape(ids: seq<string>)
    ensures ids == [] ==> NamesBlock(ids) == "        const projectNames = {" + NamesFooter
    ensures ids != [] ==> NamesBlock(ids) == NamesHeader + Join(NameEntries(ids), ",\n") + NamesFooter
  {
    if ids == [] {
      assert NamesHeader + NameLines(ids) == "        const projectNames = {" + "\n";
      assert RStripChars(NamesHeader, {',', '\n'}) == "        const projectNames = {";
    } else {
      var j := Join(NameEntries(ids), ",\n");
      NameLinesJoin(ids);
      JoinEndsWithLast(ids);
      assert NamesHeader + NameLines(ids) == (NamesHeader + j) + ",\n";
      StripCommaNewline(NamesHeader + j);
    }
  }

  /**
    The replacement of the `projectNames` object as the script writes it:
    the end is the position after the next `};`, computed as `find + 2`,
    which is 1 when there is no `};`.
   */
  function ReplaceNamesAsWritten(html: string, block: string): string {
    var s := Find(html, NamesKey);
    if s == -1 then html
    else
      var e := FindFrom(html, "};", s) + 2;
      html[..s] + block + html[e..]
  }

  /** Without `};` after the key, the text from the second character on is kept after the block. */
  lemma ReplaceNamesAsWrittenDuplicates(html: string, block: string)
    requires Contains(html, NamesKey)
    requires FindFrom(html, "};", Find(html, NamesKey)) == -1
    ensures ReplaceNamesAsWritten(html, block) == html[..Find(html, NamesKey)] + block + html[1..]
  {
  }

  /** A page holding only the key: the old key text survives the replacement. */
  lemma ReplaceNamesCounterexample()
    ensures ReplaceNamesAsWritten(NamesKey, NamesFooter) == NamesFooter + NamesKey[1..]
    ensures ReplaceNames(NamesKey, NamesFooter) == NamesKey
  {
    assert OccursAt(NamesKey, NamesKey, 0);
    assert Find(NamesKey, NamesKey) == 0;
    forall i | 0 <= i < |NamesKey|
      ensures NamesKey[i] != '}'
    {
      if i < 6 { assert NamesKey[i] == "const "[i]; }
      else if i < 18 { assert NamesKey[i] == "projectNames"[i - 6]; }
      else { assert NamesKey[i] == " = {"[i - 18]; }
    }
    forall i | 0 <= i
      ensures !OccursAt(NamesKey, "};", i)
    {
      if i + 2 <= |NamesKey| {
        assert NamesKey[i..i + 2][0] == NamesKey[i];
      }
    }
    ReplaceNamesAsWrittenDuplicates(NamesKey, NamesFooter);
  }

  /** The replacement with the missing `};` case left alone. */
  function ReplaceNames(html: string, block: string): (r: string)
    ensures !Contains(html, NamesKey) ==> r == html
    ensures Contains(html, NamesKey) && FindFrom(html, "};", Find(html, NamesKey)) == -1 ==> r == html
  {
    var s := Find(html, NamesKey);
    if s == -1 then html
    else
      var e := FindFrom(html, "};", s);
      if e == -1 then html else html[..s] + block + html[e + 2..]
  }

  /**
    When the object is found, everything before the key and everything after
    its closing `};` is kept, and the object between is the new block.
   */
  lemma ReplaceNamesSpec(html: string, block: string)
    requires Contains(html, NamesKey)
    requires FindFrom(html, "};", Find(html, NamesKey)) != -1
    ensures var s := Find(html, NamesKey);
      var e := FindFrom(html, "};", s);
      && ReplaceNames(html, block) == html[..s] + block + html[e + 2..]
      && OccursAt(html, NamesKey, s) && OccursAt(html, "};", e) && s <= e
      && (forall i :: 0 <= i < s ==> !OccursAt(html, NamesKey, i))
      && (forall i :: s <= i < e ==> !OccursAt(html, "};", i))
  {
    FindPair(html, NamesKey, "};");
    var s := Find(html, NamesKey);
    var e := FindFrom(html, "};", s);
    assert ReplaceNames(html, block) == html[..s] + block + html[e + 2..];
  }

  /** The first `key`, and the first `close` at or after it, with nothing earlier matching. */
  lemma FindPair(html: string, key: string, close: string)
    requires Contains(html, key)
    requires FindFrom(html, close, Find(html, key)) != -1
    ensures var s := Find(html, key);
      var e := FindFrom(html, close, s);
      && 0 <= s <= e && e + |close| <= |html|
      && OccursAt(html, key, s) && OccursAt(html, close, e)
      && (forall i :: 0 <= i < s ==> !OccursAt(html, key, i))
      && (forall i :: s <= i < e ==> !OccursAt(html, close, i))
  {
  }

  // -------------------------------------------------------------- the page

  /**
    `update_html(projects)`: `None` when the page has no grid (the script
    stops without writing); otherwise the grid, when its end is found,
    replaced by the new items, and the `projectNames` object replaced.
   */
  function UpdateHtml(html: string, projects: seq<string>, thumb: string -> Option<string>, spans: string -> Option<string>): (r: Option<string>)
    ensures r.None? <==> !Contains(html, GridOpenTag)
    ensures r.Some? && GridEnd(html, Find(html, GridOpenTag)) == -1 ==>
      r.value == ReplaceNames(html, NamesBlock(Sorted(projects)))
  {
    var ids := Sorted(projects);
    var gs := Find(html, GridOpenTag);
    if gs == -1 then None
    else
      var ge := GridEnd(html, gs);
      var page := if ge == -1 then html else html[..gs] + GridContent(GridItems(ids, 1, thumb, spans)) + html[ge..];
      Some(ReplaceNames(page, NamesBlock(ids)))
  }
}

=== FILE: wrappers.dfy ===
/** Optional values and fallible results shared by every module of the model. */
module Wrappers {

  /** A value that may be absent (JavaScript `null`/`undefined`, Python `None`). */
  datatype Option<+T> = None | Some(value: T)

  /** The outcome of an operation that can throw: a value, or the error it raised. */
  datatype Result<+T, +E> = Success(value: T) | Failure(error: E)
}
